=== FILE: README.md ===
# Fundraising crawler: ingestion and bookkeeping core

A Dafny model of the crawler service that fills a database of fundraising
rounds, together with the HTTP routes and the scheduler that drive it.

The crawler has three kinds of runs:

- The **full crawl** reads listing pages 1, 2, … with retries. It upserts
  each page's records into the `Project` table by link. After each page it
  checkpoints the page number in its `CrawlState` row.
- The **quick update** reads the first three pages once each.
- The **detail crawl** visits every project whose `detailFetchedAt` is NULL.
  It stores the project's social links and team, then walks the rounds
  table of its page. For each investor it finds or creates a `Project` row
  and appends an `InvestmentRelationships` edge.

The routes do the following:

- validate pagination and list the initial projects with their edges;
- gate the three "start" endpoints on the state row's status;
- reset every state row;
- report the three rows.

The scheduler resets an interrupted row before starting the crawl again,
and keeps the two recurring jobs.

Modules, one per concern:

| module | file | concern |
|---|---|---|
| `Wrappers` | wrappers.dfy | `Option` / `Result`, mapping with failure |
| `Text` | text.dfy | JavaScript string built-ins: `trim`, `replace`, `indexOf`, `toLowerCase`, `String(n)` |
| `JsNumber` | js_number.dfy | `parseFloat`, `parseInt`, validator.js `isInt` |
| `AmountParser` | amount.dfy | the in-page `parseAmount` |
| `DateParser` | dates.dfy | the in-page `parseDate` (`Date.parse` is a parameter) |
| `ProjectStore` | store.dfy | the two tables, `bulkCreate` upsert, find-or-create, edge append, associations |
| `Listing` | listing.dfy | mapping a listing page's rows to records |
| `Details` | details.dfy | the detail page: social links, team, `scrapeAndUpdateProjectDetails` |
| `Rounds` | rounds.dfy | the rounds table and `processRounds` |
| `CrawlStates` | crawl_states.dfy | the `CrawlState` table, `findOne`, find-or-create, `save` |
| `Crawler` | crawler.dfy | `fullCrawl`, `quickUpdate`, `fetchProjectDetails` |
| `Routes` | routes.dfy | the fundraising router |
| `Scheduler` | scheduler.dfy | resume paths, start/stop of the jobs |

The browser, the network and the clock are parameters:

- A listing page is a function `fetch(page, attempt)` that gives the mapped
  records or an error. `Listing` states how a page becomes those records.
- A detail page is a `DetailScrape` value.
- `Date.parse` is a function `dateParse`.
- `new Date()` is given as a number.

The database is a value: a map from link to project, a sequence of edges,
and the next id. Every operation is a function or a method from the old
value to the new one.

## Model

| member | source | states |
|---|---|---|
| Text.Trim | src/services/crawler.js:103-107 | the result has no surrounding white space and is no longer than the input |
| Text.TrimPadded | src/services/crawler.js:103-107 | trimming removes exactly the white-space padding around a non-empty tight text |
| Text.TrimAround | src/services/crawler.js:103-107 | trimming a padded tight text, empty or not, gives that text back |
| Text.ReplaceFirst | src/services/crawler.js:46 | a string pattern that does not occur leaves the text unchanged; one that occurs changes the length by the difference |
| Text.ReplaceFirstAt | src/services/crawler.js:46 | when the pattern occurs at `k` and at no earlier index, whatever partial matches lie before `k`, exactly that occurrence is replaced and the later text, later occurrences included, is kept |
| Text.ToLower | src/services/crawler.js:55-57 | lower-casing keeps the length and maps each character |
| Text.IntToString | src/services/crawler.js:81 | an integer's decimal rendering (`${currentYear}`) is its digits, with a minus sign when negative, and reads back as the number |
| JsNumber.ParseFloat | src/services/crawler.js:61-62 | white space only gives NaN; a leading digit gives a non-negative number |
| JsNumber.ParseFloatNat | src/services/crawler.js:61-62 | `parseFloat` reads back a rendered whole number followed by any non-numeric text |
| JsNumber.ParseFloatDecimal | src/services/crawler.js:61-62 | `parseFloat` reads back a rendered decimal `w.f` followed by any non-numeric text as `w + f / 10^|f|` |
| JsNumber.ParseFloatDefined | src/services/crawler.js:61-62 | `parseFloat` gives a number exactly when, after the leading white space and an optional sign, a digit follows, or a `.` and a digit |
| JsNumber.ParseFloatSigned | src/services/crawler.js:61-62 | a literal that starts with `-` is the negation of the unsigned literal after the sign (`-25` is -25); with `+` it is that literal's value |
| JsNumber.ExponentOf | src/services/crawler.js:61-62 | an exponent part (`e` or `E`, an optional `+` or `-`, then the digits of `k`) reads as `k`, or as `-k` after `-`, whatever non-digit text follows |
| JsNumber.ParseFloatExponentPart | src/services/crawler.js:61-62 | digits `n` followed by an exponent part worth `x` read as `n` times ten to the `x` ("2e3" is 2000, "5E-1" is 0.5) |
| JsNumber.ParseInt | src/routes/fundraising.js:22-23 | `parseInt` with radix 10 gives a number exactly when a digit follows the leading white space and an optional sign |
| JsNumber.ParseIntAgreesWithIsInt | src/routes/fundraising.js:9-23 | on every string `isInt` accepts (`IsIntString`: an optional sign and at least one digit), `parseInt` gives the value `isInt` checked |
| AmountParser.ParseAmount | src/services/crawler.js:42-63 | null, empty and `--` amounts are null (the values of the others are stated by `ParseRendered` and `AmountWithoutDigitsIsNull`) |
| AmountParser.AmountWithoutDigitsIsNull | src/services/crawler.js:42-63 | an amount with no digit is null, whatever unit marker it carries |
| AmountParser.ParseRendered | src/services/crawler.js:42-63 | every displayed amount, whole or decimal (`$25 M`, `$1.5 K`, `$2 million`, `$2 Million USD`, `$4 MILLION+`, `$0.75`, `$3 B`), parses to its figure `w + f / 10^|f|` times its unit's multiplier; the word "million" counts in any letter case and with any text after it that ends neither with white space nor with `M` or `K`; `B` is not a unit |
| AmountParser.ParseFloatFigure | src/services/crawler.js:61 | `parseFloat` reads a figure's text back as the figure's value, whatever non-numeric text follows |
| AmountParser.ParseShown | src/services/crawler.js:46-62 | a figure followed by a unit parses to the figure's value times 1e6 for a trailing `M` or for the word "million" in any letter case (`MillionSpelling`), alone or followed by further text (`Trailer`), 1e3 for a trailing `K`, and 1 otherwise |
| DateParser.Normalise | src/services/crawler.js:65-91 | exactly the three shapes are recognised, and each is rewritten to the string handed to `Date.parse` |
| DateParser.ParseDate | src/services/crawler.js:65-96 | an unrecognised shape is null; a recognised one gives `Date.parse` of its normalised string |
| DateParser.NormaliseShown | src/services/crawler.js:65-91 | each way the listing writes a date is recognised and normalised as intended |
| DateParser.RecognisedExactlyShown | src/services/crawler.js:72-90 | the recognised strings are exactly the well-formed shown dates |
| Listing.CellText | src/services/crawler.js:107 | a missing cell gives undefined; a present one gives its trimmed text |
| Listing.MapRow | src/services/crawler.js:100-128 | name and link exist exactly when the first cell has an anchor (with an `href`); the amount, valuation and date are parsed from their cells; the record is initial |
| Listing.MapPage | src/services/crawler.js:31-36 | the "no data" page gives no records; otherwise there is one record per row after the header, in order |
| Listing.InsertableRow | src/services/crawler.js:102-104 | a row can be written exactly when its first cell has an anchor with an `href` |
| Listing.PageBatchWritten | src/services/crawler.js:179-181 | a page's batch is written exactly when every row after the header has a linked anchor |
| Listing.MapRenderedRow | src/services/crawler.js:100-128 | mapping a rendered row gives back its entry: name, link and description separated, whole or decimal figures scaled by their units, date normalised |
| Listing.DescriptionRecovered | src/services/crawler.js:105 | cutting the anchor text out of the first cell leaves the description |
| ProjectStore.UpsertOne | src/services/crawler.js:174-181 | one record replaces the row under its link, keeping the id, or creates it with a fresh id; nothing else changes; the invariants hold (`Valid`: each row under its own unique `projectLink` and with a distinct id, as src/models/fundraising.js:4-16 declares, and every edge joining two existing projects, as its references at lines 88-105 require) |
| ProjectStore.UpsertAll | src/services/crawler.js:174-181 | a batch keeps the invariants of `Valid` and the ids, writes no edge, and adds exactly the batch's links |
| ProjectStore.UpsertAllOthersUnchanged | src/services/crawler.js:174-181 | projects not named in the batch are untouched |
| ProjectStore.UpsertAllLastWins | src/services/crawler.js:174-181 | every link holds the columns of the last record with that link, under its old id if it had one |
| ProjectStore.UpsertAllRequeues | src/services/crawler.js:174-181 | every written project loses its detail timestamp, social links and team, so it is queued for details again |
| ProjectStore.UpsertBatch | src/services/crawler.js:179-181 | the batch fails as a whole exactly when some record lacks a name or link (a NOT NULL column), and the error's message is Sequelize's "Validation error" |
| ProjectStore.FindOrCreateProject | src/services/crawler.js:419-426 | the link's row is found unchanged, or created as a non-initial row with the investor's name and a fresh id |
| ProjectStore.FindOrCreateIdempotent | src/services/crawler.js:419-426 | asking again for the same link returns the same row and changes nothing |
| ProjectStore.AddInvestment | src/services/crawler.js:428-438 | an edge is appended, never merged, and the invariants hold |
| ProjectStore.InvestmentsGiven | src/models/fundraising.js:146-149 | the edges whose investor is the project |
| ProjectStore.InvestmentsReceived | src/models/fundraising.js:151-154 | the edges whose funded project is the project |
| Details.SocialLinksLastWins | src/services/crawler.js:291-295 | in `SocialLinks`, keyed by `LinkType` (the span's trimmed, lower-cased text, or "undefined" without a span), every anchor type is a key, and several anchors of one type keep the last `href` |
| Details.SocialLinksKeys | src/services/crawler.js:291-295 | the keys are exactly the anchors' types |
| Details.ToMember | src/services/crawler.js:298-303 | name and position exist exactly when their elements do; a missing avatar or card gives an empty string |
| Details.Team | src/services/crawler.js:298-303 | one member per team element, in order |
| Details.SaveDetails | src/services/crawler.js:309-313 | the social links, team and timestamp are set, and every other column is kept |
| Details.ScrapeAndUpdate | src/services/crawler.js:275-321 | a failed load changes nothing; a load saves the details; other projects stay as they were; old edges stay in front; new rows are non-initial investors; without a rounds table, or when its script threw, no edge is written; otherwise edge `k` after the old ones is the `k`-th (round, investor) pair's edge, from the investor's row into the visited project |
| Details.SaveRow | src/services/crawler.js:309-313 | `project.update` sets the details on the visited row only, keeping every id, key and edge |
| Details.PageRounds | src/services/crawler.js:316 | the page's rounds table is processed into the visited project: the edges of its pairs (`PagePairs`) follow the old ones, and new rows are non-initial investors without details |
| Rounds.LeadIffStar | src/services/crawler.js:406-410 | an investor is lead exactly when its text holds a `*`; the name is the trimmed text |
| Rounds.ExtractRound | src/services/crawler.js:398-411 | a row with fewer than five cells makes the script throw; otherwise there is one investor per anchor, in order |
| Rounds.ExtractRounds | src/services/crawler.js:337-413 | one short row loses the whole table; otherwise there is one round per row after the header, in order |
| Rounds.PaddedRoundDateIsNull | src/services/crawler.js:404-405 | a date cell with leading white space gets a null timestamp, because the timestamp is parsed from the untrimmed text |
| Rounds.PairsCover | src/services/crawler.js:417-418 | the nested loops visit exactly the (round, investor) pairs of the table |
| Rounds.StepFacts | src/services/crawler.js:419-438 | one pair finds or creates the investor, appends exactly its edge, and moves nothing else |
| Rounds.ProcessAllKeepsEdges | src/services/crawler.js:417-440 | ids are kept, old edges stay in front, and one edge is added per pair |
| Rounds.ProcessAllKeys | src/services/crawler.js:417-440 | the projects afterwards are the old ones plus the investors met |
| Rounds.ProcessAllKeepsOld | src/services/crawler.js:417-440 | an existing project is left as it was |
| Rounds.ProcessAllNewOnes | src/services/crawler.js:420-426 | every created project is non-initial and has no details |
| Rounds.ProcessAllEdge | src/services/crawler.js:428-438 | edge `k` of the batch is the `k`-th pair's edge, from the investor's row into the funded project |
| Rounds.ProcessAllNames | src/services/crawler.js:419-426 | a new investor is named after the first pair with its link |
| Rounds.RunPairs | src/services/crawler.js:417-440 | the loops compute the pairs processed one step each, in order |
| Rounds.ProcessPairs | src/services/crawler.js:417-440 | all of the above for one rounds table: edges, projects, new rows, names |
| Rounds.ProcessAll | src/services/crawler.js:417-440 | processing the pairs one step each keeps the table invariants and the funded project |
| Rounds.ProcessRounds | src/services/crawler.js:323-444 | a table whose script threw writes nothing; otherwise the projects afterwards are the old ones plus the investors met, old projects are untouched, edge `k` after the old ones is the `k`-th pair's edge from the investor's row into the funded project, and a new investor is named after its first pair |
| CrawlStates.NewRowDefaults | src/models/crawl-state.js:4-46 | a created row is idle, at page 1, with zero counters and no link, time or error |
| CrawlStates.KindOf | src/models/crawl-state.js:27-36 | the flag pair names the kind; both flags set names none |
| CrawlStates.FindFirst | src/services/crawler.js:146 | `findOne` gives the first matching row, or none when no row matches |
| CrawlStates.FindOrCreate | src/services/crawler.js:146-147 | the row found is kept, or a fresh row with the given flags is appended |
| CrawlStates.FindOrCreateIdempotent | src/services/crawler.js:146-147 | a second find-or-create with the same clause finds the same row |
| CrawlStates.ExactlyKindMatches | src/routes/fundraising.js:102 | the exact flag query matches exactly the rows of that kind |
| CrawlStates.Save | src/services/crawler.js:151-152 | saving replaces one row and keeps the others and the invariants |
| Crawler.WithRetryOutcome | src/services/crawler.js:157-166 | `WithRetry` succeeds on a page exactly when one of the four attempts does, with the first success; otherwise the last error is thrown |
| Crawler.Ingest | src/services/crawler.js:174-181 | writing batches keeps the invariants and the ids and writes no edge |
| Crawler.IngestRequeues | src/services/crawler.js:174-181 | every project a listing crawl writes is queued for details again |
| Crawler.CrawlPage | src/services/crawler.js:157-181 | a page moves the crawl on exactly when it loads with rows that can all be written, and then its records are upserted; otherwise the stop reason is given and nothing is written |
| Crawler.CrawlFrom | src/services/crawler.js:154-191 | the loop writes the consecutive pages that move it on, stops at the first that does not, and checkpoints the last written page and its time |
| Crawler.FullCrawl | src/services/crawler.js:143-203 | the run ends completed on an empty page or failed with the thrown message; the old error is kept on success; the row records the last page written |
| Crawler.WriteQuickPages | src/services/crawler.js:215-227 | pages 1 to 3 are fetched once each and written in order, stopping at the first that cannot be written |
| Crawler.QuickUpdate | src/services/crawler.js:205-238 | after three pages the row is completed with the time; on failure it is left running; its error is never touched |
| Crawler.QuickLookupTakesDetailRow | src/services/crawler.js:208-209 | the quick update's loose lookup takes over a detail row that comes first |
| Crawler.FetchProjectDetailsAsWritten | src/services/crawler.js:240-273 | as written, a non-empty queue fails on its first project with a ReferenceError and nothing is scraped |
| Crawler.Visit | src/services/crawler.js:253-260 | one visit keeps the detail run's progress and its edge table one project further |
| Crawler.EdgesStep | src/services/crawler.js:256 | a visit that appends its page's edges after the old ones extends the run's edge table by exactly those edges |
| Crawler.VisitAll | src/services/crawler.js:253-261 | every queued project is visited in order; the edge table is the old edges followed by each visit's edges (`RunEdges`) in queue order; the row records the last link and its time |
| Crawler.RunEdgesFunded | src/services/crawler.js:253-261 | every edge the visits add goes into a visited project whose page gave (round, investor) pairs |
| Crawler.FetchProjectDetails | src/services/crawler.js:240-273 | with the loop variable used: every queued project is visited, others are untouched, the edges written are each visit's edges in queue order, and the row ends completed with no error; when no page loads, as with no browser open (the run launches none, crawler.js:8, 240-273, 278), the database is unchanged |
| Crawler.NewEdgesFunded | src/services/crawler.js:240-273 | after the detail run, every edge it added goes into a queued project whose page gave (round, investor) pairs |
| Crawler.StillQueuedFailedToLoad | src/services/crawler.js:251-261 | after a detail run, an old project still without details is one whose page failed to load |
| Routes.IntOrValidated | src/routes/fundraising.js:22-23 | on a validated parameter, `parseInt` with the default for NaN or 0 is the validated value, or the default when absent |
| Routes.Paginate | src/routes/fundraising.js:9-24 | invalid parameters give 400; otherwise page and limit are within bounds, equal to the given values or the defaults, and the offset is `(page - 1) * limit` |
| Routes.PaginateIsParseIntOrDefault | src/routes/fundraising.js:22-23 | the page and limit equal the route's `parseInt` of the parameter, falling back to the default on NaN or 0 |
| Routes.TotalPages | src/routes/fundraising.js:87 | the fewest pages of `limit` rows that hold `count` rows |
| Routes.SortBy | src/routes/fundraising.js:27-31 | only `sort=fundedAt` orders the rows |
| Routes.EntryOf | src/routes/fundraising.js:55-80 | a listed project carries exactly the edges where it is investor, and exactly those where it is funded |
| Routes.Window | src/routes/fundraising.js:52-53 | `limit` rows from `offset`, fewer at the end, in order |
| Routes.ListFundraising | src/routes/fundraising.js:15-97 | corrected count: 400 exactly on invalid parameters; otherwise the page's rows with their edges, the number of listed projects as total, and the page count of that number |
| Routes.ListFundraisingAsWritten | src/routes/fundraising.js:33-88 | as written: the same page, with `total` the joined-row count and `totalPages` computed from it |
| Routes.JoinedRowsCount | src/routes/fundraising.js:33-81 | the joined-row count is at least the number of projects, and equals it exactly when no listed project has two edges on one side |
| Routes.ListOvercounts | src/routes/fundraising.js:33-88 | as written, a listing where some project has two given or two received edges reports a larger total than the corrected one |
| Routes.PageShowsRow | src/routes/fundraising.js:22-53 | page `p` shows at position `k` the row `k` after its offset, and lies within the page count |
| Routes.RowOnItsPage | src/routes/fundraising.js:22-53 | row `i` is on page `i / limit + 1` at position `i % limit` |
| Routes.PagePastEndEmpty | src/routes/fundraising.js:24-88 | a page past the page count is empty |
| Routes.PageListsInitialProjects | src/routes/fundraising.js:33-81 | each listed project is an initial project of the store, with its edges |
| Routes.SortedPage | src/routes/fundraising.js:27-54 | sorted by `fundedAt`, every page lists newest funding first, with projects without a date last |
| Routes.PageNumberSpelled | src/routes/fundraising.js:10 | every page number has a spelling the validator accepts |
| Routes.StartGate | src/routes/fundraising.js:100-148 | a start is rejected exactly when the first row of the kind is running; anything else starts the crawl |
| Routes.StartGateWithoutRow | src/routes/fundraising.js:102-109 | with no row of the kind, the crawl starts |
| Routes.QuickGatePassesRunningDetailRow | src/routes/fundraising.js:117-126 | the quick gate lets a quick update start that then takes over a running detail row |
| Routes.ResetRow | src/routes/fundraising.js:154-165 | a reset row is idle with no error, page, link or detail count; its flags, id, failure count and time are kept |
| Routes.Reset | src/routes/fundraising.js:151-172 | every row is reset |
| Routes.ResetProperties | src/routes/fundraising.js:151-172 | reset keeps the table well formed, is idempotent, and then lets every gate start its crawl |
| Routes.RowOf | src/routes/fundraising.js:177-181 | the first row of the kind, or none when there is none |
| Routes.Report | src/routes/fundraising.js:175-207 | each entry is null exactly when its kind has no row, and otherwise copies that row's columns |
| Routes.ReportAfterReset | src/routes/fundraising.js:151-207 | after a reset the report shows the same rows, all idle, without error, page, link or detail count |
| Scheduler.Reset | src/services/scheduler.js:21 | `state.update({status: 'idle', error: null})` changes exactly that row's status and error |
| Scheduler.ResumeFull | src/services/scheduler.js:11-26 | only the first full-crawl row that is running or failed is reset, and the crawl restarts at its `lastPage`; with none, nothing changes |
| Scheduler.ResumeFullCount | src/services/scheduler.js:12-21 | each resume removes exactly one row from the running-or-failed set, and none happens exactly when that set is empty |
| Scheduler.ResumeRecrawlsLastPage | src/services/scheduler.js:23-24 | a full crawl that failed after writing pages is resumed from the last page it wrote, which is crawled again |
| Scheduler.ResumeDetail | src/services/scheduler.js:28-44 | an error from `forceClose` propagates with the table unchanged; otherwise the first detail row is reset whatever its status, or nothing happens when there is none |
| Scheduler.ResumeDetailIdempotent | src/services/scheduler.js:30-39 | resuming the detail crawl twice is resuming it once |
| Scheduler.ResumeDetailTakesRunningRow | src/services/scheduler.js:30-39 | a detail row still marked running is reset, which the full-crawl lookup would never do |
| Scheduler.NewScheduler | src/services/scheduler.js:6-9 | a new scheduler has both job slots empty |
| Scheduler.Start | src/services/scheduler.js:46-72 | a daily 05:00 quick update and a 30-minute detail resume are scheduled, and startup runs only the detail resume |
| Scheduler.Stop | src/services/scheduler.js:74-81 | exactly the jobs named by a slot are cancelled; slots and other jobs are untouched |
| Scheduler.StopIdempotent | src/services/scheduler.js:74-81 | stopping twice is stopping once |
| Scheduler.StopUnscheduled | src/services/scheduler.js:74-81 | with empty slots, stopping changes nothing |
| Scheduler.StartThenStopLeavesNoneLive | src/services/scheduler.js:46-81 | after start then stop, no job is live |
| Scheduler.StartTwiceLeavesFirstJobsLive | src/services/scheduler.js:46-81 | starting twice overwrites the slots, so a stop leaves the first two jobs live |

## Left out

- The browser is not modelled: launching, navigating, waiting for selectors, `expandAllSections`, and the button clicks. Page content enters as the `fetch` oracle and as `DetailScrape` values.
- The full crawl's `fetch` oracle gives a page's records already mapped. `Listing.MapPage` relates a scraped table to those records separately.
- Delays between pages and retry back-off times are not modelled, only the number of attempts (one plus three retries).
- Logging is not modelled.
- The HTTP 500 branches are not modelled. They only catch database or network errors, which the model does not raise.
- `createdAt` and `updatedAt` timestamps are not modelled.
- `Date.parse` and `new Date()` are parameters (`dateParse`, `clock`, `now`, `currentYear`).
- Fire-and-forget calls are left out: the background crawls started by the routes and the scheduler, and interleavings of overlapping runs. Each run is modelled alone, from the state it starts in.
- Crawler.FullCrawl: termination is modelled only for sources that stop moving the crawl on after some page (the ghost `bound`). A listing that never ends is not covered.
- Crawler.FetchProjectDetails: this is the corrected loop (see Findings). The failure branch of its `catch` is unreachable in the model, because a detail page's own errors are swallowed inside `scrapeAndUpdateProjectDetails`. The run launches no browser: `initialize()` is called only by `fullCrawl` and `quickUpdate`, `this.page` starts null, and `close()` does not clear it. So in the source `scrape` is `LoadFailed` for every project, unless a concurrent full crawl or quick update has its page open at that moment. The `NoPageLoads` clause of the contract states that case: nothing is stored. The other clauses describe the run with the browser launched, as the correction intends.
- Scheduler.ResumeFull: returns the page `fullCrawl` is called with rather than running it. A NULL `lastPage`, which a status reset leaves behind, is passed on as NULL. The default argument of `fullCrawl` does not replace NULL.
- Scheduler.ResumeDetail: `crawler.forceClose` is an opaque outcome parameter whose effect is not modelled. src/services/crawler.js defines no such method, so as shipped the call throws a TypeError, which is the `CloseThrew` case.
- Scheduler.Start: the job bodies are not modelled. They catch and log every error, and cron timing is kept only as the rule strings.
- The listing route selects a `detailFailuresNumber` attribute that the `Project` model does not define. The model assumes the query succeeds and returns the rows it is given.
- Crawler.VisitAll: one clock reading per visit stands for both `detailFetchedAt` (src/services/crawler.js:312) and the row's `lastUpdateTime` (line 259). The two `new Date()` calls can differ by the time the scrape takes.
- Routes.ListFundraising: this is the corrected count (see Findings). `Routes.ListFundraisingAsWritten` has the count as the query computes it. The count relies on Sequelize's `count` counting joined rows when includes are given without `distinct`. That is library behaviour, not code in this repository.
- JsNumber.ParseFloat: does not model floating point. Values are exact reals, and `Infinity` literals and rounding are not covered.
- JsNumber.ParseFloatSigned: a signed or exponent literal's value is stated in two steps. `ParseFloatSigned` takes the value of the unsigned literal after the sign as a premise (which `ParseUnsignedNat` and `ParseUnsignedDecimal` supply), and `ParseFloatExponentPart` takes the exponent's value as a premise (which `ExponentOf` supplies). No single lemma states both steps for one literal.
- AmountParser.ParseRendered: the word "million" is covered when it follows the figure after one space, as the listing shows it. `$2million` (no space) also parses to 2e6 in the source and is not stated. Text after the word that ends with white space, `M` or `K` is not covered: the trim or the marker tests see it first.
- Text.ToLower: lower-cases ASCII letters only. JavaScript's `toLowerCase` also maps other letters, which only matters for the word "million" in non-ASCII spellings.
- The client, `apiServer.js`, `index.js` and the process configuration are not part of this model.

## Findings

| source | as written | input that shows it | evidently intended | confidence | as-written member | corrected member |
|---|---|---|---|---|---|---|
| src/services/crawler.js:254 | the loop body logs `projec.projectName`, and `projec` is undeclared, so the first iteration throws a ReferenceError (line 258 has the same typo) | any non-empty detail queue: the run ends failed with "projec is not defined" before the first project is scraped | use the loop variable `project`, and launch the browser (`await this.initialize()`) before the loop, so that visits can load pages: visit every queued project and record its link | high (not executed) | Crawler.FetchProjectDetailsAsWritten | Crawler.FetchProjectDetails |
| src/routes/fundraising.js:33-87 | `findAndCountAll` has two hasMany includes (the edges given and received) and no `distinct: true`, so `count` is `COUNT(Project.id)` over the left-joined rows: each project counts once per (given, received) pair | five initial projects, one of which gave two investments: `total` is 6 and, with `limit=5` (the smallest limit the validator at src/routes/fundraising.js:11 allows), `totalPages` is 2, and page 2 is empty | `total` is the number of initial projects (`distinct: true`) | medium (not executed; depends on Sequelize's count) | Routes.ListFundraisingAsWritten | Routes.ListFundraising |

=== FILE: amount.dfy ===
/** `parseAmount` of the listing and rounds extractors: a display amount such
    as "$25 M" becomes a number, "--" and blanks become null. */
module AmountParser {
  import opened Wrappers
  import opened Text
  import opened JsNumber

  /** The magnitude marker found after the `$` is removed, checked in this
      order: a trailing `M`, a trailing `K`, the word "million" anywhere in any
      letter case; anything else (a `B`, say) has no marker. */
  datatype Unit = TrailingM | TrailingK | MillionWord | NoUnit

  function UnitOf(s: string): Unit {
    if EndsWith(s, "M") then TrailingM
    else if EndsWith(s, "K") then TrailingK
    else if Contains(ToLower(s), "million") then MillionWord
    else NoUnit
  }

  /** The parsed figure `v` times the unit's multiplier (1e6, 1e3, 1e6, 1). */
  function Scaled(u: Unit, v: real): real {
    match u
    case TrailingM => v * 1000000.0
    case TrailingK => v * 1000.0
    case MillionWord => v * 1000000.0
    case NoUnit => v
  }

  /** The text after the first `$` is removed and the rest trimmed. */
  function Stripped(raw: string): string {
    Trim(ReplaceFirst(raw, "$", ""))
  }

  /** The text handed to `parseFloat`: the first `M`/`K` removed (the first
      one, not necessarily the trailing one), or the lower-cased text with its
      first "million" removed, then trimmed. */
  function NumberText(s: string, u: Unit): string {
    match u
    case TrailingM => Trim(ReplaceFirst(s, "M", ""))
    case TrailingK => Trim(ReplaceFirst(s, "K", ""))
    case MillionWord => Trim(ReplaceFirst(ToLower(s), "million", ""))
    case NoUnit => s
  }

  /** `parseAmount(valueStr)`; `None` for null/undefined input. */
  function ParseAmount(raw: Option<string>): (r: Option<real>)
    ensures raw.None? || raw == Some("") || raw == Some("--") ==> r.None?
  {
    if raw.None? || raw.value == "" || raw.value == "--" then None
    else ParseStripped(Stripped(raw.value))
  }

  /** The number a stripped amount text denotes: `parseFloat` of its number
      text times its unit's multiplier, `None` when that is NaN. */
  function ParseStripped(s: string): Option<real> {
    var u := UnitOf(s);
    var value := ParseFloat(NumberText(s, u));
    if value.None? then None else Some(Scaled(u, value.value))
  }

  // ------------------------------------------------ text without any digit

  /** An amount cell with no digit in it ("TBD", "Undisclosed", "N/A") is null,
      whatever magnitude marker it carries. */
  lemma AmountWithoutDigitsIsNull(raw: string)
    requires NoDigits(raw)
    ensures ParseAmount(Some(raw)).None?
  {
    if raw != "" && raw != "--" {
      NoDigitsNumberText(raw);
    }
  }

  predicate NoDigits(s: string) { forall i :: 0 <= i < |s| ==> !IsDigit(s[i]) }

  /** `parseFloat` of a string with no digit at all is NaN. */
  lemma NoDigitsParseFloat(s: string)
    requires NoDigits(s)
    ensures ParseFloat(s).None?
  {
    var t := TrimStart(s);
    assert NoDigits(t);
    var u := if |t| > 0 && (t[0] == '-' || t[0] == '+') then t[1..] else t;
    assert NoDigits(u);
    var k1 := DigitRun(u);
    assert k1 == 0;
    if k1 < |u| && u[k1] == '.' {
      assert NoDigits(u[1..]);
    }
  }

  lemma NoDigitsReplace(s: string, pat: string)
    requires NoDigits(s)
    ensures NoDigits(ReplaceFirst(s, pat, ""))
  {
    match IndexOf(s, pat)
    case None =>
    case Some(k) =>
      var r := s[..k] + s[k + |pat|..];
      assert ReplaceFirst(s, pat, "") == r;
      forall i | 0 <= i < |r| ensures !IsDigit(r[i]) {
        if i < k { assert r[i] == s[i]; } else { assert r[i] == s[i + |pat|]; }
      }
  }

  lemma NoDigitsTrim(s: string)
    requires NoDigits(s)
    ensures NoDigits(Trim(s))
  {
    var t := TrimStart(s);
    assert NoDigits(t);
    var r := TrimEnd(t);
    assert r == t[..|r|];
  }

  lemma NoDigitsStripped(raw: string)
    requires NoDigits(raw)
    ensures NoDigits(Stripped(raw))
  {
    NoDigitsReplace(raw, "$");
    NoDigitsTrim(ReplaceFirst(raw, "$", ""));
  }

  lemma NoDigitsUnitText(s: string, u: Unit)
    requires NoDigits(s)
    ensures NoDigits(NumberText(s, u))
  {
    match u {
      case TrailingM =>
        NoDigitsReplace(s, "M");
        NoDigitsTrim(ReplaceFirst(s, "M", ""));
      case TrailingK =>
        NoDigitsReplace(s, "K");
        NoDigitsTrim(ReplaceFirst(s, "K", ""));
      case MillionWord =>
        var l := ToLower(s);
        assert NoDigits(l);
        NoDigitsReplace(l, "million");
        NoDigitsTrim(ReplaceFirst(l, "million", ""));
      case NoUnit =>
    }
  }

  lemma NoDigitsNumberText(raw: string)
    requires NoDigits(raw)
    ensures ParseFloat(NumberText(Stripped(raw), UnitOf(Stripped(raw)))).None?
  {
    NoDigitsStripped(raw);
    var s := Stripped(raw);
    NoDigitsUnitText(s, UnitOf(s));
    NoDigitsParseFloat(NumberText(s, UnitOf(s)));
  }

  // ------------------------------------------------- amounts as displayed

  /** Fraction digits: decimal digits, possibly none. */
  type DigitString = s: string | AllDigits(s)

  /** A figure as the listing writes it: the whole part, then `.` and the
      fraction digits when there are any ("25", "1.5", "0.75"). */
  datatype Figure = Figure(whole: nat, fraction: DigitString)

  function FigureText(x: Figure): string {
    if |x.fraction| == 0 then NatToString(x.whole)
    else NatToString(x.whole) + "." + x.fraction
  }

  /** The number a figure denotes: `w.f` is `w + f / 10^|f|`. */
  function FigureValue(x: Figure): real {
    x.whole as real + DigitsValue(x.fraction) as real / Pow10(|x.fraction|) as real
  }

  /** Digits and dots, starting and ending with a digit: the shape of a
      figure's text. */
  predicate Numeral(s: string) {
    && |s| > 0 && IsDigit(s[0]) && IsDigit(s[|s| - 1])
    && forall i :: 0 <= i < |s| ==> IsDigit(s[i]) || s[i] == '.'
  }

  lemma FigureNumeral(x: Figure)
    ensures Numeral(FigureText(x))
  {
    var w := NatToString(x.whole);
    var t := FigureText(x);
    assert t[0] == w[0];
    if |x.fraction| > 0 {
      assert t[|t| - 1] == x.fraction[|x.fraction| - 1];
      forall i | 0 <= i < |t| ensures IsDigit(t[i]) || t[i] == '.' {
        if i < |w| { assert t[i] == w[i]; }
        else if i > |w| { assert t[i] == x.fraction[i - |w| - 1]; }
      }
    }
  }

  /** `parseFloat` reads a figure back, whatever non-numeric text follows it. */
  lemma ParseFloatFigure(x: Figure, rest: string)
    requires |rest| == 0 || !ContinuesNumber(rest[0])
    ensures ParseFloat(FigureText(x) + rest) == Some(FigureValue(x))
  {
    if |x.fraction| == 0 {
      WholeFigure(x);
      ParseFloatNat(x.whole, rest);
    } else {
      ParseFloatDecimal(x.whole, x.fraction, rest);
    }
  }

  lemma WholeFigure(x: Figure)
    requires |x.fraction| == 0
    ensures FigureText(x) == NatToString(x.whole) && FigureValue(x) == x.whole as real
  {
    assert DigitsValue(x.fraction) == 0 && Pow10(0) == 1;
  }

  /** The word "million" in any letter case ("million", "Million", "MILLION"). */
  predicate IsMillionSpelling(w: string) {
    |w| == 7 && forall i :: 0 <= i < 7 ==> LowerChar(w[i]) == "million"[i]
  }

  type MillionSpelling = w: string | IsMillionSpelling(w) witness "million"

  /** Text after the word "million": nothing, or text that ends neither with
      white space nor with an `M` or `K` (" USD", "+"), so that the word,
      not a trailing marker, decides the unit. */
  predicate IsTrailer(a: string) {
    |a| == 0 || (!IsSpace(a[|a| - 1]) && a[|a| - 1] != 'M' && a[|a| - 1] != 'K')
  }

  type Trailer = a: string | IsTrailer(a) witness ""

  /** The ways the listing shows an amount after the figure. */
  datatype Display = ShowM | ShowK | ShowMillion(word: MillionSpelling, after: Trailer) | ShowPlain | ShowB

  function Tail(d: Display): string {
    match d
    case ShowM => " M"
    case ShowK => " K"
    case ShowMillion(w, a) => " " + w + a
    case ShowPlain => ""
    case ShowB => " B"
  }

  /** What follows the figure in the text `parseFloat` is handed, once the
      unit is removed and the rest trimmed. */
  function Leftover(d: Display): string {
    match d
    case ShowMillion(_, a) => if |a| == 0 then "" else " " + ToLower(a)
    case ShowB => " B"
    case _ => ""
  }

  /** A displayed amount: `$`, the figure, the unit ("$25 M", "$1.5 K"). */
  function Render(x: Figure, d: Display): string {
    "$" + FigureText(x) + Tail(d)
  }

  /** `v` times the multiplier the parser gives a display's unit; a `B`
      is not a recognised marker, so "$3 B" is read as 3. */
  function Multiplied(d: Display, v: real): real {
    match d
    case ShowM => v * 1000000.0
    case ShowK => v * 1000.0
    case ShowMillion(_, _) => v * 1000000.0
    case ShowPlain => v
    case ShowB => v
  }

  /** The amount a display denotes to the parser. */
  function DisplayedValue(x: Figure, d: Display): real {
    Multiplied(d, FigureValue(x))
  }

  /** Every displayed amount, whole or decimal, whatever the case of the
      word "million" and whatever follows it, parses back to its figure times
      its unit's multiplier. */
  lemma ParseRendered(x: Figure, d: Display)
    ensures ParseAmount(Some(Render(x, d))) == Some(DisplayedValue(x, d))
  {
    RenderedStripped(x, d);
    FigureNumeral(x);
    ParseFloatFigureText(x);
    ParseFloatFigure(x, Leftover(d));
    ParseShown(FigureText(x), FigureValue(x), d);
  }

  /** A displayed amount loses its `$` and nothing else. */
  lemma RenderedStripped(x: Figure, d: Display)
    ensures ParseAmount(Some(Render(x, d))) == ParseStripped(FigureText(x) + Tail(d))
  {
    var digits := FigureText(x);
    var raw := Render(x, d);
    FigureNumeral(x);
    StrippedRendered(digits, Tail(d));
    assert raw[0] == '$' && |raw| >= 2;
    ViaStripped(raw, digits + Tail(d));
  }

  /** A figure's text followed by a display's unit parses to the figure's
      value times the unit's multiplier. */
  lemma ParseShown(digits: string, v: real, d: Display)
    requires Numeral(digits) && ParseFloat(digits) == Some(v) && ParseFloat(digits + Leftover(d)) == Some(v)
    ensures ParseStripped(digits + Tail(d)) == Some(Multiplied(d, v))
  {
    if d.ShowM? || d.ShowK? {
      ParseMarked(digits, v, d);
    } else if d.ShowMillion? && |d.after| == 0 {
      ParseMillion(digits, v, d);
    } else if d.ShowMillion? {
      ParseMillionThen(digits, v, d);
    } else {
      ParsePlain(digits, v, d);
    }
  }

  lemma ViaStripped(raw: string, s: string)
    requires |raw| > 0 && raw[0] == '$' && Stripped(raw) == s
    ensures ParseAmount(Some(raw)) == ParseStripped(s)
  {
    assert raw != "--";
  }

  /** `parseFloat` of a figure's text alone. */
  lemma ParseFloatFigureText(x: Figure)
    ensures ParseFloat(FigureText(x)) == Some(FigureValue(x))
  {
    ParseFloatFigure(x, "");
    assert FigureText(x) + "" == FigureText(x);
  }

  lemma ParseMarked(digits: string, v: real, d: Display)
    requires Numeral(digits) && ParseFloat(digits) == Some(v)
    requires d == ShowM || d == ShowK
    ensures ParseStripped(digits + Tail(d)) == Some(Multiplied(d, v))
  {
    var marker := if d == ShowM then 'M' else 'K';
    var s := digits + Tail(d);
    var u := if d == ShowM then TrailingM else TrailingK;
    assert s == digits + " " + [marker];
    MarkerUnit(digits, marker);
    MarkerText(digits, marker);
    assert Scaled(u, v) == Multiplied(d, v);
    ParseStrippedVia(s, u, v);
  }

  lemma ParseMillion(digits: string, v: real, d: Display)
    requires Numeral(digits) && ParseFloat(digits) == Some(v)
    requires d.ShowMillion? && |d.after| == 0
    ensures ParseStripped(digits + Tail(d)) == Some(Multiplied(d, v))
  {
    var s := digits + Tail(d);
    MillionUnit(digits, d);
    MillionAlone(digits, d);
    assert Scaled(MillionWord, v) == Multiplied(d, v);
    ParseStrippedVia(s, MillionWord, v);
  }

  lemma ParseMillionThen(digits: string, v: real, d: Display)
    requires Numeral(digits) && ParseFloat(digits + Leftover(d)) == Some(v)
    requires d.ShowMillion? && |d.after| > 0
    ensures ParseStripped(digits + Tail(d)) == Some(Multiplied(d, v))
  {
    var s := digits + Tail(d);
    MillionUnit(digits, d);
    MillionThen(digits, d);
    assert Scaled(MillionWord, v) == Multiplied(d, v);
    ParseStrippedVia(s, MillionWord, v);
  }

  lemma ParsePlain(digits: string, v: real, d: Display)
    requires Numeral(digits) && ParseFloat(digits + Leftover(d)) == Some(v)
    requires d == ShowPlain || d == ShowB
    ensures ParseStripped(digits + Tail(d)) == Some(Multiplied(d, v))
  {
    var s := digits + Tail(d);
    assert Leftover(d) == Tail(d);
    PlainUnit(digits, Tail(d));
    assert NumberText(s, NoUnit) == s;
    assert Scaled(NoUnit, v) == Multiplied(d, v);
    ParseStrippedVia(s, NoUnit, v);
  }

  lemma ParseStrippedVia(s: string, u: Unit, v: real)
    requires UnitOf(s) == u && ParseFloat(NumberText(s, u)) == Some(v)
    ensures ParseStripped(s) == Some(Scaled(u, v))
  {
  }

  lemma StrippedRendered(digits: string, tail: string)
    requires Numeral(digits)
    requires |tail| == 0 || !IsSpace(tail[|tail| - 1])
    ensures Stripped("$" + digits + tail) == digits + tail
  {
    var s := "$" + digits + tail;
    ReplaceFirstAt(s, "$", "", 0);
    assert s[1..] == digits + tail;
    var t := digits + tail;
    assert t[0] == digits[0];
    assert Tight(t);
    TrimTight(t);
  }

  /** A figure's text followed by " M" or " K" has that trailing marker. */
  lemma MarkerUnit(digits: string, marker: char)
    requires Numeral(digits) && (marker == 'M' || marker == 'K')
    ensures UnitOf(digits + " " + [marker]) == if marker == 'M' then TrailingM else TrailingK
  {
    var s := digits + " " + [marker];
    assert s[|s| - 1] == marker;
    assert s[|s| - 1..] == [marker];
  }

  /** Removing the marker of a figure followed by " M" or " K" and trimming
      leaves the figure's text. */
  lemma MarkerText(digits: string, marker: char)
    requires Numeral(digits) && (marker == 'M' || marker == 'K')
    ensures NumberText(digits + " " + [marker], if marker == 'M' then TrailingM else TrailingK) == digits
  {
    var s := digits + " " + [marker];
    var k := |digits| + 1;
    assert s[k..k + 1] == [marker];
    forall j | 0 <= j < k ensures s[j] != marker {
      if j < |digits| { assert s[j] == digits[j]; }
    }
    NoOccurrenceBefore(s, [marker], k);
    ReplaceFirstAt(s, [marker], "", k);
    assert s[..k] + "" + s[k + 1..] == "" + digits + " ";
    TrimPadded("", digits, " ");
  }

  /** The word "million" after a figure decides the unit: the text ends
      with neither `M` nor `K`, and its lower-cased form holds "million". */
  lemma MillionUnit(digits: string, d: Display)
    requires Numeral(digits) && d.ShowMillion?
    ensures UnitOf(digits + Tail(d)) == MillionWord
  {
    MillionNoMarker(digits, d);
    MillionRemoved(digits, d);
  }

  /** A figure followed by the word and its trailer ends with neither marker. */
  lemma MillionNoMarker(digits: string, d: Display)
    requires Numeral(digits) && d.ShowMillion?
    ensures !EndsWith(digits + Tail(d), "M") && !EndsWith(digits + Tail(d), "K")
  {
    var s := digits + Tail(d);
    var last := s[|s| - 1];
    assert last == if |d.after| == 0 then d.word[6] else d.after[|d.after| - 1];
    assert LowerChar(d.word[6]) == 'n';
    assert s[|s| - 1..] == [last];
  }

  /** The lower-cased text holds "million" right after the figure, and
      removing it leaves the figure, a space and the lower-cased trailer. */
  lemma MillionRemoved(digits: string, d: Display)
    requires Numeral(digits) && d.ShowMillion?
    ensures Contains(ToLower(digits + Tail(d)), "million")
    ensures ReplaceFirst(ToLower(digits + Tail(d)), "million", "") == digits + " " + ToLower(d.after)
  {
    LowerMillion(digits, d);
    MillionFound(digits, ToLower(d.after));
  }

  /** The word alone: removing it and trimming leaves the figure. */
  lemma MillionAlone(digits: string, d: Display)
    requires Numeral(digits) && d.ShowMillion? && |d.after| == 0
    ensures NumberText(digits + Tail(d), MillionWord) == digits
  {
    MillionRemoved(digits, d);
    TrimDropsSpace(digits, ToLower(d.after));
  }

  /** The word and a trailer: removing the word and trimming leaves the
      figure, a space and the lower-cased trailer. */
  lemma MillionThen(digits: string, d: Display)
    requires Numeral(digits) && d.ShowMillion? && |d.after| > 0
    ensures NumberText(digits + Tail(d), MillionWord) == digits + Leftover(d)
  {
    MillionRemoved(digits, d);
    TrailerLowered(d);
    TrimKeepsTrailer(digits, ToLower(d.after));
    Associate(digits, " ", ToLower(d.after));
  }

  /** A lower-cased trailer is not empty and does not end with white space. */
  lemma TrailerLowered(d: Display)
    requires d.ShowMillion? && |d.after| > 0
    ensures |ToLower(d.after)| > 0 && !IsSpace(ToLower(d.after)[|ToLower(d.after)| - 1])
  {
    LowerKeepsSpace(d.after[|d.after| - 1]);
  }

  lemma Associate(a: string, b: string, c: string)
    ensures a + b + c == a + (b + c)
  {
  }

  lemma TrimDropsSpace(digits: string, la: string)
    requires Numeral(digits) && |la| == 0
    ensures Trim(digits + " " + la) == digits
  {
    assert digits + " " + la == "" + digits + " ";
    TrimPadded("", digits, " ");
  }

  lemma TrimKeepsTrailer(digits: string, la: string)
    requires Numeral(digits) && |la| > 0 && !IsSpace(la[|la| - 1])
    ensures Trim(digits + " " + la) == digits + " " + la
  {
    var t := digits + " " + la;
    assert t[0] == digits[0] && t[|t| - 1] == la[|la| - 1];
    TrimTight(t);
  }

  /** Lower-casing never turns a character into white space or out of it. */
  lemma LowerKeepsSpace(c: char)
    ensures IsSpace(LowerChar(c)) == IsSpace(c)
  {
  }

  /** Lower-casing a figure followed by the word: the figure, " million",
      and what followed the word, lower-cased. */
  lemma LowerMillion(digits: string, d: Display)
    requires Numeral(digits) && d.ShowMillion?
    ensures ToLower(digits + Tail(d)) == digits + " million" + ToLower(d.after)
  {
    var s := digits + Tail(d);
    var la := ToLower(d.after);
    var l := digits + " million" + la;
    var n := |digits| + 8;
    assert |s| == |l|;
    forall i | 0 <= i < |s| ensures LowerChar(s[i]) == l[i] {
      if i < |digits| {
        assert s[i] == digits[i] && l[i] == digits[i];
      } else if i == |digits| {
        assert s[i] == ' ' && l[i] == ' ';
      } else if i < n {
        assert s[i] == d.word[i - |digits| - 1] && l[i] == "million"[i - |digits| - 1];
      } else {
        assert s[i] == d.after[i - n] && l[i] == la[i - n];
      }
    }
  }

  /** The first "million" in a figure followed by " million" and any text
      is the one after the figure. */
  lemma MillionFound(digits: string, la: string)
    requires Numeral(digits)
    ensures var l := digits + " million" + la;
            Contains(l, "million") && ReplaceFirst(l, "million", "") == digits + " " + la
  {
    var l := digits + " million" + la;
    var k := |digits| + 1;
    assert l[k..k + 7] == "million";
    assert OccursAt(l, "million", k);
    forall j | 0 <= j < k ensures l[j] != "million"[0] {
      if j < |digits| { assert l[j] == digits[j]; }
    }
    NoOccurrenceBefore(l, "million", k);
    ReplaceFirstAt(l, "million", "", k);
    assert l[..k] == digits + " " && l[k + 7..] == la;
  }

  /** A figure alone or followed by " B" carries no marker. */
  lemma PlainUnit(digits: string, tail: string)
    requires Numeral(digits)
    requires tail == "" || tail == " B"
    ensures UnitOf(digits + tail) == NoUnit
  {
    var s := digits + tail;
    assert !EndsWith(s, "M") && !EndsWith(s, "K") by {
      var c := if tail == "" then digits[|digits| - 1] else 'B';
      assert s[|s| - 1] == c by {
        if tail == "" { assert s == digits; }
      }
      assert s[|s| - 1..] == [c];
    }
    var l := ToLower(s);
    forall j | 0 <= j < |l| ensures l[j] != "million"[0] {
      if j < |digits| { assert s[j] == digits[j]; }
    }
    NotContains(l, "million");
  }
}

=== FILE: crawl_states.dfy ===
/** The `CrawlState` table: one bookkeeping row per kind of crawl, told apart
    by the flag pair (isFullCrawl, isDetailCrawl), and the two queries the
    crawler, the routes and the scheduler run on it: the first row matching
    a where-clause, and find-or-create. */
module CrawlStates {
  import opened Wrappers

  datatype Status = Idle | Running | Failed | Completed

  /** A `CrawlState` row (timestamps other than `lastUpdateTime` are not
      modelled). The flags are never written as NULL by this system. */
  datatype CrawlState = CrawlState(
    id: nat,
    lastProjectLink: Option<string>,
    numberDetailsToCrawl: Option<int>,
    numberDetailsFailed: Option<int>,
    lastPage: Option<int>,
    lastUpdateTime: Option<int>,
    isDetailCrawl: bool,
    isFullCrawl: bool,
    status: Status,
    error: Option<string>)

  /** The rows in id order (the order `findOne` without an ORDER BY sees them)
      and the id the next created row gets. */
  datatype StateTable = StateTable(rows: seq<CrawlState>, nextId: nat)

  /** Ids are increasing along the rows and below `nextId`. */
  ghost predicate Valid(t: StateTable) {
    && (forall i :: 0 <= i < |t.rows| ==> t.rows[i].id < t.nextId)
    && (forall i, j :: 0 <= i < j < |t.rows| ==> t.rows[i].id < t.rows[j].id)
  }

  /** The three kinds of crawl and the flag pair that names each. */
  datatype Kind = Full | Quick | Detail

  function FullFlag(k: Kind): bool { k == Full }
  function DetailFlag(k: Kind): bool { k == Detail }

  /** The row `CrawlState.create` makes: every column at its default except
      the two flags given. */
  function NewRow(id: nat, isFullCrawl: bool, isDetailCrawl: bool): (r: CrawlState)
    ensures r.id == id && r.isFullCrawl == isFullCrawl && r.isDetailCrawl == isDetailCrawl
  {
    CrawlState(id, None, Some(0), Some(0), Some(1), None, isDetailCrawl, isFullCrawl, Idle, None)
  }

  /** A fresh row is idle with page 1, zero counters, no link, no time and
      no error; with no flag given it is the quick-update row. */
  lemma NewRowDefaults(id: nat, isFullCrawl: bool, isDetailCrawl: bool)
    ensures var r := NewRow(id, isFullCrawl, isDetailCrawl);
            && r.status == Idle && r.lastPage == Some(1)
            && r.numberDetailsToCrawl == Some(0) && r.numberDetailsFailed == Some(0)
            && r.lastProjectLink.None? && r.lastUpdateTime.None? && r.error.None?
    ensures var r := NewRow(id, false, false);
            KindOf(r) == Some(Quick)
  {
  }

  /** The kind a row's flag pair names; both flags set names none. */
  function KindOf(r: CrawlState): (k: Option<Kind>)
    ensures k.Some? ==> r.isFullCrawl == FullFlag(k.value) && r.isDetailCrawl == DetailFlag(k.value)
    ensures k.None? <==> r.isFullCrawl && r.isDetailCrawl
  {
    if r.isFullCrawl && r.isDetailCrawl then None
    else if r.isFullCrawl then Some(Full)
    else if r.isDetailCrawl then Some(Detail)
    else Some(Quick)
  }

  // ------------------------------------------------------------ queries

  /** A `where` clause over the flags and the status; an absent field does
      not constrain, a status set is an `IN` list. */
  datatype Where = Where(isFullCrawl: Option<bool>, isDetailCrawl: Option<bool>, statusIn: Option<set<Status>>)

  predicate Matches(r: CrawlState, w: Where) {
    && (w.isFullCrawl.Some? ==> r.isFullCrawl == w.isFullCrawl.value)
    && (w.isDetailCrawl.Some? ==> r.isDetailCrawl == w.isDetailCrawl.value)
    && (w.statusIn.Some? ==> r.status in w.statusIn.value)
  }

  /** The exact flag pair of a kind, as the routes query it. */
  function ExactlyKind(k: Kind): Where {
    Where(Some(FullFlag(k)), Some(DetailFlag(k)), None)
  }

  /** The exact query matches exactly the rows of that kind. */
  lemma ExactlyKindMatches(r: CrawlState, k: Kind)
    ensures Matches(r, ExactlyKind(k)) <==> KindOf(r) == Some(k)
  {
  }

  /** `findOne({where})`: the index of the first matching row. */
  function FindFirst(rows: seq<CrawlState>, w: Where): (r: Option<nat>)
    ensures r.Some? ==> r.value < |rows| && Matches(rows[r.value], w)
    ensures r.Some? ==> forall j :: 0 <= j < r.value ==> !Matches(rows[j], w)
    ensures r.None? <==> forall j :: 0 <= j < |rows| ==> !Matches(rows[j], w)
    decreases |rows|
  {
    if |rows| == 0 then None
    else if Matches(rows[0], w) then Some(0)
    else
      var rest := FindFirst(rows[1..], w);
      assert forall j :: 1 <= j < |rows| ==> rows[j] == rows[1..][j - 1];
      if rest.None? then None else Some(rest.value + 1)
  }

  /** `findOne(...) || create({flags})`: the index of the row found, or of
      the row appended with the given flags. */
  function FindOrCreate(t: StateTable, w: Where, isFullCrawl: bool, isDetailCrawl: bool): (r: (StateTable, nat))
    requires Valid(t)
    ensures Valid(r.0) && r.1 < |r.0.rows|
    ensures FindFirst(t.rows, w).Some? ==> r.0 == t && r.1 == FindFirst(t.rows, w).value
    ensures FindFirst(t.rows, w).None? ==>
              && r.0.rows == t.rows + [NewRow(t.nextId, isFullCrawl, isDetailCrawl)]
              && r.1 == |t.rows|
  {
    match FindFirst(t.rows, w)
    case Some(i) => (t, i)
    case None =>
      var row := NewRow(t.nextId, isFullCrawl, isDetailCrawl);
      (StateTable(t.rows + [row], t.nextId + 1), |t.rows|)
  }

  /** `row.save()`: the row at index `i` replaced, its id kept. */
  function Save(t: StateTable, i: nat, row: CrawlState): (r: StateTable)
    requires Valid(t) && i < |t.rows| && row.id == t.rows[i].id
    ensures Valid(r) && |r.rows| == |t.rows| && r.rows[i] == row && r.nextId == t.nextId
    ensures forall j :: 0 <= j < |t.rows| && j != i ==> r.rows[j] == t.rows[j]
  {
    StateTable(t.rows[i := row], t.nextId)
  }

  /** The same row, whatever its progress columns (page, link, time,
      status, error) say. */
  predicate SameRow(row: CrawlState, row': CrawlState) {
    && row'.id == row.id && row'.isFullCrawl == row.isFullCrawl && row'.isDetailCrawl == row.isDetailCrawl
    && row'.numberDetailsToCrawl == row.numberDetailsToCrawl && row'.numberDetailsFailed == row.numberDetailsFailed
  }

  /** `t` is `t0` with at most the row at index `at` changed. */
  ghost predicate OnlyRowChanged(t0: StateTable, t: StateTable, at: nat) {
    && Valid(t) && t.nextId == t0.nextId && |t.rows| == |t0.rows| && at < |t.rows|
    && forall j :: 0 <= j < |t.rows| && j != at ==> t.rows[j] == t0.rows[j]
  }

  /** Asking again with the same where-clause finds the row just found or
      made, provided it matches: find-or-create is idempotent. */
  lemma FindOrCreateIdempotent(t: StateTable, w: Where, isFullCrawl: bool, isDetailCrawl: bool)
    requires Valid(t)
    requires Matches(NewRow(t.nextId, isFullCrawl, isDetailCrawl), w)
    ensures var (t1, i) := FindOrCreate(t, w, isFullCrawl, isDetailCrawl);
            FindOrCreate(t1, w, isFullCrawl, isDetailCrawl) == (t1, i)
  {
    var (t1, i) := FindOrCreate(t, w, isFullCrawl, isDetailCrawl);
    if FindFirst(t.rows, w).None? {
      assert t1.rows[i] == NewRow(t.nextId, isFullCrawl, isDetailCrawl);
      assert forall j :: 0 <= j < |t.rows| ==> t1.rows[j] == t.rows[j];
      var f := FindFirst(t1.rows, w);
      assert f.Some?;
      assert f.value == i;
    }
  }
}

=== FILE: crawler.dfy ===
/** The crawler's three runs: the full crawl of the listing from a start
    page until the first empty page, the quick update of the first three
    pages, and the detail crawl of every project whose detail page has not
    been read. Each run keeps its bookkeeping in one `CrawlState` row. The
    browser, the clock and the site are parameters: `fetch` answers listing
    requests, `scrape` answers detail pages, `clock` gives the times. */
module Crawler {
  import opened Wrappers
  import opened ProjectStore
  import opened CrawlStates
  import opened Details
  import Rounds

  /** `crawlPage(p)` on attempt `a`: the records of listing page `p` (the
      rows `Listing.MapPage` maps, none for the empty-page marker), or the
      message of the error it threw. */
  type Fetch = (int, nat) -> Result<seq<ListingRecord>, string>

  /** How a run ended: normally, or by rethrowing an error. */
  datatype Outcome = Done | Threw(message: string)

  // ------------------------------------------------------------ retries

  /** `retry(..., {retries: 3})`: one attempt and three retries. */
  const Retries: nat := 3

  function RetryFrom(fetch: Fetch, page: int, a: nat): Result<seq<ListingRecord>, string>
    requires a <= Retries
    decreases Retries - a
  {
    var res := fetch(page, a);
    if res.Success? || a == Retries then res else RetryFrom(fetch, page, a + 1)
  }

  /** A listing page fetched with retries. */
  function WithRetry(fetch: Fetch, page: int): Result<seq<ListingRecord>, string> {
    RetryFrom(fetch, page, 0)
  }

  lemma {:induction false} RetryFromOutcome(fetch: Fetch, page: int, a: nat)
    requires a <= Retries
    ensures RetryFrom(fetch, page, a).Success? ==>
              exists b :: a <= b <= Retries && fetch(page, b) == RetryFrom(fetch, page, a)
                          && forall c :: a <= c < b ==> fetch(page, c).Failure?
    ensures RetryFrom(fetch, page, a).Failure? ==>
              && RetryFrom(fetch, page, a) == fetch(page, Retries)
              && forall c :: a <= c <= Retries ==> fetch(page, c).Failure?
    decreases Retries - a
  {
    if fetch(page, a).Failure? && a < Retries {
      RetryFromOutcome(fetch, page, a + 1);
      forall c | a <= c <= Retries && RetryFrom(fetch, page, a).Failure? ensures fetch(page, c).Failure? {
        if c == a {
        }
      }
    }
  }

  /** The first attempt that succeeds is the answer; when all four fail,
      the error of the last one is. */
  lemma WithRetryOutcome(fetch: Fetch, page: int)
    ensures WithRetry(fetch, page).Success? <==> exists b :: 0 <= b <= Retries && fetch(page, b).Success?
    ensures WithRetry(fetch, page).Success? ==>
              exists b :: 0 <= b <= Retries && fetch(page, b) == WithRetry(fetch, page)
                          && forall c :: 0 <= c < b ==> fetch(page, c).Failure?
    ensures WithRetry(fetch, page).Failure? ==> WithRetry(fetch, page) == fetch(page, Retries)
  {
    RetryFromOutcome(fetch, page, 0);
  }

  // --------------------------------------------------------- ingestion

  predicate AllInsertable(recs: seq<ListingRecord>) {
    forall i :: 0 <= i < |recs| ==> Insertable(recs[i])
  }

  ghost predicate AllBatchesInsertable(batches: seq<seq<ListingRecord>>) {
    forall k :: 0 <= k < |batches| ==> AllInsertable(batches[k])
  }

  /** The listing batches written one after another. */
  function Ingest(db: Db, batches: seq<seq<ListingRecord>>): (r: Db)
    requires ProjectStore.Valid(db)
    requires AllBatchesInsertable(batches)
    ensures ProjectStore.Valid(r) && KeepsIds(db, r) && r.investments == db.investments
    decreases |batches|
  {
    if |batches| == 0 then db
    else
      var n := |batches| - 1;
      assert forall k :: 0 <= k < n ==> batches[..n][k] == batches[k];
      assert AllInsertable(batches[n]);
      var mid := Ingest(db, batches[..n]);
      var r := UpsertAll(mid, batches[n]);
      assert KeepsIds(db, r) by { assert KeepsIds(db, mid) && KeepsIds(mid, r); }
      r
  }

  /** Writing one more batch is writing it after the others. */
  lemma IngestSnoc(db: Db, batches: seq<seq<ListingRecord>>)
    requires ProjectStore.Valid(db) && |batches| > 0 && AllBatchesInsertable(batches)
    ensures AllBatchesInsertable(batches[..|batches| - 1]) && AllInsertable(batches[|batches| - 1])
    ensures Ingest(db, batches) == UpsertAll(Ingest(db, batches[..|batches| - 1]), batches[|batches| - 1])
  {
    var n := |batches| - 1;
    assert forall k :: 0 <= k < n ==> batches[..n][k] == batches[k];
  }

  /** The links the batches write. */
  function LinksOfAll(batches: seq<seq<ListingRecord>>): set<string>
    decreases |batches|
  {
    if |batches| == 0 then {}
    else LinksOfAll(batches[..|batches| - 1]) + LinksOf(batches[|batches| - 1])
  }

  /** Every project a listing crawl writes is left waiting for its detail
      page, whatever the detail crawl had stored for it before. */
  lemma {:induction false} IngestRequeues(db: Db, batches: seq<seq<ListingRecord>>, l: string)
    requires ProjectStore.Valid(db) && AllBatchesInsertable(batches)
    requires l in LinksOfAll(batches)
    ensures l in Ingest(db, batches).projects && Undetailed(Ingest(db, batches).projects[l])
    decreases |batches|
  {
    var n := |batches| - 1;
    var front := batches[..n];
    var last := batches[n];
    IngestSnoc(db, batches);
    var mid := Ingest(db, front);
    if l in LinksOf(last) {
      UpsertAllRequeues(mid, last, l);
    } else {
      IngestRequeues(db, front, l);
      UpsertAllOthersUnchanged(mid, last, l);
    }
  }

  // --------------------------------------------------------- full crawl

  /** `findOne({where: {isFullCrawl: true}})`. */
  const FullLookup: Where := Where(Some(true), None, None)

  /** Page `p` is written and the crawl moves on to the next page: it was
      fetched, it has rows, and every row has a name and a link. */
  predicate Continues(fetch: Fetch, p: int) {
    var res := WithRetry(fetch, p);
    res.Success? && |res.value| > 0 && AllInsertable(res.value)
  }

  /** The batches are the records of the consecutive pages from `start`, and
      each of those pages moved the crawl on. */
  ghost predicate Crawled(fetch: Fetch, start: int, batches: seq<seq<ListingRecord>>) {
    forall p :: start <= p < start + |batches| ==>
      && Continues(fetch, p)
      && batches[p - start] == WithRetry(fetch, p).value
  }

  /** How the crawl ends at a page that does not move it on: the fetch
      error, a normal end on an empty page, or the failed batch insert. */
  function StopAt(fetch: Fetch, p: int): Outcome {
    var res := WithRetry(fetch, p);
    if res.Failure? then Threw(res.error)
    else if |res.value| == 0 then Done
    else Threw(NotNullViolation)
  }

  /** The row after the pages from `start` up to, not including, `stop` were
      written: it records the last of them and its time, or, with none
      written, keeps what it had; nothing else in it changes. */
  ghost predicate Checkpointed(row: CrawlState, row': CrawlState, start: int, stop: int, clock: int -> int) {
    && SameRow(row, row') && row'.lastProjectLink == row.lastProjectLink
    && row'.status == row.status && row'.error == row.error
    && (stop == start ==> row'.lastPage == row.lastPage && row'.lastUpdateTime == row.lastUpdateTime)
    && (stop != start ==> row'.lastPage == Some(stop - 1) && row'.lastUpdateTime == Some(clock(stop - 1)))
  }

  /** The page `start` recorded, then the pages after it. */
  lemma CheckpointCons(row: CrawlState, row': CrawlState, start: int, stop: int, clock: int -> int)
    requires start < stop
    requires Checkpointed(row.(lastPage := Some(start), lastUpdateTime := Some(clock(start))), row', start + 1, stop, clock)
    ensures Checkpointed(row, row', start, stop, clock)
  {
  }

  /** Writing one batch after some others, stated on the concatenation. */
  lemma IngestAppend(db: Db, front: seq<seq<ListingRecord>>, last: seq<ListingRecord>)
    requires ProjectStore.Valid(db) && AllBatchesInsertable(front) && AllInsertable(last)
    ensures AllBatchesInsertable(front + [last])
    ensures Ingest(db, front + [last]) == UpsertAll(Ingest(db, front), last)
  {
    var b := front + [last];
    assert b[..|front|] == front;
    IngestSnoc(db, b);
  }

  /** Writing a batch and then the others is writing them all. */
  lemma {:induction false} IngestCons(db: Db, recs: seq<ListingRecord>, rest: seq<seq<ListingRecord>>)
    requires ProjectStore.Valid(db) && AllInsertable(recs) && AllBatchesInsertable(rest)
    ensures AllBatchesInsertable([recs] + rest)
    ensures Ingest(db, [recs] + rest) == Ingest(UpsertAll(db, recs), rest)
    decreases |rest|
  {
    var next := UpsertAll(db, recs);
    if |rest| == 0 {
      IngestAppend(db, [], recs);
      assert [recs] + rest == [] + [recs];
    } else {
      var n := |rest| - 1;
      var front := rest[..n];
      var last := rest[n];
      var pre := [recs] + front;
      assert rest == front + [last];
      assert [recs] + rest == pre + [last];
      assert AllBatchesInsertable(front) && AllInsertable(last);
      IngestCons(db, recs, front);
      IngestAppend(db, pre, last);
      IngestAppend(next, front, last);
    }
  }

  /** The page `start`, then the pages after it. */
  lemma CrawledCons(fetch: Fetch, start: int, recs: seq<ListingRecord>, rest: seq<seq<ListingRecord>>)
    requires Continues(fetch, start) && WithRetry(fetch, start).value == recs
    requires Crawled(fetch, start + 1, rest)
    ensures Crawled(fetch, start, [recs] + rest)
  {
    var b := [recs] + rest;
    forall p | start <= p < start + |b| ensures Continues(fetch, p) && b[p - start] == WithRetry(fetch, p).value {
      if p > start {
        assert b[p - start] == rest[p - (start + 1)];
      }
    }
  }

  /** One listing page of the full crawl: fetched with retries and, when it
      has rows, written in one batch. `stop` is how the crawl ends at this
      page, if it does; a page that ends it writes nothing. */
  method CrawlPage(r: Db, p: int, fetch: Fetch) returns (r': Db, recs: seq<ListingRecord>, stop: Option<Outcome>)
    requires ProjectStore.Valid(r)
    ensures stop.None? <==> Continues(fetch, p)
    ensures stop.None? ==> recs == WithRetry(fetch, p).value && r' == UpsertAll(r, recs)
    ensures stop.Some? ==> stop.value == StopAt(fetch, p) && r' == r
  {
    r', recs := r, [];
    var res := WithRetry(fetch, p);
    if res.Failure? {
      return r, [], Some(Threw(res.error));
    }
    recs := res.value;
    if |recs| == 0 {
      return r, recs, Some(Done);
    }
    var written := UpsertBatch(r, recs);
    if written.Failure? {
      return r, recs, Some(Threw(written.error));
    }
    r' := written.value;
    stop := None;
  }

  /** The `while (hasMoreData)` loop of `fullCrawl`, one page at a time:
      pages from `start` are fetched with retries and written until the
      first page that does not move the crawl on, at `stop`; after each
      written page the row records it and the time. `bound` is a page from
      which on the listing has nothing: the site's listing is finite. */
  method CrawlFrom(db: Db, row: CrawlState, start: int, fetch: Fetch, clock: int -> int, ghost bound: nat)
    returns (r: Db, row': CrawlState, batches: seq<seq<ListingRecord>>, outcome: Outcome, ghost stop: int)
    requires ProjectStore.Valid(db)
    requires forall q :: q >= start + bound ==> !Continues(fetch, q)
    ensures Crawled(fetch, start, batches) && AllBatchesInsertable(batches)
    ensures r == Ingest(db, batches)
    ensures stop == start + |batches|
    ensures !Continues(fetch, stop) && outcome == StopAt(fetch, stop)
    ensures Checkpointed(row, row', start, stop, clock)
    decreases bound
  {
    var next, recs, halt := CrawlPage(db, start, fetch);
    if halt.Some? {
      return db, row, [], halt.value, start;
    }
    var row1 := row.(lastPage := Some(start), lastUpdateTime := Some(clock(start)));
    var rest;
    r, row', rest, outcome, stop := CrawlFrom(next, row1, start + 1, fetch, clock, bound - 1);
    batches := [recs] + rest;
    assert Crawled(fetch, start, batches) by {
      CrawledCons(fetch, start, recs, rest);
    }
    assert AllBatchesInsertable(batches) && r == Ingest(db, batches) by {
      IngestCons(db, recs, rest);
    }
    assert Checkpointed(row, row', start, stop, clock) by {
      CheckpointCons(row, row', start, stop, clock);
    }
  }

  /** `fullCrawl(startPage)`. The state row is found or created and marked
      running, its old error kept; the pages are crawled; the row ends
      completed, or failed with the message of the error the run rethrows. */
  method FullCrawl(db: Db, states: StateTable, startPage: int, fetch: Fetch, clock: int -> int,
                   ghost bound: nat)
    returns (r: Db, t: StateTable, at: nat, batches: seq<seq<ListingRecord>>, outcome: Outcome)
    requires ProjectStore.Valid(db) && CrawlStates.Valid(states)
    requires forall q :: q >= startPage + bound ==> !Continues(fetch, q)
    ensures Crawled(fetch, startPage, batches) && AllBatchesInsertable(batches)
    ensures !Continues(fetch, startPage + |batches|)
    ensures outcome == StopAt(fetch, startPage + |batches|)
    ensures r == Ingest(db, batches)
    ensures var (t0, i) := FindOrCreate(states, FullLookup, true, false);
            && at == i && OnlyRowChanged(t0, t, at)
            && t.rows[at].status == (if outcome.Done? then Completed else Failed)
            && t.rows[at].error == (if outcome.Done? then t0.rows[at].error else Some(outcome.message))
            && Checkpointed(t0.rows[at], t.rows[at].(status := t0.rows[at].status, error := t0.rows[at].error),
                            startPage, startPage + |batches|, clock)
  {
    var found := FindOrCreate(states, FullLookup, true, false);
    var t0 := found.0;
    at := found.1;
    var row := t0.rows[at].(status := Running);
    t := Save(t0, at, row);
    ghost var stop;
    r, row, batches, outcome, stop := CrawlFrom(db, row, startPage, fetch, clock, bound);
    if outcome.Done? {
      row := row.(status := Completed);
    } else {
      row := row.(status := Failed, error := Some(outcome.message));
    }
    t := Save(t0, at, row);
  }

  // ------------------------------------------------------- quick update

  /** `findOne({where: {isFullCrawl: false}})`: the detail row matches too. */
  const QuickLookup: Where := Where(Some(false), None, None)

  /** The number of listing pages a quick update reads. */
  const QuickPages: nat := 3

  /** Page `p`, fetched once, can be written: it was fetched and every row
      has a name and a link (an empty page writes nothing). */
  predicate QuickWrites(fetch: Fetch, p: int) {
    fetch(p, 0).Success? && AllInsertable(fetch(p, 0).value)
  }

  /** The batches are the records of pages 1, 2, ... fetched once each. */
  ghost predicate QuickWritten(fetch: Fetch, batches: seq<seq<ListingRecord>>) {
    forall p :: 1 <= p <= |batches| ==> QuickWrites(fetch, p) && batches[p - 1] == fetch(p, 0).value
  }

  /** How a quick update stops at a page it cannot write. */
  function QuickStopAt(fetch: Fetch, p: int): Outcome {
    if fetch(p, 0).Failure? then Threw(fetch(p, 0).error) else Threw(NotNullViolation)
  }

  /** One more page written after the others. */
  lemma QuickSnoc(fetch: Fetch, batches: seq<seq<ListingRecord>>, recs: seq<ListingRecord>)
    requires QuickWritten(fetch, batches) && AllBatchesInsertable(batches)
    requires QuickWrites(fetch, |batches| + 1) && recs == fetch(|batches| + 1, 0).value
    ensures QuickWritten(fetch, batches + [recs]) && AllBatchesInsertable(batches + [recs])
  {
    var b := batches + [recs];
    forall p | 1 <= p <= |b| ensures QuickWrites(fetch, p) && b[p - 1] == fetch(p, 0).value {
      if p <= |batches| {
        assert b[p - 1] == batches[p - 1];
      }
    }
    forall k | 0 <= k < |b| ensures AllInsertable(b[k]) {
      if k < |batches| {
        assert b[k] == batches[k];
      }
    }
  }

  /** The `for` loop of `quickUpdate`: pages 1 to 3, fetched once each
      (no retries) and written in order, stopping at the first that fails. */
  method WriteQuickPages(db: Db, fetch: Fetch)
    returns (r: Db, batches: seq<seq<ListingRecord>>, outcome: Outcome)
    requires ProjectStore.Valid(db)
    ensures |batches| <= QuickPages
    ensures QuickWritten(fetch, batches) && AllBatchesInsertable(batches)
    ensures r == Ingest(db, batches)
    ensures outcome.Done? <==> |batches| == QuickPages
    ensures outcome.Threw? ==> !QuickWrites(fetch, 1 + |batches|) && outcome == QuickStopAt(fetch, 1 + |batches|)
  {
    r := db;
    batches := [];
    var p := 1;
    while p <= QuickPages
      invariant p == 1 + |batches| <= QuickPages + 1
      invariant QuickWritten(fetch, batches) && AllBatchesInsertable(batches)
      invariant r == Ingest(db, batches)
    {
      var res := fetch(p, 0);
      if res.Failure? {
        return r, batches, Threw(res.error);
      }
      var recs := res.value;
      var written := UpsertBatch(r, recs);
      if written.Failure? {
        return r, batches, Threw(written.error);
      }
      var batches' := batches + [recs];
      assert QuickWritten(fetch, batches') && AllBatchesInsertable(batches') by {
        QuickSnoc(fetch, batches, recs);
      }
      assert written.value == Ingest(db, batches') by {
        assert batches'[..|batches|] == batches;
        IngestSnoc(db, batches');
      }
      r := written.value;
      batches := batches';
      p := p + 1;
    }
    assert |batches| == QuickPages;
    outcome := Done;
  }

  /** `quickUpdate()`. The row found by the loose lookup is marked running;
      a page that fails rethrows at once and leaves it running; after all
      three pages the row gets the time and is marked completed. Its error
      column is never touched. */
  method QuickUpdate(db: Db, states: StateTable, fetch: Fetch, now: int)
    returns (r: Db, t: StateTable, at: nat, batches: seq<seq<ListingRecord>>, outcome: Outcome)
    requires ProjectStore.Valid(db) && CrawlStates.Valid(states)
    ensures |batches| <= QuickPages
    ensures QuickWritten(fetch, batches) && AllBatchesInsertable(batches)
    ensures r == Ingest(db, batches)
    ensures outcome.Done? <==> |batches| == QuickPages
    ensures outcome.Threw? ==> !QuickWrites(fetch, 1 + |batches|) && outcome == QuickStopAt(fetch, 1 + |batches|)
    ensures var (t0, i) := FindOrCreate(states, QuickLookup, false, false);
            && at == i && OnlyRowChanged(t0, t, at)
            && t.rows[at].status == (if outcome.Done? then Completed else Running)
            && t.rows[at].lastUpdateTime == (if outcome.Done? then Some(now) else t0.rows[at].lastUpdateTime)
            && t.rows[at].(lastUpdateTime := t0.rows[at].lastUpdateTime, status := t0.rows[at].status) == t0.rows[at]
  {
    var found := FindOrCreate(states, QuickLookup, false, false);
    var t0 := found.0;
    at := found.1;
    var row := t0.rows[at].(status := Running);
    t := Save(t0, at, row);
    r, batches, outcome := WriteQuickPages(db, fetch);
    if outcome.Done? {
      row := row.(lastUpdateTime := Some(now), status := Completed);
      t := Save(t0, at, row);
    }
  }

  /** The quick update's lookup is loose: when the detail row comes first
      in the table, the quick update takes it over and never creates a row
      of its own. */
  lemma QuickLookupTakesDetailRow(t: StateTable)
    requires CrawlStates.Valid(t) && |t.rows| > 0
    requires KindOf(t.rows[0]) == Some(Detail)
    ensures FindOrCreate(t, QuickLookup, false, false) == (t, 0)
    ensures !Matches(t.rows[0], ExactlyKind(Quick))
  {
    ExactlyKindMatches(t.rows[0], Quick);
  }

  // ------------------------------------------------------- detail crawl

  /** `findOne({where: {isDetailCrawl: true}})`. */
  const DetailLookup: Where := Where(None, Some(true), None)

  /** `Project.findAll({where: {detailFetchedAt: null}})`: every project
      without detail data, each once (the order is the database's). */
  ghost predicate DetailQueue(db: Db, queue: seq<string>) {
    && (forall k :: 0 <= k < |queue| ==> queue[k] in db.projects && db.projects[queue[k]].detailFetchedAt.None?)
    && (forall k :: 0 <= k < |queue| ==> queue[k] !in queue[..k])
    && (forall l :: l in db.projects && db.projects[l].detailFetchedAt.None? ==> l in queue)
  }

  /** The message of the `ReferenceError` the loop body throws. */
  const ProjecNotDefined: string := "projec is not defined"

  /** `fetchProjectDetails()` as written: the loop body logs through an
      undeclared variable before its first statement of work, so a
      non-empty queue fails the run on its first project with nothing
      scraped; only an empty queue completes. */
  method FetchProjectDetailsAsWritten(db: Db, states: StateTable, queue: seq<string>)
    returns (r: Db, t: StateTable, at: nat, outcome: Outcome)
    requires ProjectStore.Valid(db) && CrawlStates.Valid(states) && DetailQueue(db, queue)
    ensures r == db
    ensures outcome == if |queue| == 0 then Done else Threw(ProjecNotDefined)
    ensures var (t0, i) := FindOrCreate(states, DetailLookup, false, true);
            && at == i && CrawlStates.Valid(t) && t.nextId == t0.nextId && |t.rows| == |t0.rows|
            && (forall j :: 0 <= j < |t.rows| && j != at ==> t.rows[j] == t0.rows[j])
            && t.rows[at].status == (if outcome.Done? then Completed else Failed)
            && t.rows[at].error == (if outcome.Done? then None else Some(ProjecNotDefined))
            && t.rows[at].(status := t0.rows[at].status, error := t0.rows[at].error) == t0.rows[at]
  {
    var found := FindOrCreate(states, DetailLookup, false, true);
    var t0 := found.0;
    at := found.1;
    var row := t0.rows[at].(status := Running, error := None);
    t := Save(t0, at, row);
    r := db;
    if |queue| > 0 {
      row := row.(status := Failed, error := Some(ProjecNotDefined));
      t := Save(t0, at, row);
      return r, t, at, Threw(ProjecNotDefined);
    }
    row := row.(status := Completed);
    t := Save(t0, at, row);
    outcome := Done;
  }

  /** No detail page loads: what every visit sees when no browser page is
      open, as in a detail run started on its own, which never launches one. */
  ghost predicate NoPageLoads(scrape: string -> DetailScrape) {
    forall l :: scrape(l).LoadFailed?
  }

  /** The project at `l` after its detail page gave `s` at time `now`. */
  ghost predicate Visited(db: Db, r: Db, l: string, s: DetailScrape, now: int) {
    && l in db.projects && l in r.projects
    && r.projects[l] == (if s.Loaded? then SaveDetails(db.projects[l], s.social, s.team, now) else db.projects[l])
  }

  /** The detail loop after `i` projects of the queue. */
  ghost predicate DetailProgress(db: Db, queue: seq<string>, scrape: string -> DetailScrape,
                                 clock: nat -> int, i: nat, r: Db)
    requires DetailQueue(db, queue)
  {
    && i <= |queue|
    && ProjectStore.Valid(r) && KeepsIds(db, r)
    && (forall k :: 0 <= k < i ==> Visited(db, r, queue[k], scrape(queue[k]), clock(k)))
    && (forall k :: i <= k < |queue| ==> r.projects[queue[k]] == db.projects[queue[k]])
    && (forall l :: l in db.projects && l !in queue ==> r.projects[l] == db.projects[l])
    && (forall l :: l in r.projects && l !in db.projects ==>
          !r.projects[l].isInitial && r.projects[l].detailFetchedAt.None?)
    && |db.investments| <= |r.investments| && r.investments[..|db.investments|] == db.investments
  }

  lemma DetailStep(db: Db, queue: seq<string>, scrape: string -> DetailScrape,
                   clock: nat -> int, i: nat, r: Db, r': Db)
    requires DetailQueue(db, queue) && DetailProgress(db, queue, scrape, clock, i, r) && i < |queue|
    requires queue[i] in r.projects
    requires ProjectStore.Valid(r') && KeepsIds(r, r')
    requires Visited(r, r', queue[i], scrape(queue[i]), clock(i))
    requires forall l :: l in r.projects && l != queue[i] ==> r'.projects[l] == r.projects[l]
    requires |r.investments| <= |r'.investments| && r'.investments[..|r.investments|] == r.investments
    requires forall l :: l in r'.projects && l !in r.projects ==>
               !r'.projects[l].isInitial && r'.projects[l].detailFetchedAt.None?
    ensures DetailProgress(db, queue, scrape, clock, i + 1, r')
  {
    assert KeepsIds(db, r') by {
      forall l | l in db.projects ensures l in r'.projects && r'.projects[l].id == db.projects[l].id {
        assert r.projects[l].id == db.projects[l].id;
      }
    }
    forall k | 0 <= k < i ensures Visited(db, r', queue[k], scrape(queue[k]), clock(k)) {
      assert Visited(db, r, queue[k], scrape(queue[k]), clock(k));
      assert queue[k] != queue[i];
      assert r'.projects[queue[k]] == r.projects[queue[k]];
    }
    assert Visited(db, r', queue[i], scrape(queue[i]), clock(i)) by {
      assert r.projects[queue[i]] == db.projects[queue[i]];
    }
    forall k | i + 1 <= k < |queue| ensures r'.projects[queue[k]] == db.projects[queue[k]] {
      assert queue[k] != queue[i];
    }
    assert r'.investments[..|db.investments|] == r.investments[..|db.investments|];
  }

  /** The (round, investor) pairs of each page of the queue, in queue order. */
  function PagesPairs(queue: seq<string>, scrape: string -> DetailScrape,
                      currentYear: int, dateParse: string -> Option<int>): (ps: seq<seq<(Rounds.Round, Rounds.Investor)>>)
    ensures |ps| == |queue|
    ensures forall k :: 0 <= k < |queue| ==> ps[k] == PagePairs(scrape(queue[k]), currentYear, dateParse)
  {
    seq(|queue|, k requires 0 <= k < |queue| => PagePairs(scrape(queue[k]), currentYear, dateParse))
  }

  /** Every investor met on the first `i` pages has a row in `r`; `pairs[k]`
      are the pairs of the `k`-th page. */
  ghost predicate InvestorsKnown(pairs: seq<seq<(Rounds.Round, Rounds.Investor)>>, i: nat, r: Db)
    requires i <= |pairs|
  {
    forall k, j :: 0 <= k < i && 0 <= j < |pairs[k]| ==> pairs[k][j].1.link in r.projects
  }

  /** The edges of one visit: one per pair, in order, from the investor's
      row in `r` into the project with id `fundedId`. */
  function VisitEdges(pairs: seq<(Rounds.Round, Rounds.Investor)>, r: Db, fundedId: nat): (e: seq<Investment>)
    requires forall k :: 0 <= k < |pairs| ==> pairs[k].1.link in r.projects
    ensures |e| == |pairs|
  {
    seq(|pairs|, k requires 0 <= k < |pairs| =>
      Rounds.EdgeFor(pairs[k].0, pairs[k].1, r.projects[pairs[k].1.link].id, fundedId))
  }

  /** The edges the first `i` visits of the queue add, visit after visit,
      each into the project visited. */
  ghost function RunEdges(db: Db, queue: seq<string>, pairs: seq<seq<(Rounds.Round, Rounds.Investor)>>,
                          i: nat, r: Db): seq<Investment>
    requires DetailQueue(db, queue) && |pairs| == |queue| && i <= |queue| && InvestorsKnown(pairs, i, r)
    decreases i
  {
    if i == 0 then []
    else RunEdges(db, queue, pairs, i - 1, r) + VisitEdges(pairs[i - 1], r, db.projects[queue[i - 1]].id)
  }

  /** The edge table after `i` visits: the edges there before, then those
      of each visit in order. */
  ghost predicate DetailEdges(db: Db, queue: seq<string>, pairs: seq<seq<(Rounds.Round, Rounds.Investor)>>,
                              i: nat, r: Db)
    requires DetailQueue(db, queue) && |pairs| == |queue| && i <= |queue|
  {
    && InvestorsKnown(pairs, i, r)
    && r.investments == db.investments + RunEdges(db, queue, pairs, i, r)
  }

  /** A visit's edges read the same in a later database that kept the ids. */
  lemma VisitEdgesKeep(pairs: seq<(Rounds.Round, Rounds.Investor)>, r: Db, r': Db, fundedId: nat)
    requires forall k :: 0 <= k < |pairs| ==> pairs[k].1.link in r.projects
    requires KeepsIds(r, r')
    ensures forall k :: 0 <= k < |pairs| ==> pairs[k].1.link in r'.projects
    ensures VisitEdges(pairs, r', fundedId) == VisitEdges(pairs, r, fundedId)
  {
    var e, e' := VisitEdges(pairs, r, fundedId), VisitEdges(pairs, r', fundedId);
    forall k | 0 <= k < |pairs| ensures e'[k] == e[k] {
      assert r'.projects[pairs[k].1.link].id == r.projects[pairs[k].1.link].id;
    }
  }

  /** Investors with a row keep it in a later database that kept the ids. */
  lemma InvestorsKnownKeep(pairs: seq<seq<(Rounds.Round, Rounds.Investor)>>, i: nat, r: Db, r': Db)
    requires i <= |pairs| && InvestorsKnown(pairs, i, r) && KeepsIds(r, r')
    ensures InvestorsKnown(pairs, i, r')
  {
    forall k, j | 0 <= k < i && 0 <= j < |pairs[k]| ensures pairs[k][j].1.link in r'.projects {
      assert pairs[k][j].1.link in r.projects;
    }
  }

  /** The edges of the first `i` visits read the same in a later database
      that kept the ids. */
  lemma {:induction false} RunEdgesKeep(db: Db, queue: seq<string>, pairs: seq<seq<(Rounds.Round, Rounds.Investor)>>,
                                        i: nat, r: Db, r': Db)
    requires DetailQueue(db, queue) && |pairs| == |queue| && i <= |queue| && InvestorsKnown(pairs, i, r)
    requires KeepsIds(r, r') && InvestorsKnown(pairs, i, r')
    ensures RunEdges(db, queue, pairs, i, r') == RunEdges(db, queue, pairs, i, r)
    decreases i
  {
    if i > 0 {
      RunEdgesKeep(db, queue, pairs, i - 1, r, r');
      VisitEdgesKeep(pairs[i - 1], r, r', db.projects[queue[i - 1]].id);
    }
  }

  /** The investors of page `i` joined to those of the pages before. */
  lemma InvestorsKnownStep(pairs: seq<seq<(Rounds.Round, Rounds.Investor)>>, i: nat, r: Db)
    requires i < |pairs| && InvestorsKnown(pairs, i, r)
    requires forall j :: 0 <= j < |pairs[i]| ==> pairs[i][j].1.link in r.projects
    ensures InvestorsKnown(pairs, i + 1, r)
  {
    forall k, j | 0 <= k < i + 1 && 0 <= j < |pairs[k]| ensures pairs[k][j].1.link in r.projects {
      if k == i {
        assert pairs[i][j].1.link in r.projects;
      }
    }
  }

  /** A table that was `start + before` and then grew by `e`, element by
      element, is `start + all` for `all == before + e`. */
  lemma EdgesAppend(start: seq<Investment>, before: seq<Investment>, e: seq<Investment>, all: seq<Investment>,
                    mid: seq<Investment>, s: seq<Investment>)
    requires all == before + e && mid == start + before
    requires |s| == |mid| + |e| && s[..|mid|] == mid
    requires forall k :: 0 <= k < |e| ==> s[|mid| + k] == e[k]
    ensures s == start + all
  {
    forall n | 0 <= n < |s| ensures s[n] == (start + all)[n] {
      if n < |mid| {
        assert s[..|mid|][n] == s[n];
      } else {
        assert s[|mid| + (n - |mid|)] == e[n - |mid|];
      }
    }
  }

  /** `RunEdges` one visit further. */
  lemma RunEdgesSnoc(db: Db, queue: seq<string>, pairs: seq<seq<(Rounds.Round, Rounds.Investor)>>, i: nat, r: Db)
    requires DetailQueue(db, queue) && |pairs| == |queue| && i < |queue|
    requires InvestorsKnown(pairs, i, r) && InvestorsKnown(pairs, i + 1, r)
    ensures RunEdges(db, queue, pairs, i + 1, r) ==
              RunEdges(db, queue, pairs, i, r) + VisitEdges(pairs[i], r, db.projects[queue[i]].id)
  {
    assert (i + 1) - 1 == i;
  }

  /** One visit keeps the edge table in step with `RunEdges`: its edges,
      one per pair of its page, follow those of the visits before. */
  lemma EdgesStep(db: Db, queue: seq<string>, pairs: seq<seq<(Rounds.Round, Rounds.Investor)>>, i: nat, r: Db, r': Db)
    requires DetailQueue(db, queue) && |pairs| == |queue| && i < |queue| && DetailEdges(db, queue, pairs, i, r)
    requires queue[i] in r.projects && r.projects[queue[i]].id == db.projects[queue[i]].id
    requires KeepsIds(r, r')
    requires |r.investments| <= |r'.investments| && r'.investments[..|r.investments|] == r.investments
    requires |r'.investments| == |r.investments| + |pairs[i]|
    requires forall k :: 0 <= k < |pairs[i]| ==>
               && pairs[i][k].1.link in r'.projects
               && r'.investments[|r.investments| + k] ==
                    Rounds.EdgeFor(pairs[i][k].0, pairs[i][k].1, r'.projects[pairs[i][k].1.link].id, r.projects[queue[i]].id)
    ensures DetailEdges(db, queue, pairs, i + 1, r')
  {
    InvestorsKnownKeep(pairs, i, r, r');
    RunEdgesKeep(db, queue, pairs, i, r, r');
    InvestorsKnownStep(pairs, i, r');
    var fundedId := db.projects[queue[i]].id;
    var e := VisitEdges(pairs[i], r', fundedId);
    forall k | 0 <= k < |e| ensures r'.investments[|r.investments| + k] == e[k] {
      assert e[k] == Rounds.EdgeFor(pairs[i][k].0, pairs[i][k].1, r'.projects[pairs[i][k].1.link].id, fundedId);
    }
    var before := RunEdges(db, queue, pairs, i, r');
    RunEdgesSnoc(db, queue, pairs, i, r');
    EdgesAppend(db.investments, before, e, RunEdges(db, queue, pairs, i + 1, r'), r.investments, r'.investments);
  }

  /** Every edge the first `i` visits add goes into a project visited whose
      page gave pairs: a visit without pairs adds no edge. */
  lemma {:induction false} RunEdgesFunded(db: Db, queue: seq<string>, pairs: seq<seq<(Rounds.Round, Rounds.Investor)>>,
                                          i: nat, r: Db, n: nat)
    requires DetailQueue(db, queue) && |pairs| == |queue| && i <= |queue| && InvestorsKnown(pairs, i, r)
    requires n < |RunEdges(db, queue, pairs, i, r)|
    ensures exists k :: 0 <= k < i && |pairs[k]| > 0 &&
              RunEdges(db, queue, pairs, i, r)[n].fundedProjectId == db.projects[queue[k]].id
    decreases i
  {
    var front := RunEdges(db, queue, pairs, i - 1, r);
    var e := VisitEdges(pairs[i - 1], r, db.projects[queue[i - 1]].id);
    assert RunEdges(db, queue, pairs, i, r) == front + e;
    if n < |front| {
      RunEdgesFunded(db, queue, pairs, i - 1, r, n);
      assert (front + e)[n] == front[n];
    } else {
      assert (front + e)[n] == e[n - |front|];
      assert e[n - |front|].fundedProjectId == db.projects[queue[i - 1]].id;
    }
  }

  /** The row after the first `i` projects of the queue were visited: it
      records the last of them and its time, or, with none visited, keeps
      what it had; nothing else in it changes. */
  ghost predicate Recorded(row: CrawlState, row': CrawlState, queue: seq<string>, i: nat, clock: nat -> int)
    requires i <= |queue|
  {
    && SameRow(row, row') && row'.lastPage == row.lastPage
    && row'.status == row.status && row'.error == row.error
    && (i == 0 ==> row'.lastProjectLink == row.lastProjectLink && row'.lastUpdateTime == row.lastUpdateTime)
    && (i > 0 ==> row'.lastProjectLink == Some(queue[i - 1]) && row'.lastUpdateTime == Some(clock(i - 1)))
  }

  /** Recording the visit to the `i`-th project. */
  lemma RecordStep(row: CrawlState, row': CrawlState, queue: seq<string>, i: nat, clock: nat -> int)
    requires i < |queue| && Recorded(row, row', queue, i, clock)
    ensures Recorded(row, row'.(lastProjectLink := Some(queue[i]), lastUpdateTime := Some(clock(i))), queue, i + 1, clock)
  {
  }

  /** Visit `i` of the detail loop: scrape the page of `queue[i]` with
      the clock's reading `clock(i)` and store what it gives. */
  method Visit(db: Db, queue: seq<string>, ghost pairs: seq<seq<(Rounds.Round, Rounds.Investor)>>,
               scrape: string -> DetailScrape, clock: nat -> int,
               currentYear: int, dateParse: string -> Option<int>, i: nat, r: Db)
    returns (next: Db)
    requires ProjectStore.Valid(db) && DetailQueue(db, queue) && i < |queue|
    requires pairs == PagesPairs(queue, scrape, currentYear, dateParse)
    requires DetailProgress(db, queue, scrape, clock, i, r) && DetailEdges(db, queue, pairs, i, r)
    ensures DetailProgress(db, queue, scrape, clock, i + 1, next)
    ensures DetailEdges(db, queue, pairs, i + 1, next)
    ensures scrape(queue[i]).LoadFailed? ==> next == r
  {
    var link := queue[i];
    next := ScrapeAndUpdate(r, link, scrape(link), clock(i), currentYear, dateParse);
    DetailStep(db, queue, scrape, clock, i, r, next);
    assert pairs[i] == PagePairs(scrape(link), currentYear, dateParse);
    EdgesStep(db, queue, pairs, i, r, next);
  }

  /** The `for` loop of `fetchProjectDetails` with the log line naming the
      loop variable: every queued project is visited in order, and after
      each the row records its link and the time. `clock(k)` is the time of
      the visit to the `k`-th project: the source reads the clock twice per
      visit, once for the project's `detailFetchedAt` and once for the row's
      `lastUpdateTime`, and the one reading `clock(k)` stands for both. */
  method VisitAll(db: Db, row: CrawlState, queue: seq<string>,
                  scrape: string -> DetailScrape, clock: nat -> int,
                  currentYear: int, dateParse: string -> Option<int>)
    returns (r: Db, row': CrawlState)
    requires ProjectStore.Valid(db) && DetailQueue(db, queue)
    ensures DetailProgress(db, queue, scrape, clock, |queue|, r)
    ensures DetailEdges(db, queue, PagesPairs(queue, scrape, currentYear, dateParse), |queue|, r)
    ensures Recorded(row, row', queue, |queue|, clock)
    ensures NoPageLoads(scrape) ==> r == db
  {
    r := db;
    row' := row;
    ghost var pairs := PagesPairs(queue, scrape, currentYear, dateParse);
    assert db.investments + [] == db.investments;
    var i := 0;
    while i < |queue|
      invariant i <= |queue|
      invariant DetailProgress(db, queue, scrape, clock, i, r)
      invariant DetailEdges(db, queue, pairs, i, r)
      invariant Recorded(row, row', queue, i, clock)
      invariant NoPageLoads(scrape) ==> r == db
    {
      var link := queue[i];
      var next := Visit(db, queue, pairs, scrape, clock, currentYear, dateParse, i, r);
      RecordStep(row, row', queue, i, clock);
      r := next;
      row' := row'.(lastProjectLink := Some(link), lastUpdateTime := Some(clock(i)));
      i := i + 1;
    }
  }

  /** `fetchProjectDetails()` with the log line naming the loop variable:
      the row is marked running with its error cleared, every queued
      project is visited (a page that loads stores its details, one that
      fails leaves the project queued), and the row ends completed. A page
      loads only while a browser is open; the run launches none itself, so
      on its own every visit fails to load and the database is unchanged. */
  method FetchProjectDetails(db: Db, states: StateTable, queue: seq<string>,
                             scrape: string -> DetailScrape, clock: nat -> int,
                             currentYear: int, dateParse: string -> Option<int>)
    returns (r: Db, t: StateTable, at: nat)
    requires ProjectStore.Valid(db) && CrawlStates.Valid(states) && DetailQueue(db, queue)
    ensures DetailProgress(db, queue, scrape, clock, |queue|, r)
    ensures DetailEdges(db, queue, PagesPairs(queue, scrape, currentYear, dateParse), |queue|, r)
    ensures NoPageLoads(scrape) ==> r == db
    ensures var (t0, i) := FindOrCreate(states, DetailLookup, false, true);
            && at == i && OnlyRowChanged(t0, t, at)
            && t.rows[at].status == Completed && t.rows[at].error.None?
            && Recorded(t0.rows[at], t.rows[at].(status := t0.rows[at].status, error := t0.rows[at].error),
                        queue, |queue|, clock)
  {
    var found := FindOrCreate(states, DetailLookup, false, true);
    var t0 := found.0;
    at := found.1;
    var row := t0.rows[at].(status := Running, error := None);
    t := Save(t0, at, row);
    r, row := VisitAll(db, row, queue, scrape, clock, currentYear, dateParse);
    row := row.(status := Completed);
    t := Save(t0, at, row);
  }

  /** After the detail run, every edge it added goes into a queued project
      whose page gave (round, investor) pairs. */
  lemma NewEdgesFunded(db: Db, queue: seq<string>, pairs: seq<seq<(Rounds.Round, Rounds.Investor)>>, r: Db, n: nat)
    requires DetailQueue(db, queue) && |pairs| == |queue| && DetailEdges(db, queue, pairs, |queue|, r)
    requires |db.investments| <= n < |r.investments|
    ensures exists k :: 0 <= k < |queue| && |pairs[k]| > 0 &&
              r.investments[n].fundedProjectId == db.projects[queue[k]].id
  {
    var added := RunEdges(db, queue, pairs, |queue|, r);
    assert r.investments[n] == added[n - |db.investments|];
    RunEdgesFunded(db, queue, pairs, |queue|, r, n - |db.investments|);
  }

  /** After a corrected detail run, a project that was there before and is
      still waiting for its details is one whose page failed to load. */
  lemma StillQueuedFailedToLoad(db: Db, queue: seq<string>, scrape: string -> DetailScrape,
                                clock: nat -> int, r: Db, l: string)
    requires DetailQueue(db, queue) && DetailProgress(db, queue, scrape, clock, |queue|, r)
    requires l in db.projects && r.projects[l].detailFetchedAt.None?
    ensures l in queue && scrape(l).LoadFailed?
  {
    assert l in queue;
    var k :| 0 <= k < |queue| && queue[k] == l;
    assert Visited(db, r, queue[k], scrape(queue[k]), clock(k));
  }
}

=== FILE: dates.dfy ===
/** `parseDate` of the listing and rounds extractors: recognise four shapes
    of a date cell, rewrite them into a string `Date.parse` accepts, and hand
    that string to `Date.parse`, which the model takes as a parameter. */
module DateParser {
  import opened Wrappers
  import opened Text

  /** `/^[A-Za-z]{3} \d{2}, \d{4}$/`, e.g. "Aug 01, 2023". */
  predicate IsMonDayYear(s: string) {
    |s| == 12 && AllLetters(s[..3]) && s[3] == ' ' && AllDigits(s[4..6])
    && s[6] == ',' && s[7] == ' ' && AllDigits(s[8..])
  }

  /** `/^[A-Za-z]{3}, \d{4}$/`, e.g. "May, 2018". */
  predicate IsMonCommaYear(s: string) {
    |s| == 9 && AllLetters(s[..3]) && s[3] == ',' && s[4] == ' ' && AllDigits(s[5..])
  }

  /** `/^[A-Za-z]{3} \d{2}$/`, e.g. "Oct 21". */
  predicate IsMonDay(s: string) {
    |s| == 6 && AllLetters(s[..3]) && s[3] == ' ' && AllDigits(s[4..])
  }

  /** `/^[A-Za-z]{3},? \d{4}$/`, e.g. "Jun, 2016" or "Jun 2016". */
  predicate IsMonOptCommaYear(s: string) {
    IsMonCommaYear(s)
    || (|s| == 8 && AllLetters(s[..3]) && s[3] == ' ' && AllDigits(s[4..]))
  }

  /** The string handed to `Date.parse`, `None` when the shape is not
      recognised (including null, undefined and the empty string). The five
      tests run in the source's order; the fifth repeats the third and can
      never be reached. */
  function Normalise(raw: Option<string>, currentYear: int): (r: Option<string>)
    ensures r.Some? <==> raw.Some? && (IsMonDayYear(raw.value) || IsMonOptCommaYear(raw.value) || IsMonDay(raw.value))
    ensures r.Some? && IsMonDayYear(raw.value) ==> r.value == raw.value
    ensures r.Some? && IsMonOptCommaYear(raw.value) ==>
              r.value == "01 " + raw.value[..3] + " " + raw.value[|raw.value| - 4..]
    ensures r.Some? && IsMonDay(raw.value) ==> r.value == raw.value + ", " + IntToString(currentYear)
  {
    if raw.None? || raw.value == "" then None
    else
      var s := raw.value;
      if IsMonDayYear(s) then Some(s)
      else if IsMonCommaYear(s) then
        CommaRemoved(s);
        Some("01 " + ReplaceFirst(s, ",", ""))
      else if IsMonDay(s) then Some(s + ", " + IntToString(currentYear))
      else if IsMonOptCommaYear(s) then
        NoComma(s);
        Some("01 " + ReplaceFirst(s, ",", ""))
      else if IsMonDay(s) then Some(s + ", " + IntToString(currentYear))
      else None
  }

  /** `parseDate(dateStr)`: the timestamp `Date.parse` gives the normalised
      string, `None` when the shape is not recognised or `Date.parse` gives NaN. */
  function ParseDate(raw: Option<string>, currentYear: int, dateParse: string -> Option<int>): (r: Option<int>)
    ensures Normalise(raw, currentYear).None? ==> r.None?
    ensures Normalise(raw, currentYear).Some? ==> r == dateParse(Normalise(raw, currentYear).value)
  {
    match Normalise(raw, currentYear)
    case None => None
    case Some(t) => dateParse(t)
  }

  lemma CommaRemoved(s: string)
    requires IsMonCommaYear(s)
    ensures ReplaceFirst(s, ",", "") == s[..3] + " " + s[5..]
  {
    assert OccursAt(s, ",", 3);
    assert forall j :: 0 <= j < 3 ==> IsLetter(s[..3][j]);
    assert forall j :: 0 <= j < 3 ==> s[j] != ","[0];
    NoOccurrenceBefore(s, ",", 3);
    ReplaceFirstAt(s, ",", "", 3);
    assert s[..3] + "" + s[4..] == s[..3] + " " + s[5..];
  }

  lemma NoComma(s: string)
    requires |s| == 8 && AllLetters(s[..3]) && s[3] == ' ' && AllDigits(s[4..])
    ensures ReplaceFirst(s, ",", "") == s
  {
    forall j | 0 <= j < |s| ensures s[j] != ","[0] {
      if j < 3 { assert IsLetter(s[..3][j]); } else if j > 3 { assert IsDigit(s[4..][j - 4]); }
    }
    NotContains(s, ",");
  }

  // ------------------------------------------------------ dates as displayed

  /** The way the listing writes a date: a three-letter month name, then a
      two-digit day and/or a four-digit year. */
  datatype Shown =
    | FullDate(month: string, day: string, year: string)      // "Aug 01, 2023"
    | MonthCommaYear(month: string, year: string)             // "May, 2018"
    | MonthYear(month: string, year: string)                  // "Jun 2016"
    | MonthDay(month: string, day: string)                    // "Oct 21"

  predicate WellFormed(d: Shown) {
    && |d.month| == 3 && AllLetters(d.month)
    && (d.FullDate? || d.MonthDay? ==> |d.day| == 2 && AllDigits(d.day))
    && (!d.MonthDay? ==> |d.year| == 4 && AllDigits(d.year))
  }

  function Show(d: Shown): string {
    match d
    case FullDate(m, dd, y) => m + " " + dd + ", " + y
    case MonthCommaYear(m, y) => m + ", " + y
    case MonthYear(m, y) => m + " " + y
    case MonthDay(m, dd) => m + " " + dd
  }

  /** What `Date.parse` is handed for a shown date: a full date as it is,
      a month and year as the first of that month, a month and day in the
      current year. */
  function Expected(d: Shown, currentYear: int): string {
    match d
    case FullDate(m, dd, y) => m + " " + dd + ", " + y
    case MonthCommaYear(m, y) => "01 " + m + " " + y
    case MonthYear(m, y) => "01 " + m + " " + y
    case MonthDay(m, dd) => m + " " + dd + ", " + IntToString(currentYear)
  }

  /** Every well-formed date the listing shows is recognised and normalised
      to the expected `Date.parse` input. */
  lemma NormaliseShown(d: Shown, currentYear: int)
    requires WellFormed(d)
    ensures Normalise(Some(Show(d)), currentYear) == Some(Expected(d, currentYear))
  {
    var s := Show(d);
    match d {
      case FullDate(m, dd, y) =>
        assert s[..3] == m && s[4..6] == dd && s[8..] == y;
        assert IsMonDayYear(s);
      case MonthCommaYear(m, y) =>
        assert s[..3] == m && s[5..] == y;
        assert IsMonCommaYear(s);
        assert s[|s| - 4..] == y;
      case MonthYear(m, y) =>
        assert s[..3] == m && s[4..] == y;
        assert IsMonOptCommaYear(s);
        assert s[|s| - 4..] == y;
        assert !IsMonDay(s) && !IsMonDayYear(s);
      case MonthDay(m, dd) =>
        assert s[..3] == m && s[4..] == dd;
        assert IsMonDay(s);
    }
  }

  /** The recognised strings are exactly the well-formed shown dates: any
      other string parses to null, whatever `Date.parse` would make of it. */
  lemma RecognisedExactlyShown(s: string, currentYear: int)
    ensures Normalise(Some(s), currentYear).Some? <==> exists d :: WellFormed(d) && Show(d) == s
  {
    if IsMonDayYear(s) {
      var d := FullDate(s[..3], s[4..6], s[8..]);
      assert WellFormed(d) && Show(d) == s;
    } else if IsMonCommaYear(s) {
      var d := MonthCommaYear(s[..3], s[5..]);
      assert WellFormed(d) && Show(d) == s;
    } else if IsMonOptCommaYear(s) {
      var d := MonthYear(s[..3], s[4..]);
      assert WellFormed(d) && Show(d) == s;
    } else if IsMonDay(s) {
      var d := MonthDay(s[..3], s[4..]);
      assert WellFormed(d) && Show(d) == s;
    } else {
      forall d | WellFormed(d) ensures Show(d) != s {
        NormaliseShown(d, currentYear);
      }
    }
  }
}

=== FILE: details.dfy ===
/** `scrapeAndUpdateProjectDetails`: a project's detail page supplies its
    social links and team, which are saved with the detail timestamp before
    the rounds table is turned into investment edges. Every failure of the
    page is swallowed. */
module Details {
  import opened Wrappers
  import opened Text
  import opened ProjectStore
  import opened Rounds

  /** A `.links a` element: the text of its `<span>`, if any, and its `href`. */
  datatype SocialAnchor = SocialAnchor(span: Option<string>, href: string)

  /** A `.team_member .item` element: the texts and attributes read from it. */
  datatype MemberScrape = MemberScrape(
    nameText: Option<string>,
    positionText: Option<string>,
    avatarSrc: Option<string>,
    cardHref: Option<string>)

  /** The rounds tab: the table did not appear, or its rows. */
  datatype RoundsScrape = NoRoundsTable | RoundsTable(rows: seq<RoundsRow>)

  /** What the detail page gave: it failed to load, or its three parts. */
  datatype DetailScrape =
    | LoadFailed
    | Loaded(social: seq<SocialAnchor>, team: seq<MemberScrape>, rounds: RoundsScrape)

  /** The key a social link is stored under: the trimmed, lower-cased span
      text; an anchor without a span stores under "undefined". */
  function LinkType(a: SocialAnchor): string {
    if a.span.Some? then ToLower(Trim(a.span.value)) else "undefined"
  }

  /** Writing `m[k] = v` for each pair in order: every key written is
      present, and nothing else is. */
  function Assign(kvs: seq<(string, string)>): (r: map<string, string>)
    ensures forall i :: 0 <= i < |kvs| ==> kvs[i].0 in r
    decreases |kvs|
  {
    if |kvs| == 0 then map[]
    else
      var n := |kvs| - 1;
      var front := Assign(kvs[..n]);
      assert forall i :: 0 <= i < n ==> kvs[..n][i] == kvs[i];
      front[kvs[n].0 := kvs[n].1]
  }

  /** Nothing but the keys written is present. */
  lemma {:induction false} AssignOnlyWritten(kvs: seq<(string, string)>, k: string)
    requires k in Assign(kvs)
    ensures exists i :: 0 <= i < |kvs| && kvs[i].0 == k
    decreases |kvs|
  {
    var n := |kvs| - 1;
    if kvs[n].0 != k {
      var front := kvs[..n];
      AssignOnlyWritten(front, k);
      var i :| 0 <= i < n && front[i].0 == k;
      assert kvs[i] == front[i];
    }
  }

  /** A key written several times keeps the value of its last write. */
  lemma {:induction false} AssignLastWins(kvs: seq<(string, string)>, i: nat)
    requires i < |kvs|
    requires forall j :: i < j < |kvs| ==> kvs[j].0 != kvs[i].0
    ensures kvs[i].0 in Assign(kvs) && Assign(kvs)[kvs[i].0] == kvs[i].1
    decreases |kvs|
  {
    var n := |kvs| - 1;
    if i < n {
      var front := kvs[..n];
      assert front[i] == kvs[i];
      forall j | i < j < n ensures front[j].0 != front[i].0 {
        assert front[j] == kvs[j];
      }
      AssignLastWins(front, i);
    }
  }

  /** The (type, href) pair each anchor writes. */
  function SocialEntries(anchors: seq<SocialAnchor>): (r: seq<(string, string)>)
    ensures |r| == |anchors|
    ensures forall i :: 0 <= i < |anchors| ==> r[i] == (LinkType(anchors[i]), anchors[i].href)
  {
    seq(|anchors|, i requires 0 <= i < |anchors| => (LinkType(anchors[i]), anchors[i].href))
  }

  /** `socialLinks[type] = link.href` for each anchor in document order. */
  function SocialLinks(anchors: seq<SocialAnchor>): map<string, string> {
    Assign(SocialEntries(anchors))
  }

  /** Every anchor's type is a key, every key is some anchor's type, and
      several anchors of one type keep the `href` of the last of them. */
  lemma SocialLinksLastWins(anchors: seq<SocialAnchor>, i: nat)
    requires i < |anchors|
    requires forall j :: i < j < |anchors| ==> LinkType(anchors[j]) != LinkType(anchors[i])
    ensures LinkType(anchors[i]) in SocialLinks(anchors)
    ensures SocialLinks(anchors)[LinkType(anchors[i])] == anchors[i].href
  {
    var kvs := SocialEntries(anchors);
    forall j | i < j < |kvs| ensures kvs[j].0 != kvs[i].0 {
    }
    AssignLastWins(kvs, i);
  }

  /** The keys are exactly the anchors' types. */
  lemma SocialLinksKeys(anchors: seq<SocialAnchor>, t: string)
    ensures t in SocialLinks(anchors) <==> exists i :: 0 <= i < |anchors| && LinkType(anchors[i]) == t
  {
    var kvs := SocialEntries(anchors);
    if t in SocialLinks(anchors) {
      AssignOnlyWritten(kvs, t);
      var i :| 0 <= i < |kvs| && kvs[i].0 == t;
      assert LinkType(anchors[i]) == t;
    } else {
      forall i | 0 <= i < |anchors| ensures LinkType(anchors[i]) != t {
        assert kvs[i].0 in Assign(kvs);
      }
    }
  }

  /** A team member as stored: trimmed name and position, and empty strings
      for a missing avatar or profile link. */
  function ToMember(m: MemberScrape): (r: TeamMember)
    ensures r.name.Some? <==> m.nameText.Some?
    ensures r.position.Some? <==> m.positionText.Some?
    ensures m.avatarSrc.None? ==> r.avatar == ""
    ensures m.cardHref.None? ==> r.profileLink == ""
  {
    TeamMember(
      if m.nameText.Some? then Some(Trim(m.nameText.value)) else None,
      if m.positionText.Some? then Some(Trim(m.positionText.value)) else None,
      m.avatarSrc.GetOr(""),
      m.cardHref.GetOr(""))
  }

  function Team(ms: seq<MemberScrape>): (r: seq<TeamMember>)
    ensures |r| == |ms| && forall i :: 0 <= i < |ms| ==> r[i] == ToMember(ms[i])
  {
    seq(|ms|, i requires 0 <= i < |ms| => ToMember(ms[i]))
  }

  /** `project.update({socialLinks, teamMembers, detailFetchedAt})`. */
  function SaveDetails(p: Project, social: seq<SocialAnchor>, team: seq<MemberScrape>, now: int): (r: Project)
    ensures r.detailFetchedAt == Some(now)
    ensures r.socialLinks == Some(SocialLinks(social)) && r.teamMembers == Some(Team(team))
    ensures r.(socialLinks := p.socialLinks, teamMembers := p.teamMembers, detailFetchedAt := p.detailFetchedAt) == p
  {
    p.(socialLinks := Some(SocialLinks(social)), teamMembers := Some(Team(team)), detailFetchedAt := Some(now))
  }

  /** The (round, investor) pairs whose edges a detail page adds: those of
      its rounds table in order, or none when the page failed to load, has
      no rounds tab, or its table could not be read. */
  function PagePairs(scrape: DetailScrape, currentYear: int, dateParse: string -> Option<int>): seq<(Round, Investor)>
  {
    if scrape.LoadFailed? || scrape.rounds.NoRoundsTable? then []
    else
      match ExtractRounds(scrape.rounds.rows, currentYear, dateParse)
      case None => []
      case Some(rounds) => Pairs(rounds)
  }

  /** The rounds part of a loaded page, on the project with id `fundedId`:
      one edge per pair of `PagePairs`, in order, each from the investor's
      row into the project; the projects there before are untouched and the
      ones added are non-initial and still waiting for their details. */
  method PageRounds(db: Db, fundedId: nat, scrape: DetailScrape,
                    currentYear: int, dateParse: string -> Option<int>) returns (r: Db)
    requires ProjectStore.Valid(db) && HasId(db, fundedId) && scrape.Loaded?
    ensures ProjectStore.Valid(r) && KeepsIds(db, r)
    ensures forall l :: l in db.projects ==> r.projects[l] == db.projects[l]
    ensures |db.investments| <= |r.investments| && r.investments[..|db.investments|] == db.investments
    ensures forall l :: l in r.projects && l !in db.projects ==>
              !r.projects[l].isInitial && r.projects[l].detailFetchedAt.None?
    ensures var pairs := PagePairs(scrape, currentYear, dateParse);
            && |r.investments| == |db.investments| + |pairs|
            && forall k :: 0 <= k < |pairs| ==>
                 && pairs[k].1.link in r.projects
                 && r.investments[|db.investments| + k] ==
                      EdgeFor(pairs[k].0, pairs[k].1, r.projects[pairs[k].1.link].id, fundedId)
  {
    if scrape.rounds.NoRoundsTable? {
      assert db.investments[..|db.investments|] == db.investments;
      return db;
    }
    var rounds := ExtractRounds(scrape.rounds.rows, currentYear, dateParse);
    assert PagePairs(scrape, currentYear, dateParse) == if rounds.Some? then Pairs(rounds.value) else [];
    r := ProcessRounds(db, fundedId, rounds);
  }

  /** `project.update(...)` with the scraped details: the row at `link`
      gets them and the timestamp, under the same id; nothing else changes. */
  method SaveRow(db: Db, link: string, social: seq<SocialAnchor>, team: seq<MemberScrape>, now: int)
    returns (r: Db)
    requires ProjectStore.Valid(db) && link in db.projects
    ensures ProjectStore.Valid(r) && KeepsIds(db, r) && HasId(r, db.projects[link].id)
    ensures r.projects.Keys == db.projects.Keys
    ensures r.projects[link] == SaveDetails(db.projects[link], social, team, now)
    ensures forall l :: l in db.projects && l != link ==> r.projects[l] == db.projects[l]
    ensures r.investments == db.investments
  {
    var p := db.projects[link];
    var p' := SaveDetails(p, social, team, now);
    r := Db(db.projects[link := p'], db.investments, db.nextId);
    assert p'.id == p.id && p'.projectLink == p.projectLink;
    assert KeepsIds(db, r);
    assert HasId(r, p.id) by { assert r.projects[link].id == p.id; }
    assert ProjectStore.Valid(r) by {
      KeepsIdsHasId(db, r);
    }
  }

  /** One detail page. A page that failed to load changes nothing. A loaded
      page saves the details and the timestamp first; the rounds are then
      processed, and a rounds tab that fails writes no edge but does not
      undo the details. */
  method ScrapeAndUpdate(db: Db, link: string, scrape: DetailScrape, now: int,
                         currentYear: int, dateParse: string -> Option<int>) returns (r: Db)
    requires ProjectStore.Valid(db) && link in db.projects
    ensures ProjectStore.Valid(r) && KeepsIds(db, r)
    ensures scrape.LoadFailed? ==> r == db
    ensures scrape.Loaded? ==>
              r.projects[link] == SaveDetails(db.projects[link], scrape.social, scrape.team, now)
    ensures forall l :: l in db.projects && l != link ==> r.projects[l] == db.projects[l]
    ensures |db.investments| <= |r.investments| && r.investments[..|db.investments|] == db.investments
    ensures forall l :: l in r.projects && l !in db.projects ==>
              !r.projects[l].isInitial && r.projects[l].detailFetchedAt.None?
    ensures scrape.Loaded? && scrape.rounds.NoRoundsTable? ==> r.investments == db.investments
    ensures (scrape.Loaded? && scrape.rounds.RoundsTable? &&
             ExtractRounds(scrape.rounds.rows, currentYear, dateParse).None?) ==> r.investments == db.investments
    ensures var pairs := PagePairs(scrape, currentYear, dateParse);
            && |r.investments| == |db.investments| + |pairs|
            && forall k :: 0 <= k < |pairs| ==>
                 && pairs[k].1.link in r.projects
                 && r.investments[|db.investments| + k] ==
                      EdgeFor(pairs[k].0, pairs[k].1, r.projects[pairs[k].1.link].id, db.projects[link].id)
  {
    if scrape.LoadFailed? {
      return db;
    }
    var saved := SaveRow(db, link, scrape.social, scrape.team, now);
    r := PageRounds(saved, db.projects[link].id, scrape, currentYear, dateParse);
    assert KeepsIds(db, r) by { assert KeepsIds(db, saved) && KeepsIds(saved, r); }
    if scrape.rounds.NoRoundsTable? || ExtractRounds(scrape.rounds.rows, currentYear, dateParse).None? {
      assert PagePairs(scrape, currentYear, dateParse) == [];
      assert r.investments == r.investments[..|db.investments|];
    }
  }
}

=== FILE: js_number.dfy ===
/** The JavaScript number parsing the crawler and the listing route rely on:
    `parseFloat`, `parseInt` (radix 10) and validator.js's `isInt` test.
    Values are mathematical reals and integers; IEEE-754 rounding is not modelled. */
module JsNumber {
  import opened Wrappers
  import opened Text

  /** The number of leading decimal digits of `s`. */
  function DigitRun(s: string): (k: nat)
    ensures k <= |s| && AllDigits(s[..k])
    ensures k < |s| ==> !IsDigit(s[k])
  {
    if |s| > 0 && IsDigit(s[0]) then
      var k := 1 + DigitRun(s[1..]);
      assert s[..k] == [s[0]] + s[1..][..k - 1];
      k
    else 0
  }

  /** A string of digits is its own digit run. */
  lemma {:induction false} DigitRunAll(s: string)
    requires AllDigits(s)
    ensures DigitRun(s) == |s|
  {
    if |s| > 0 {
      DigitRunAll(s[1..]);
    }
  }

  /** The digit run stops at the first non-digit that follows a block of digits. */
  lemma {:induction false} DigitRunPrefix(d: string, rest: string)
    requires AllDigits(d)
    requires |rest| == 0 || !IsDigit(rest[0])
    ensures DigitRun(d + rest) == |d|
  {
    if |d| > 0 {
      assert (d + rest)[0] == d[0];
      assert (d + rest)[1..] == d[1..] + rest;
      DigitRunPrefix(d[1..], rest);
    } else {
      assert d + rest == rest;
    }
  }

  function Pow10(n: nat): (p: nat)
    ensures p >= 1
  {
    if n == 0 then 1 else 10 * Pow10(n - 1)
  }

  /** Ten to an integer power, as a real. */
  function Scale(e: int): (r: real)
    ensures r > 0.0
  {
    if e >= 0 then Pow10(e) as real else 1.0 / Pow10(-e) as real
  }

  /** The exponent part of a decimal literal at the start of `s`
      (`e`/`E`, an optional sign, at least one digit); 0 when there is none. */
  function ExponentPrefix(s: string): int {
    if |s| >= 2 && (s[0] == 'e' || s[0] == 'E') then
      var negative := s[1] == '-';
      var v := if s[1] == '-' || s[1] == '+' then s[2..] else s[1..];
      var k := DigitRun(v);
      if k == 0 then 0
      else if negative then -(DigitsValue(v[..k]) as int)
      else DigitsValue(v[..k]) as int
    else 0
  }

  /** An unsigned decimal literal at the start of `u`: integer digits, an
      optional `.` and fraction digits (at least one digit in all), then an
      optional exponent; `None` when there is no digit to read. */
  function ParseUnsigned(u: string): (r: Option<real>)
    ensures |u| > 0 && IsDigit(u[0]) ==> r.Some?
    ensures r.Some? ==> r.value >= 0.0
  {
    var k := DigitRun(u);
    if k < |u| && u[k] == '.' then WithFraction(u[..k], u[k + 1..])
    else WithoutFraction(u[..k], u[k..])
  }

  /** The literal whose integer digits `whole` are followed by `rest`, which
      does not start with `.`. */
  function WithoutFraction(whole: string, rest: string): (r: Option<real>)
    requires AllDigits(whole)
    ensures r.Some? <==> |whole| > 0
  {
    if |whole| == 0 then None
    else Some(Magnitude(DigitsValue(whole), 0, 0, ExponentPrefix(rest)))
  }

  /** The literal whose integer digits `whole` are followed by `.` and then
      by `after`: the fraction digits, then the exponent. */
  function WithFraction(whole: string, after: string): (r: Option<real>)
    requires AllDigits(whole)
    ensures r.Some? <==> |whole| > 0 || DigitRun(after) > 0
  {
    var k := DigitRun(after);
    if |whole| == 0 && k == 0 then None
    else Some(Magnitude(DigitsValue(whole), DigitsValue(after[..k]), k, ExponentPrefix(after[k..])))
  }

  /** The value of `whole.fraction` (the fraction written with `digits`
      digits) times ten to the power `exponent`. */
  function Magnitude(whole: nat, fraction: nat, digits: nat, exponent: int): (r: real)
    ensures r >= 0.0
  {
    var m := whole as real + fraction as real / Pow10(digits) as real;
    var scale := Scale(exponent);
    assert m >= 0.0;
    m * scale
  }

  /** `parseFloat`: skip leading white space, read the longest prefix that is a
      signed decimal literal, `None` (NaN) when there is no digit to read. */
  function ParseFloat(s: string): (r: Option<real>)
    ensures |TrimStart(s)| == 0 ==> r.None?
    ensures |TrimStart(s)| > 0 && IsDigit(TrimStart(s)[0]) ==> r.Some? && r.value >= 0.0
  {
    var t := TrimStart(s);
    var signed := |t| > 0 && (t[0] == '-' || t[0] == '+');
    var v := ParseUnsigned(if signed then t[1..] else t);
    if v.Some? && t[0] == '-' then Some(-v.value) else v
  }

  /** A character that could continue a decimal literal after its integer digits. */
  predicate ContinuesNumber(c: char) {
    IsDigit(c) || c == '.' || c == 'e' || c == 'E'
  }

  lemma ParseUnsignedNat(n: nat, rest: string)
    requires |rest| == 0 || !ContinuesNumber(rest[0])
    ensures ParseUnsigned(NatToString(n) + rest) == Some(n as real)
  {
    var d := NatToString(n);
    var u := d + rest;
    DigitRunPrefix(d, rest);
    assert u[..|d|] == d;
    assert u[|d|..] == rest;
    assert ExponentPrefix(rest) == 0;
  }

  /** `parseFloat` reads back a rendered natural number, whatever non-numeric
      text follows it (`parseFloat("25 ")`, `parseFloat("3 B")`). */
  lemma ParseFloatNat(n: nat, rest: string)
    requires |rest| == 0 || !ContinuesNumber(rest[0])
    ensures ParseFloat(NatToString(n) + rest) == Some(n as real)
  {
    var s := NatToString(n) + rest;
    assert s[0] == NatToString(n)[0];
    assert TrimStart(s) == s;
    ParseUnsignedNat(n, rest);
  }

  /** Integer digits followed by `.` leave the rest to `WithFraction`. */
  lemma ParseUnsignedDot(d: string, after: string)
    requires AllDigits(d)
    ensures ParseUnsigned(d + "." + after) == WithFraction(d, after)
  {
    var u := d + "." + after;
    assert u == d + ("." + after);
    DigitRunPrefix(d, "." + after);
    assert u[..|d|] == d && u[|d| + 1..] == after;
  }

  /** Fraction digits followed by non-numeric text. */
  lemma WithFractionDigits(d: string, f: string, rest: string)
    requires AllDigits(d) && |f| > 0 && AllDigits(f)
    requires |rest| == 0 || !ContinuesNumber(rest[0])
    ensures WithFraction(d, f + rest) == Some(Magnitude(DigitsValue(d), DigitsValue(f), |f|, 0))
  {
    DigitRunPrefix(f, rest);
    assert (f + rest)[..|f|] == f && (f + rest)[|f|..] == rest;
    assert ExponentPrefix(rest) == 0;
  }

  lemma ParseUnsignedDecimal(n: nat, f: string, rest: string)
    requires |f| > 0 && AllDigits(f)
    requires |rest| == 0 || !ContinuesNumber(rest[0])
    ensures ParseUnsigned(NatToString(n) + "." + f + rest) == Some(Magnitude(n, DigitsValue(f), |f|, 0))
  {
    var d := NatToString(n);
    assert d + "." + f + rest == d + "." + (f + rest);
    ParseUnsignedDot(d, f + rest);
    WithFractionDigits(d, f, rest);
  }

  /** A string starting with a digit has no leading white space. */
  lemma TrimStartDigit(u: string)
    requires |u| > 0 && IsDigit(u[0])
    ensures TrimStart(u) == u
  {
    assert !IsSpace(u[0]);
  }

  /** A literal starting with a digit is read by `parseFloat` as is. */
  lemma ParseFloatUnsigned(u: string)
    requires |u| > 0 && IsDigit(u[0])
    ensures ParseFloat(u) == ParseUnsigned(u)
  {
    TrimStartDigit(u);
  }

  lemma MagnitudeWithoutExponent(whole: nat, fraction: nat, digits: nat)
    ensures Magnitude(whole, fraction, digits, 0) == whole as real + fraction as real / Pow10(digits) as real
  {
    assert Scale(0) == 1.0;
  }

  /** A literal starting with a digit has the value `ParseUnsigned` gives it. */
  lemma ParseFloatOf(u: string, v: real)
    requires |u| > 0 && IsDigit(u[0]) && ParseUnsigned(u) == Some(v)
    ensures ParseFloat(u) == Some(v)
  {
    ParseFloatUnsigned(u);
  }

  /** A rendered decimal starts with a digit. */
  lemma DecimalLeadingDigit(n: nat, f: string, rest: string)
    ensures |NatToString(n) + "." + f + rest| > 0 && IsDigit((NatToString(n) + "." + f + rest)[0])
  {
    var d := NatToString(n);
    assert (d + "." + f + rest)[0] == d[0];
  }

  /** `parseFloat` reads back a rendered decimal `n.f`, whatever non-numeric
      text follows it (`parseFloat("1.5 M")` is 1.5 before the unit is
      applied). */
  lemma ParseFloatDecimal(n: nat, f: string, rest: string)
    requires |f| > 0 && AllDigits(f)
    requires |rest| == 0 || !ContinuesNumber(rest[0])
    ensures ParseFloat(NatToString(n) + "." + f + rest) ==
              Some(n as real + DigitsValue(f) as real / Pow10(|f|) as real)
  {
    ParseUnsignedDecimal(n, f, rest);
    MagnitudeWithoutExponent(n, DigitsValue(f), |f|);
    DecimalLeadingDigit(n, f, rest);
    ParseFloatOf(NatToString(n) + "." + f + rest, n as real + DigitsValue(f) as real / Pow10(|f|) as real);
  }

  /** An unsigned literal has a value exactly when it starts with a digit, or
      with `.` and a digit. */
  lemma ParseUnsignedDefined(u: string)
    ensures ParseUnsigned(u).Some? <==> |u| > 0 && (IsDigit(u[0]) || (u[0] == '.' && |u| > 1 && IsDigit(u[1])))
  {
    if |u| > 0 && u[0] == '.' {
      assert DigitRun(u) == 0;
      assert u[1..] == u[0 + 1..];
    }
  }

  /** `parseFloat` gives a number exactly when, after the leading white
      space and an optional sign, a digit follows, or a `.` and a digit. */
  lemma ParseFloatDefined(s: string)
    ensures var t := TrimStart(s);
            var u := if |t| > 0 && (t[0] == '-' || t[0] == '+') then t[1..] else t;
            ParseFloat(s).Some? <==> |u| > 0 && (IsDigit(u[0]) || (u[0] == '.' && |u| > 1 && IsDigit(u[1])))
  {
    var t := TrimStart(s);
    ParseUnsignedDefined(if |t| > 0 && (t[0] == '-' || t[0] == '+') then t[1..] else t);
  }

  lemma TrimStartUnspaced(t: string)
    requires |t| > 0 && !IsSpace(t[0])
    ensures TrimStart(t) == t
  {
  }

  /** A sign in front of a literal: `-` negates its value, `+` keeps it. */
  lemma ParseFloatSigned(t: string, v: real)
    requires |t| > 0 && (t[0] == '-' || t[0] == '+') && ParseUnsigned(t[1..]) == Some(v)
    ensures ParseFloat(t) == Some(if t[0] == '-' then -v else v)
  {
    TrimStartUnspaced(t);
  }

  /** What starts the exponent part of a literal: `e` or `E`, then an
      optional sign. */
  predicate ExponentHead(h: string) {
    && 1 <= |h| <= 2
    && (h[0] == 'e' || h[0] == 'E')
    && (|h| == 2 ==> h[1] == '+' || h[1] == '-')
  }

  /** The value of the exponent `h` followed by the digits of `e`. */
  function ExponentValue(h: string, e: nat): int
    requires ExponentHead(h)
  {
    if |h| == 2 && h[1] == '-' then -(e as int) else e as int
  }

  /** `ExponentPrefix` reads an exponent part back, whatever non-digit text
      follows it. */
  lemma ExponentOf(h: string, e: nat, rest: string)
    requires ExponentHead(h)
    requires |rest| == 0 || !IsDigit(rest[0])
    ensures ExponentPrefix(h + NatToString(e) + rest) == ExponentValue(h, e)
  {
    DigitRunPrefix(NatToString(e), rest);
    if |h| == 1 {
      UnsignedExponentOf(h, NatToString(e), rest);
    } else {
      SignedExponentOf(h, NatToString(e), rest);
    }
  }

  lemma UnsignedExponentOf(h: string, digits: string, rest: string)
    requires |h| == 1 && (h[0] == 'e' || h[0] == 'E')
    requires |digits| > 0 && AllDigits(digits) && DigitRun(digits + rest) == |digits|
    ensures ExponentPrefix(h + digits + rest) == DigitsValue(digits)
  {
    var x := h + digits + rest;
    assert x[0] == h[0] && x[1] == digits[0];
    assert x[1..] == digits + rest;
    assert (digits + rest)[..|digits|] == digits;
  }

  lemma SignedExponentOf(h: string, digits: string, rest: string)
    requires |h| == 2 && (h[0] == 'e' || h[0] == 'E') && (h[1] == '+' || h[1] == '-')
    requires |digits| > 0 && AllDigits(digits) && DigitRun(digits + rest) == |digits|
    ensures ExponentPrefix(h + digits + rest) == if h[1] == '-' then -(DigitsValue(digits) as int) else DigitsValue(digits) as int
  {
    var x := h + digits + rest;
    assert x[0] == h[0] && x[1] == h[1];
    assert x[2..] == digits + rest;
    assert (digits + rest)[..|digits|] == digits;
  }

  /** Integer digits followed by an exponent part worth `exponent`: their
      value times ten to that power. */
  lemma ParseFloatExponentPart(n: nat, tail: string, exponent: int)
    requires |tail| > 0 && (tail[0] == 'e' || tail[0] == 'E') && ExponentPrefix(tail) == exponent
    ensures ParseFloat(NatToString(n) + tail) == Some(n as real * Scale(exponent))
  {
    var d := NatToString(n);
    var u := d + tail;
    DigitRunPrefix(d, tail);
    assert u[0] == d[0];
    assert u[|d|] == tail[0];
    assert u[..|d|] == d && u[|d|..] == tail;
    MagnitudeOfWhole(n, exponent);
    ParseFloatOf(u, n as real * Scale(exponent));
  }

  lemma MagnitudeOfWhole(n: nat, exponent: int)
    ensures Magnitude(n, 0, 0, exponent) == n as real * Scale(exponent)
  {
    assert Pow10(0) == 1;
  }

  /** validator.js `isInt` with its default options: an optional sign followed
      by one or more decimal digits (leading zeros allowed), nothing else. */
  predicate IsIntString(s: string) {
    var u := if |s| > 0 && (s[0] == '-' || s[0] == '+') then s[1..] else s;
    |u| > 0 && AllDigits(u)
  }

  /** The numeric value validator.js compares against `min`/`max`. */
  function IntStringValue(s: string): int
    requires IsIntString(s)
  {
    if s[0] == '-' then -(DigitsValue(s[1..]) as int)
    else if s[0] == '+' then DigitsValue(s[1..]) as int
    else DigitsValue(s) as int
  }

  /** `parseInt(s)` with radix 10: skip white space, an optional sign, then
      the longest run of digits; `None` (NaN) when there are no digits. */
  function ParseInt(s: string): (r: Option<int>)
    ensures |TrimStart(s)| == 0 ==> r.None?
    ensures var t := TrimStart(s);
            var u := if |t| > 0 && (t[0] == '-' || t[0] == '+') then t[1..] else t;
            r.Some? <==> |u| > 0 && IsDigit(u[0])
  {
    var t := TrimStart(s);
    var u := if |t| > 0 && (t[0] == '-' || t[0] == '+') then t[1..] else t;
    var k := DigitRun(u);
    if k == 0 then None
    else if t[0] == '-' then Some(-(DigitsValue(u[..k]) as int))
    else Some(DigitsValue(u[..k]) as int)
  }

  /** On every string `isInt` accepts, `parseInt` returns the value `isInt` checked. */
  lemma ParseIntAgreesWithIsInt(s: string)
    requires IsIntString(s)
    ensures ParseInt(s) == Some(IntStringValue(s))
  {
    assert !IsSpace(s[0]);
    assert TrimStart(s) == s;
    var u := if s[0] == '-' || s[0] == '+' then s[1..] else s;
    DigitRunAll(u);
    assert u[..|u|] == u;
  }
}

=== FILE: listing.dfy ===
/** What `crawlPage` makes of one page of the fundraising listing: every
    table row after the header becomes one record for the project table.
    A page is seen as the DOM gives it to the in-page script: the cells of
    each row with their text and the first anchor in the cell. */
module Listing {
  import opened Wrappers
  import opened Text
  import opened AmountParser
  import opened DateParser
  import opened ProjectStore

  /** The first `<a>` of a cell: its text and its `href` attribute, if any. */
  datatype Anchor = Anchor(text: string, href: Option<string>)

  /** A `<td>`: its `textContent` (anchor text included) and first anchor. */
  datatype Cell = Cell(text: string, anchor: Option<Anchor>)

  datatype Row = Row(cells: seq<Cell>)

  /** A loaded page: the "no data" row is present, or the table rows (the
      first of which is the header). */
  datatype PageScrape = EmptyMarker | Table(rows: seq<Row>)

  /** `cells[k]?.textContent?.trim()`: missing cells give `undefined`. */
  function CellText(cells: seq<Cell>, k: nat): (r: Option<string>)
    ensures r.Some? <==> k < |cells|
    ensures r.Some? ==> Tight(r.value)
  {
    if k < |cells| then Some(Trim(cells[k].text)) else None
  }

  /** The name as the replacement pattern sees it: an absent name is
      converted to the string "undefined". */
  function PatternOf(name: Option<string>): string {
    if name.Some? then name.value else "undefined"
  }

  /** One row mapped to a record: name and link from the first cell's anchor,
      the description as the first cell's text with the name cut out once,
      round, amount, valuation and date from cells 1 to 4, the two figures
      and the date parsed, and the project marked as initial. */
  function MapRow(row: Row, currentYear: int, dateParse: string -> Option<int>): (r: ListingRecord)
    ensures r.isInitial
    ensures r.projectName.Some? <==> |row.cells| > 0 && row.cells[0].anchor.Some?
    ensures r.projectLink.Some? <==> |row.cells| > 0 && row.cells[0].anchor.Some? && row.cells[0].anchor.value.href.Some?
    ensures r.description.Some? <==> |row.cells| > 0
    ensures r.round == CellText(row.cells, 1) && r.amount == CellText(row.cells, 2)
    ensures r.valuation == CellText(row.cells, 3) && r.date == CellText(row.cells, 4)
    ensures r.formattedAmount == ParseAmount(r.amount) && r.formattedValuation == ParseAmount(r.valuation)
    ensures r.fundedAt == ParseDate(r.date, currentYear, dateParse)
  {
    var cells := row.cells;
    var anchor := if |cells| > 0 then cells[0].anchor else None;
    var name := if anchor.Some? then Some(Trim(anchor.value.text)) else None;
    var link := if anchor.Some? then anchor.value.href else None;
    var description :=
      if |cells| > 0 then Some(Trim(ReplaceFirst(Trim(cells[0].text), PatternOf(name), ""))) else None;
    var amount := CellText(cells, 2);
    var valuation := CellText(cells, 3);
    var date := CellText(cells, 4);
    ListingRecord(name, link, description, CellText(cells, 1), amount, ParseAmount(amount),
                  valuation, ParseAmount(valuation), date, ParseDate(date, currentYear, dateParse), true)
  }

  /** `crawlPage` after a successful load: no records for the "no data"
      page, otherwise one record per row after the header, in order. */
  function MapPage(page: PageScrape, currentYear: int, dateParse: string -> Option<int>): (r: seq<ListingRecord>)
    ensures page.EmptyMarker? ==> r == []
    ensures page.Table? ==> |r| == if |page.rows| == 0 then 0 else |page.rows| - 1
    ensures page.Table? ==>
              forall i :: 0 <= i < |r| ==> r[i] == MapRow(page.rows[i + 1], currentYear, dateParse)
  {
    match page
    case EmptyMarker => []
    case Table(rows) =>
      if |rows| == 0 then []
      else seq(|rows| - 1, i requires 0 <= i < |rows| - 1 => MapRow(rows[i + 1], currentYear, dateParse))
  }

  /** A row can be written to the table exactly when its first cell has an
      anchor with an `href`; otherwise the NOT NULL name or link is missing. */
  lemma InsertableRow(row: Row, currentYear: int, dateParse: string -> Option<int>)
    ensures Insertable(MapRow(row, currentYear, dateParse)) <==>
              |row.cells| > 0 && row.cells[0].anchor.Some? && row.cells[0].anchor.value.href.Some?
  {
  }

  /** A page's batch is written exactly when every row after the header has
      a linked anchor in its first cell; one bad row fails the whole page. */
  lemma PageBatchWritten(db: Db, page: PageScrape, currentYear: int, dateParse: string -> Option<int>)
    requires Valid(db) && page.Table?
    ensures UpsertBatch(db, MapPage(page, currentYear, dateParse)).Success? <==>
              forall i :: 1 <= i < |page.rows| ==>
                var cells := page.rows[i].cells;
                |cells| > 0 && cells[0].anchor.Some? && cells[0].anchor.value.href.Some?
  {
    var recs := MapPage(page, currentYear, dateParse);
    forall i | 1 <= i < |page.rows|
      ensures Insertable(recs[i - 1]) <==>
                var cells := page.rows[i].cells;
                |cells| > 0 && cells[0].anchor.Some? && cells[0].anchor.value.href.Some?
    {
      InsertableRow(page.rows[i], currentYear, dateParse);
    }
    if forall i :: 0 <= i < |recs| ==> Insertable(recs[i]) {
      forall i | 1 <= i < |page.rows|
        ensures var cells := page.rows[i].cells;
                |cells| > 0 && cells[0].anchor.Some? && cells[0].anchor.value.href.Some?
      {
        assert Insertable(recs[i - 1]);
      }
    }
  }

  // ------------------------------------------------------ rows as displayed

  /** A fundraising round as the listing displays it. */
  datatype Entry = Entry(
    name: string,
    link: string,
    description: string,
    round: string,
    amount: Figure, amountShown: Display,
    valuation: Figure, valuationShown: Display,
    date: Shown)

  predicate Displayable(e: Entry) {
    && |e.name| > 0 && Tight(e.name)
    && Tight(e.description) && Tight(e.round)
    && WellFormed(e.date)
  }

  /** The row the site renders for an entry; `ws` is the layout white space
      around and between the texts. */
  function RenderRow(e: Entry, ws: string): Row {
    Row([
      Cell(ws + e.name + ws + e.description + ws, Some(Anchor(e.name, Some(e.link)))),
      Cell(Padded(ws, e.round), None),
      Cell(Padded(ws, Render(e.amount, e.amountShown)), None),
      Cell(Padded(ws, Render(e.valuation, e.valuationShown)), None),
      Cell(Padded(ws, Show(e.date)), None)])
  }

  function Padded(ws: string, s: string): string {
    ws + s + ws
  }

  /** The record the crawler should make of an entry's row. */
  function Recovered(e: Entry, currentYear: int, dateParse: string -> Option<int>): ListingRecord {
    ListingRecord(
      Some(e.name), Some(e.link), Some(e.description), Some(e.round),
      Some(Render(e.amount, e.amountShown)), Some(DisplayedValue(e.amount, e.amountShown)),
      Some(Render(e.valuation, e.valuationShown)), Some(DisplayedValue(e.valuation, e.valuationShown)),
      Some(Show(e.date)), dateParse(Expected(e.date, currentYear)), true)
  }

  /** Mapping a displayed row gives back the entry: name, link and
      description separated, both figures scaled by their unit, the date
      normalised before it is handed to `Date.parse`. */
  lemma MapRenderedRow(e: Entry, ws: string, currentYear: int, dateParse: string -> Option<int>)
    requires Displayable(e) && AllSpaces(ws)
    ensures MapRow(RenderRow(e, ws), currentYear, dateParse) == Recovered(e, currentYear, dateParse)
  {
    var cells := RenderRow(e, ws).cells;
    var r := MapRow(RenderRow(e, ws), currentYear, dateParse);
    var want := Recovered(e, currentYear, dateParse);
    assert |cells| == 5;
    assert r.round == want.round by {
      PaddedCell(cells, 1, ws, e.round);
    }
    assert r.amount == want.amount && r.formattedAmount == want.formattedAmount by {
      RenderTight(e.amount, e.amountShown);
      PaddedCell(cells, 2, ws, Render(e.amount, e.amountShown));
      ParseRendered(e.amount, e.amountShown);
    }
    assert r.valuation == want.valuation && r.formattedValuation == want.formattedValuation by {
      RenderTight(e.valuation, e.valuationShown);
      PaddedCell(cells, 3, ws, Render(e.valuation, e.valuationShown));
      ParseRendered(e.valuation, e.valuationShown);
    }
    assert r.date == want.date && r.fundedAt == want.fundedAt by {
      ShowTight(e.date);
      PaddedCell(cells, 4, ws, Show(e.date));
      NormaliseShown(e.date, currentYear);
    }
    assert r.projectName == want.projectName && r.projectLink == want.projectLink by {
      TrimTight(e.name);
    }
    assert r.description == want.description by {
      TrimTight(e.name);
      DescriptionRecovered(e.name, e.description, ws);
    }
  }

  lemma PaddedCell(cells: seq<Cell>, k: nat, ws: string, s: string)
    requires k < |cells| && cells[k].text == Padded(ws, s)
    requires AllSpaces(ws) && Tight(s)
    ensures CellText(cells, k) == Some(s)
  {
    TrimAround(ws, s, ws);
  }

  /** Cutting the anchor text out of the first cell leaves the description. */
  lemma DescriptionRecovered(name: string, description: string, ws: string)
    requires |name| > 0 && Tight(name) && Tight(description) && AllSpaces(ws)
    ensures Trim(ReplaceFirst(Trim(ws + name + ws + description + ws), name, "")) == description
  {
    if |description| == 0 {
      NoDescription(name, description, ws);
    } else {
      SomeDescription(name, description, ws);
    }
  }

  lemma NoDescription(name: string, description: string, ws: string)
    requires |name| > 0 && Tight(name) && description == "" && AllSpaces(ws)
    ensures Trim(ReplaceFirst(Trim(ws + name + ws + description + ws), name, "")) == description
  {
    assert Trim(ws + name + ws + description + ws) == name by {
      assert ws + name + ws + description + ws == ws + name + (ws + ws);
      assert AllSpaces(ws + ws);
      TrimPadded(ws, name, ws + ws);
    }
    CutWhole(name);
    assert Trim("") == "";
  }

  lemma SomeDescription(name: string, description: string, ws: string)
    requires |name| > 0 && Tight(name) && Tight(description) && |description| > 0 && AllSpaces(ws)
    ensures Trim(ReplaceFirst(Trim(ws + name + ws + description + ws), name, "")) == description
  {
    var rest := ws + description;
    var core := name + rest;
    var trimmed := Trim(ws + name + ws + description + ws);
    assert trimmed == core by {
      Regroup(ws, name, ws, description, ws);
      assert Tight(core) by { EndsOfConcat(name, rest); EndsOfConcat(ws, description); }
      TrimPadded(ws, core, ws);
    }
    CutHead(name, rest);
    assert Trim(rest) == description by {
      AppendEmpty(rest);
      TrimAround(ws, description, "");
    }
    assert ReplaceFirst(trimmed, name, "") == rest;
  }

  lemma Regroup(a: string, b: string, c: string, d: string, e: string)
    ensures a + b + c + d + e == a + (b + (c + d)) + e
  {
  }

  lemma EndsOfConcat(a: string, b: string)
    ensures |a| > 0 ==> (a + b)[0] == a[0]
    ensures |b| > 0 ==> (a + b)[|a + b| - 1] == b[|b| - 1]
  {
  }

  lemma AppendEmpty(a: string)
    ensures a + "" == a
  {
  }

  lemma CutWhole(name: string)
    requires |name| > 0
    ensures ReplaceFirst(name, name, "") == ""
  {
    assert OccursAt(name, name, 0) by { assert name[..|name|] == name; }
    ReplaceFirstAt(name, name, "", 0);
  }

  lemma CutHead(name: string, rest: string)
    requires |name| > 0
    ensures ReplaceFirst(name + rest, name, "") == rest
  {
    var s := name + rest;
    assert OccursAt(s, name, 0) by { assert s[..|name|] == name; }
    ReplaceFirstAt(s, name, "", 0);
    assert s[|name|..] == rest;
  }

  lemma RenderTight(x: Figure, d: Display)
    ensures Tight(Render(x, d))
  {
    var s := Render(x, d);
    var digits := FigureText(x);
    FigureNumeral(x);
    if d == ShowPlain {
      assert s[|s| - 1] == digits[|digits| - 1];
    } else if d.ShowMillion? {
      assert LowerChar(d.word[6]) == 'n';
      assert s[|s| - 1] == if |d.after| == 0 then d.word[6] else d.after[|d.after| - 1];
    }
  }

  lemma ShowTight(d: Shown)
    requires WellFormed(d)
    ensures Tight(Show(d))
  {
    var s := Show(d);
    assert s[0] == d.month[0];
    match d {
      case FullDate(_, _, y) => assert s[|s| - 1] == y[3];
      case MonthCommaYear(_, y) => assert s[|s| - 1] == y[3];
      case MonthYear(_, y) => assert s[|s| - 1] == y[3];
      case MonthDay(_, dd) => assert s[|s| - 1] == dd[1];
    }
  }
}

=== FILE: rounds.dfy ===
/** `processRounds`: the rounds table of a project's detail page becomes
    investment edges. Every (round, investor) pair finds or creates the
    investor's project by link and appends one edge into the funded project;
    edges are never merged. */
module Rounds {
  import opened Wrappers
  import opened Text
  import opened AmountParser
  import opened DateParser
  import opened ProjectStore

  /** An `<a>` of the investors cell: its text and its resolved `href`. */
  datatype InvestorAnchor = InvestorAnchor(text: string, href: string)

  /** A `<td>` of the rounds table: its `textContent` and every anchor in it. */
  datatype RoundsCell = RoundsCell(text: string, anchors: seq<InvestorAnchor>)

  datatype RoundsRow = RoundsRow(cells: seq<RoundsCell>)

  datatype Investor = Investor(name: string, link: string, lead: bool)

  /** One round as the in-page script returns it. */
  datatype Round = Round(
    round: Option<string>,
    amount: Option<string>,
    formattedAmount: Option<real>,
    valuation: Option<string>,
    formattedValuation: Option<real>,
    date: Option<string>,
    timestamp: Option<int>,
    investors: seq<Investor>)

  /** `cells[k]?.textContent`, untrimmed. */
  function RawText(cells: seq<RoundsCell>, k: nat): (r: Option<string>)
    ensures r.Some? <==> k < |cells|
  {
    if k < |cells| then Some(cells[k].text) else None
  }

  /** An investor anchor: the trimmed text as name, the `href` as link, and
      lead when the text holds a `*`. */
  function ToInvestor(a: InvestorAnchor): Investor {
    Investor(Trim(a.text), a.href, Contains(a.text, "*"))
  }

  /** An investor is marked lead exactly when a `*` appears in its text; the
      name keeps the star, only white space is trimmed. */
  lemma LeadIffStar(a: InvestorAnchor)
    ensures ToInvestor(a).lead <==> exists i :: 0 <= i < |a.text| && a.text[i] == '*'
    ensures ToInvestor(a).link == a.href && Tight(ToInvestor(a).name)
    ensures ToInvestor(a).lead ==> Contains(a.text, "*")
  {
    var s := a.text;
    if exists i :: 0 <= i < |s| && s[i] == '*' {
      var i :| 0 <= i < |s| && s[i] == '*';
      assert OccursAt(s, "*", i);
    } else {
      NotContains(s, "*");
    }
  }

  /** One row of the table; `None` when it has fewer than five cells, where
      the investors cell is read without a null guard and the script throws.
      Text fields are trimmed; the two figures and the date are parsed from
      the untrimmed text. */
  function ExtractRound(row: RoundsRow, currentYear: int, dateParse: string -> Option<int>): (r: Option<Round>)
    ensures r.Some? <==> |row.cells| >= 5
    ensures r.Some? ==>
              && |r.value.investors| == |row.cells[4].anchors|
              && forall k :: 0 <= k < |row.cells[4].anchors| ==>
                   r.value.investors[k] == ToInvestor(row.cells[4].anchors[k])
  {
    var cells := row.cells;
    if |cells| < 5 then None
    else
      var anchors := cells[4].anchors;
      Some(Round(
        Some(Trim(cells[0].text)),
        Some(Trim(cells[1].text)), ParseAmount(RawText(cells, 1)),
        Some(Trim(cells[2].text)), ParseAmount(RawText(cells, 2)),
        Some(Trim(cells[3].text)), ParseDate(RawText(cells, 3), currentYear, dateParse),
        seq(|anchors|, k requires 0 <= k < |anchors| => ToInvestor(anchors[k]))))
  }

  /** The whole table (header row skipped); one short row makes the script
      throw, and then no round at all is returned. */
  function ExtractRounds(rows: seq<RoundsRow>, currentYear: int, dateParse: string -> Option<int>): (r: Option<seq<Round>>)
    ensures r.Some? <==> forall i :: 1 <= i < |rows| ==> |rows[i].cells| >= 5
    ensures r.Some? ==> |r.value| == if |rows| == 0 then 0 else |rows| - 1
    ensures r.Some? ==> forall i :: 0 <= i < |r.value| ==>
              ExtractRound(rows[i + 1], currentYear, dateParse) == Some(r.value[i])
  {
    MapAllAfterFirst(rows, row => ExtractRound(row, currentYear, dateParse))
  }

  /** A date cell with white space around it is not recognised, because the
      timestamp is parsed from the untrimmed text; the stored `date` column
      is trimmed. */
  lemma PaddedRoundDateIsNull(row: RoundsRow, currentYear: int, dateParse: string -> Option<int>)
    requires |row.cells| >= 5 && |row.cells[3].text| > 0 && IsSpace(row.cells[3].text[0])
    ensures ExtractRound(row, currentYear, dateParse).value.timestamp.None?
  {
    var s := row.cells[3].text;
    assert !IsMonDayYear(s) && !IsMonOptCommaYear(s) && !IsMonDay(s) by {
      assert !IsLetter(s[0]);
    }
  }

  // ------------------------------------------------------------- the graph

  /** The (round, investor) pairs in the order the two loops visit them. */
  function Pairs(rounds: seq<Round>): (r: seq<(Round, Investor)>)
    ensures |rounds| == 0 ==> r == []
  {
    if |rounds| == 0 then []
    else
      var last := rounds[|rounds| - 1];
      Pairs(rounds[..|rounds| - 1]) + seq(|last.investors|, k requires 0 <= k < |last.investors| => (last, last.investors[k]))
  }

  /** Every pair comes from a round of the table and one of its investors,
      and every investor of every round is visited. */
  lemma {:induction false} PairsCover(rounds: seq<Round>)
    ensures forall p :: p in Pairs(rounds) ==> p.0 in rounds && p.1 in p.0.investors
    ensures forall i, k :: 0 <= i < |rounds| && 0 <= k < |rounds[i].investors| ==>
              (rounds[i], rounds[i].investors[k]) in Pairs(rounds)
  {
    if |rounds| > 0 {
      var n := |rounds| - 1;
      PairsCover(rounds[..n]);
      var last := rounds[n];
      var tail := seq(|last.investors|, k requires 0 <= k < |last.investors| => (last, last.investors[k]));
      assert Pairs(rounds) == Pairs(rounds[..n]) + tail;
      forall i, k | 0 <= i < |rounds| && 0 <= k < |rounds[i].investors|
        ensures (rounds[i], rounds[i].investors[k]) in Pairs(rounds)
      {
        if i < n {
          assert rounds[..n][i] == rounds[i];
        } else {
          assert tail[k] == (rounds[i], rounds[i].investors[k]);
        }
      }
    }
  }

  /** The edge `InvestmentRelationships.create` writes for one pair. */
  function EdgeFor(round: Round, inv: Investor, investorId: nat, fundedId: nat): Investment {
    Investment(investorId, fundedId, round.round, round.amount, round.formattedAmount,
               round.valuation, round.formattedValuation, round.timestamp, inv.lead)
  }

  /** The links of the investors among the pairs. */
  function InvestorLinks(pairs: seq<(Round, Investor)>): (r: set<string>)
    ensures forall k :: 0 <= k < |pairs| ==> pairs[k].1.link in r
  {
    if |pairs| == 0 then {}
    else
      var n := |pairs| - 1;
      assert forall k :: 0 <= k < n ==> pairs[..n][k] == pairs[k];
      InvestorLinks(pairs[..n]) + {pairs[n].1.link}
  }

  /** One pair: find or create the investor by link, then append its edge. */
  function Step(db: Db, fundedId: nat, pair: (Round, Investor)): (r: Db)
    requires Valid(db) && HasId(db, fundedId)
    ensures Valid(r) && HasId(r, fundedId)
  {
    var (found, investorId) := FindOrCreateProject(db, pair.1.name, pair.1.link);
    KeepsIdsHasId(db, found);
    var r := AddInvestment(found, EdgeFor(pair.0, pair.1, investorId, fundedId));
    assert HasId(r, fundedId) by { assert r.projects == found.projects; }
    r
  }

  /** What one step changes: the investor's row is found or created, one
      edge from it into the funded project is appended, and nothing else
      moves. */
  lemma StepFacts(db: Db, fundedId: nat, pair: (Round, Investor))
    requires Valid(db) && HasId(db, fundedId)
    ensures var r := Step(db, fundedId, pair);
            && KeepsIds(db, r)
            && |r.investments| == |db.investments| + 1
            && r.investments[..|db.investments|] == db.investments
            && (forall l :: l in r.projects <==> l in db.projects || l == pair.1.link)
            && (forall l :: l in db.projects ==> r.projects[l] == db.projects[l])
            && (pair.1.link !in db.projects ==>
                  r.projects[pair.1.link] == NewInvestor(r.projects[pair.1.link].id, pair.1.name, pair.1.link))
            && r.investments[|db.investments|] == EdgeFor(pair.0, pair.1, r.projects[pair.1.link].id, fundedId)
  {
  }

  lemma PrefixTrans<T>(a: seq<T>, b: seq<T>, c: seq<T>)
    requires |a| <= |b| <= |c| && b[..|a|] == a && c[..|b|] == b
    ensures c[..|a|] == a
  {
    assert c[..|a|] == c[..|b|][..|a|];
  }

  lemma PrefixAt<T>(a: seq<T>, b: seq<T>, j: nat)
    requires |a| <= |b| && b[..|a|] == a && j < |a|
    ensures b[j] == a[j]
  {
    assert b[..|a|][j] == b[j];
  }

  /** The pairs processed in order against the project with id `fundedId`. */
  function ProcessAll(db: Db, fundedId: nat, pairs: seq<(Round, Investor)>): (r: Db)
    requires Valid(db) && HasId(db, fundedId)
    ensures Valid(r) && HasId(r, fundedId)
    decreases |pairs|
  {
    if |pairs| == 0 then db
    else Step(ProcessAll(db, fundedId, pairs[..|pairs| - 1]), fundedId, pairs[|pairs| - 1])
  }

  /** Processing one more pair is one more step. */
  lemma ProcessAllSnoc(db: Db, fundedId: nat, pairs: seq<(Round, Investor)>, i: nat)
    requires Valid(db) && HasId(db, fundedId) && i < |pairs|
    ensures ProcessAll(db, fundedId, pairs[..i + 1]) == Step(ProcessAll(db, fundedId, pairs[..i]), fundedId, pairs[i])
  {
    var q := pairs[..i + 1];
    assert |q| - 1 == i && q[..i] == pairs[..i] && q[i] == pairs[i];
  }

  /** Every project keeps its id; the edges written before stay in front and
      one edge is added per pair. */
  lemma {:induction false} ProcessAllKeepsEdges(db: Db, fundedId: nat, pairs: seq<(Round, Investor)>)
    requires Valid(db) && HasId(db, fundedId)
    ensures var r := ProcessAll(db, fundedId, pairs);
            && KeepsIds(db, r)
            && |r.investments| == |db.investments| + |pairs|
            && r.investments[..|db.investments|] == db.investments
    decreases |pairs|
  {
    if |pairs| > 0 {
      var n := |pairs| - 1;
      var mid := ProcessAll(db, fundedId, pairs[..n]);
      var r := Step(mid, fundedId, pairs[n]);
      ProcessAllKeepsEdges(db, fundedId, pairs[..n]);
      StepFacts(mid, fundedId, pairs[n]);
      KeepsIdsTrans(db, mid, r);
      PrefixTrans(db.investments, mid.investments, r.investments);
    }
  }

  /** The projects afterwards are those before and the investors met. */
  lemma {:induction false} ProcessAllKeys(db: Db, fundedId: nat, pairs: seq<(Round, Investor)>, l: string)
    requires Valid(db) && HasId(db, fundedId)
    ensures l in ProcessAll(db, fundedId, pairs).projects <==> l in db.projects || l in InvestorLinks(pairs)
    decreases |pairs|
  {
    if |pairs| > 0 {
      var n := |pairs| - 1;
      ProcessAllKeys(db, fundedId, pairs[..n], l);
      StepFacts(ProcessAll(db, fundedId, pairs[..n]), fundedId, pairs[n]);
    }
  }

  /** A project that existed before is left as it was. */
  lemma {:induction false} ProcessAllKeepsOld(db: Db, fundedId: nat, pairs: seq<(Round, Investor)>, l: string)
    requires Valid(db) && HasId(db, fundedId) && l in db.projects
    ensures var r := ProcessAll(db, fundedId, pairs);
            l in r.projects && r.projects[l] == db.projects[l]
    decreases |pairs|
  {
    if |pairs| > 0 {
      var n := |pairs| - 1;
      ProcessAllKeepsOld(db, fundedId, pairs[..n], l);
      StepFacts(ProcessAll(db, fundedId, pairs[..n]), fundedId, pairs[n]);
    }
  }

  /** Every project created is an investor row: not initial, no details. */
  lemma {:induction false} ProcessAllNewOnes(db: Db, fundedId: nat, pairs: seq<(Round, Investor)>, l: string)
    requires Valid(db) && HasId(db, fundedId)
    requires l in ProcessAll(db, fundedId, pairs).projects && l !in db.projects
    ensures !ProcessAll(db, fundedId, pairs).projects[l].isInitial
    ensures ProcessAll(db, fundedId, pairs).projects[l].detailFetchedAt.None?
    decreases |pairs|
  {
    var n := |pairs| - 1;
    var mid := ProcessAll(db, fundedId, pairs[..n]);
    StepFacts(mid, fundedId, pairs[n]);
    if l in mid.projects {
      ProcessAllNewOnes(db, fundedId, pairs[..n], l);
    }
  }

  /** Edge `k` of the batch is the `k`-th pair's edge, into the funded
      project and from the investor's row. */
  lemma {:induction false} ProcessAllEdge(db: Db, fundedId: nat, pairs: seq<(Round, Investor)>, k: nat)
    requires Valid(db) && HasId(db, fundedId) && k < |pairs|
    ensures var r := ProcessAll(db, fundedId, pairs);
            && pairs[k].1.link in r.projects
            && |db.investments| + k < |r.investments|
            && r.investments[|db.investments| + k] == EdgeFor(pairs[k].0, pairs[k].1, r.projects[pairs[k].1.link].id, fundedId)
    decreases |pairs|
  {
    var n := |pairs| - 1;
    var front := pairs[..n];
    var mid := ProcessAll(db, fundedId, front);
    var r := Step(mid, fundedId, pairs[n]);
    assert ProcessAll(db, fundedId, pairs) == r;
    ProcessAllKeepsEdges(db, fundedId, front);
    StepFacts(mid, fundedId, pairs[n]);
    var link := pairs[k].1.link;
    if k < n {
      assert front[k] == pairs[k];
      ProcessAllEdge(db, fundedId, front, k);
      assert link in mid.projects;
      PrefixAt(mid.investments, r.investments, |db.investments| + k);
      assert KeepsIds(mid, r);
      assert r.projects[link].id == mid.projects[link].id;
    } else {
      assert |db.investments| + k == |mid.investments|;
      assert link in r.projects;
      assert r.investments[|mid.investments|] == EdgeFor(pairs[n].0, pairs[n].1, r.projects[pairs[n].1.link].id, fundedId);
    }
  }

  /** An investor met first at pair `k` and not in the table before is
      created with that pair's name; later pairs with its link reuse it. */
  lemma {:induction false} ProcessAllNames(db: Db, fundedId: nat, pairs: seq<(Round, Investor)>, k: nat)
    requires Valid(db) && HasId(db, fundedId) && k < |pairs|
    requires FirstWithLink(pairs, k) && pairs[k].1.link !in db.projects
    ensures var r := ProcessAll(db, fundedId, pairs);
            pairs[k].1.link in r.projects && r.projects[pairs[k].1.link].projectName == pairs[k].1.name
    decreases |pairs|
  {
    var n := |pairs| - 1;
    var front := pairs[..n];
    var link := pairs[k].1.link;
    var mid := ProcessAll(db, fundedId, front);
    StepFacts(mid, fundedId, pairs[n]);
    if k == n {
      assert link !in mid.projects by {
        forall j | 0 <= j < n ensures front[j].1.link != link {
          assert front[j] == pairs[j];
        }
        InvestorLinksAvoid(front, link);
        ProcessAllKeys(db, fundedId, front, link);
      }
    } else {
      assert front[k] == pairs[k];
      assert FirstWithLink(front, k) by {
        forall j | 0 <= j < k ensures front[j].1.link != front[k].1.link {
          assert front[j] == pairs[j];
        }
      }
      ProcessAllNames(db, fundedId, front, k);
    }
  }

  /** The two nested loops of `processRounds`, flattened into the pairs:
      one step per pair, in order. */
  method RunPairs(db: Db, fundedId: nat, pairs: seq<(Round, Investor)>) returns (r: Db)
    requires Valid(db) && HasId(db, fundedId)
    ensures r == ProcessAll(db, fundedId, pairs)
  {
    r := db;
    var i := 0;
    while i < |pairs|
      invariant i <= |pairs| && r == ProcessAll(db, fundedId, pairs[..i])
    {
      ProcessAllSnoc(db, fundedId, pairs, i);
      r := Step(r, fundedId, pairs[i]);
      i := i + 1;
    }
    assert pairs[..i] == pairs;
  }

  /** The pairs processed in order against the project with id `fundedId`.
      The edges written before stay and edge `k` of the batch is the `k`-th
      pair's edge; existing projects are untouched; the only new rows are
      the investors met, none of them initial, each named after the first
      pair with its link. */
  method ProcessPairs(db: Db, fundedId: nat, pairs: seq<(Round, Investor)>) returns (r: Db)
    requires Valid(db) && HasId(db, fundedId)
    ensures Valid(r) && KeepsIds(db, r) && HasId(r, fundedId)
    ensures |r.investments| == |db.investments| + |pairs|
    ensures r.investments[..|db.investments|] == db.investments
    ensures forall l :: l in r.projects <==> l in db.projects || l in InvestorLinks(pairs)
    ensures forall l :: l in db.projects ==> r.projects[l] == db.projects[l]
    ensures forall l :: l in r.projects && l !in db.projects ==>
              !r.projects[l].isInitial && r.projects[l].detailFetchedAt.None?
    ensures forall k :: 0 <= k < |pairs| ==>
              && pairs[k].1.link in r.projects
              && r.investments[|db.investments| + k] == EdgeFor(pairs[k].0, pairs[k].1, r.projects[pairs[k].1.link].id, fundedId)
    ensures forall k :: 0 <= k < |pairs| && FirstWithLink(pairs, k) && pairs[k].1.link !in db.projects ==>
              pairs[k].1.link in r.projects && r.projects[pairs[k].1.link].projectName == pairs[k].1.name
  {
    r := RunPairs(db, fundedId, pairs);
    ProcessAllKeepsEdges(db, fundedId, pairs);
    ProcessAllProjects(db, fundedId, pairs);
    ProcessAllEdges(db, fundedId, pairs);
    ProcessAllNamed(db, fundedId, pairs);
  }

  /** The projects afterwards: the old ones unchanged, the new ones the
      investors met, none of them initial. */
  lemma ProcessAllProjects(db: Db, fundedId: nat, pairs: seq<(Round, Investor)>)
    requires Valid(db) && HasId(db, fundedId)
    ensures var r := ProcessAll(db, fundedId, pairs);
            && (forall l :: l in r.projects <==> l in db.projects || l in InvestorLinks(pairs))
            && (forall l :: l in db.projects ==> r.projects[l] == db.projects[l])
            && (forall l :: l in r.projects && l !in db.projects ==>
                  !r.projects[l].isInitial && r.projects[l].detailFetchedAt.None?)
  {
    var r := ProcessAll(db, fundedId, pairs);
    forall l ensures l in r.projects <==> l in db.projects || l in InvestorLinks(pairs) {
      ProcessAllKeys(db, fundedId, pairs, l);
    }
    forall l | l in db.projects ensures r.projects[l] == db.projects[l] {
      ProcessAllKeepsOld(db, fundedId, pairs, l);
    }
    forall l | l in r.projects && l !in db.projects
      ensures !r.projects[l].isInitial && r.projects[l].detailFetchedAt.None?
    {
      ProcessAllNewOnes(db, fundedId, pairs, l);
    }
  }

  /** Edge `k` of the batch, for every `k`. */
  lemma ProcessAllEdges(db: Db, fundedId: nat, pairs: seq<(Round, Investor)>)
    requires Valid(db) && HasId(db, fundedId)
    ensures |ProcessAll(db, fundedId, pairs).investments| == |db.investments| + |pairs|
    ensures var r := ProcessAll(db, fundedId, pairs);
            forall k :: 0 <= k < |pairs| ==>
              && pairs[k].1.link in r.projects
              && r.investments[|db.investments| + k] == EdgeFor(pairs[k].0, pairs[k].1, r.projects[pairs[k].1.link].id, fundedId)
  {
    ProcessAllKeepsEdges(db, fundedId, pairs);
    forall k | 0 <= k < |pairs|
      ensures var r := ProcessAll(db, fundedId, pairs);
              && pairs[k].1.link in r.projects
              && r.investments[|db.investments| + k] == EdgeFor(pairs[k].0, pairs[k].1, r.projects[pairs[k].1.link].id, fundedId)
    {
      ProcessAllEdge(db, fundedId, pairs, k);
    }
  }

  /** The name of every investor created, for every first pair. */
  lemma ProcessAllNamed(db: Db, fundedId: nat, pairs: seq<(Round, Investor)>)
    requires Valid(db) && HasId(db, fundedId)
    ensures var r := ProcessAll(db, fundedId, pairs);
            forall k :: 0 <= k < |pairs| && FirstWithLink(pairs, k) && pairs[k].1.link !in db.projects ==>
              pairs[k].1.link in r.projects && r.projects[pairs[k].1.link].projectName == pairs[k].1.name
  {
    forall k | 0 <= k < |pairs| && FirstWithLink(pairs, k) && pairs[k].1.link !in db.projects
      ensures var r := ProcessAll(db, fundedId, pairs);
              pairs[k].1.link in r.projects && r.projects[pairs[k].1.link].projectName == pairs[k].1.name
    {
      ProcessAllNames(db, fundedId, pairs, k);
    }
  }

  /** Every link of the set belongs to one of the pairs. */
  lemma {:induction false} InvestorLinksWitness(pairs: seq<(Round, Investor)>, l: string)
    requires l in InvestorLinks(pairs)
    ensures exists k :: 0 <= k < |pairs| && pairs[k].1.link == l
    decreases |pairs|
  {
    var n := |pairs| - 1;
    if l != pairs[n].1.link {
      InvestorLinksWitness(pairs[..n], l);
      var k :| 0 <= k < n && pairs[..n][k].1.link == l;
      assert pairs[k] == pairs[..n][k];
    }
  }

  /** No earlier pair has the same investor link as pair `k`. */
  predicate FirstWithLink(pairs: seq<(Round, Investor)>, k: nat)
    requires k < |pairs|
  {
    forall j :: 0 <= j < k ==> pairs[j].1.link != pairs[k].1.link
  }

  lemma {:induction false} InvestorLinksAvoid(pairs: seq<(Round, Investor)>, l: string)
    requires forall k :: 0 <= k < |pairs| ==> pairs[k].1.link != l
    ensures l !in InvestorLinks(pairs)
    decreases |pairs|
  {
    if |pairs| > 0 {
      var n := |pairs| - 1;
      assert forall k :: 0 <= k < n ==> pairs[..n][k] == pairs[k];
      InvestorLinksAvoid(pairs[..n], l);
    }
  }

  /** `processRounds(project)` once the table has been read: `None` (the
      script threw) writes nothing. */
  method ProcessRounds(db: Db, fundedId: nat, rounds: Option<seq<Round>>) returns (r: Db)
    requires Valid(db) && HasId(db, fundedId)
    ensures Valid(r) && KeepsIds(db, r)
    ensures rounds.None? ==> r == db
    ensures rounds.Some? ==> |r.investments| == |db.investments| + |Pairs(rounds.value)|
    ensures rounds.Some? ==>
              forall l :: l in r.projects <==> l in db.projects || l in InvestorLinks(Pairs(rounds.value))
    ensures rounds.Some? ==>
              var pairs := Pairs(rounds.value);
              forall k :: 0 <= k < |pairs| ==>
                && pairs[k].1.link in r.projects
                && r.investments[|db.investments| + k] == EdgeFor(pairs[k].0, pairs[k].1, r.projects[pairs[k].1.link].id, fundedId)
    ensures rounds.Some? ==>
              var pairs := Pairs(rounds.value);
              forall k :: 0 <= k < |pairs| && FirstWithLink(pairs, k) && pairs[k].1.link !in db.projects ==>
                pairs[k].1.link in r.projects && r.projects[pairs[k].1.link].projectName == pairs[k].1.name
    ensures r.investments[..|db.investments|] == db.investments
    ensures forall l :: l in db.projects ==> r.projects[l] == db.projects[l]
    ensures forall l :: l in r.projects && l !in db.projects ==>
              !r.projects[l].isInitial && r.projects[l].detailFetchedAt.None?
  {
    if rounds.None? {
      r := db;
    } else {
      r := ProcessPairs(db, fundedId, Pairs(rounds.value));
    }
  }
}

=== FILE: routes.dfy ===
/** The fundraising HTTP routes, without Express: the listing endpoint's
    query validation, paging arithmetic and sort choice; the three
    start-crawl endpoints and their conflict gate; the global status reset;
    and the status report read from the three state rows. */
module Routes {
  import opened Wrappers
  import opened Text
  import opened JsNumber
  import opened ProjectStore
  import opened CrawlStates
  import Crawler

  // ------------------------------------------------------------ listing

  /** The listing endpoint's query string: each parameter absent or given once. */
  datatype ListQuery = ListQuery(page: Option<string>, limit: Option<string>, sort: Option<string>)

  /** `query(name).optional().isInt({min, max})`: the parameter is absent, or
      an integer string whose value lies within the bounds. */
  predicate IntParamOk(v: Option<string>, min: int, max: Option<int>) {
    v.None? || (IsIntString(v.value) && min <= IntStringValue(v.value)
                && (max.None? || IntStringValue(v.value) <= max.value))
  }

  /** `parseInt(v) || d`: an absent parameter parses to NaN, and NaN and 0
      are both falsy, so either gives the default. */
  function IntOr(v: Option<string>, d: int): int {
    var n := if v.Some? then ParseInt(v.value) else None;
    if n.None? || n.value == 0 then d else n.value
  }

  /** On a parameter that passed validation with a positive minimum,
      `parseInt(v) || d` is the validated value, or the default when absent. */
  lemma IntOrValidated(v: Option<string>, d: int, min: int, max: Option<int>)
    requires IntParamOk(v, min, max) && min >= 1
    ensures IntOr(v, d) == if v.Some? then IntStringValue(v.value) else d
  {
    if v.Some? {
      ParseIntAgreesWithIsInt(v.value);
    }
  }

  lemma ProductOfNats(a: nat, b: nat)
    ensures a * b >= 0
  {
  }

  /** The request rejected with status 400, or the page, the page size and
      the number of rows skipped. */
  datatype Paging = BadRequest | Paging(page: int, limit: int, offset: nat)

  const DefaultPage: int := 1
  const DefaultLimit: int := 30
  const MinLimit: int := 5
  const MaxLimit: int := 50

  predicate ValidQuery(q: ListQuery) {
    IntParamOk(q.page, 1, None) && IntParamOk(q.limit, MinLimit, Some(MaxLimit))
  }

  /** Validation, then `page`, `limit` and `offset = (page - 1) * limit`.
      A valid request gets exactly the numbers its parameters spell, and
      the defaults for those it leaves out; `PaginateIsParseIntOrDefault`
      shows these are the values `parseInt(v) || d` gives. */
  function Paginate(q: ListQuery): (r: Paging)
    ensures r.BadRequest? <==> !ValidQuery(q)
    ensures r.Paging? ==> && r.page == (if q.page.Some? then IntStringValue(q.page.value) else DefaultPage)
                          && r.limit == (if q.limit.Some? then IntStringValue(q.limit.value) else DefaultLimit)
    ensures r.Paging? ==> 1 <= r.page && MinLimit <= r.limit <= MaxLimit && r.offset == (r.page - 1) * r.limit
  {
    if !ValidQuery(q) then BadRequest
    else
      var page := if q.page.Some? then IntStringValue(q.page.value) else DefaultPage;
      var limit := if q.limit.Some? then IntStringValue(q.limit.value) else DefaultLimit;
      ProductOfNats(page - 1, limit);
      var offset: nat := (page - 1) * limit;
      var r := Paging(page, limit, offset);
      assert r.offset == (r.page - 1) * r.limit;
      r
  }

  /** The route computes `parseInt(page) || 1` and `parseInt(limit) || 30`
      after validation: on a valid query these are the page and the limit
      `Paginate` gives. */
  lemma PaginateIsParseIntOrDefault(q: ListQuery)
    requires ValidQuery(q)
    ensures Paginate(q).page == IntOr(q.page, DefaultPage)
    ensures Paginate(q).limit == IntOr(q.limit, DefaultLimit)
  {
    IntOrValidated(q.page, DefaultPage, 1, None);
    IntOrValidated(q.limit, DefaultLimit, MinLimit, Some(MaxLimit));
  }

  /** `Math.ceil(count / limit)`: the fewest pages of `limit` rows that hold
      `count` rows. */
  function TotalPages(count: nat, limit: int): (n: nat)
    requires limit > 0
    ensures count <= n * limit
    ensures n == 0 || (n - 1) * limit < count
  {
    (count + limit - 1) / limit
  }

  /** The only ordering the endpoint asks for. */
  datatype SortOrder = FundedAtDesc

  /** `sort === 'fundedAt'` orders by `fundedAt` descending; anything else,
      `ASC` included, leaves the order to the database. */
  function SortBy(sort: Option<string>): (r: Option<SortOrder>)
    ensures r.Some? <==> sort == Some("fundedAt")
  {
    if sort == Some("fundedAt") then Some(FundedAtDesc) else None
  }

  /** `a` may precede `b` in `fundedAt DESC` order; SQLite sorts NULL below
      every value, so NULLs come last. */
  predicate FundedNotBefore(a: Project, b: Project) {
    b.fundedAt.None? || (a.fundedAt.Some? && a.fundedAt.value >= b.fundedAt.value)
  }

  /** `rows` is `where: {isInitial: true}` in the requested order: every
      initial project once, nothing else, sorted when a sort was asked for. */
  ghost predicate InitialListing(db: Db, rows: seq<Project>, order: Option<SortOrder>) {
    && (forall i :: 0 <= i < |rows| ==>
          (rows[i].projectLink in db.projects && db.projects[rows[i].projectLink] == rows[i] && rows[i].isInitial))
    && (forall i, j :: 0 <= i < j < |rows| ==> rows[i].projectLink != rows[j].projectLink)
    && (forall l :: l in db.projects && db.projects[l].isInitial ==>
          exists i :: 0 <= i < |rows| && rows[i].projectLink == l)
    && (order == Some(FundedAtDesc) ==> FundedAtDescending(rows))
  }

  /** `ORDER BY fundedAt DESC`. */
  predicate FundedAtDescending(rows: seq<Project>) {
    forall i, j {:trigger FundedNotBefore(rows[i], rows[j])} :: 0 <= i < j < |rows| ==> FundedNotBefore(rows[i], rows[j])
  }

  /** A listed project with the edges it takes part in, as investor and as
      funded project. */
  datatype Entry = Entry(project: Project, given: seq<Investment>, received: seq<Investment>)

  function EntryOf(db: Db, p: Project): (e: Entry)
    ensures e.project == p
    ensures forall x :: x in e.given <==> x in db.investments && x.investorProjectId == p.id
    ensures forall x :: x in e.received <==> x in db.investments && x.fundedProjectId == p.id
  {
    Entry(p, InvestmentsGiven(db.investments, p.id), InvestmentsReceived(db.investments, p.id))
  }

  /** The listing response: 400, or the page's entries, the total number of
      matching projects, the page number and the page count. */
  datatype ListReply = ListBadRequest | ListPage(data: seq<Entry>, total: nat, page: int, totalPages: nat)

  /** The rows of one page: `limit` rows from `offset`, fewer at the end. */
  function Window(rows: seq<Project>, offset: int, limit: int): (w: seq<Project>)
    requires offset >= 0 && limit > 0
    ensures |w| <= limit
    ensures forall k :: 0 <= k < |w| ==> offset + k < |rows| && w[k] == rows[offset + k]
    ensures offset + limit <= |rows| ==> |w| == limit
    ensures offset + limit > |rows| ==> |w| == if offset < |rows| then |rows| - offset else 0
  {
    if offset >= |rows| then []
    else if offset + limit <= |rows| then rows[offset..offset + limit]
    else rows[offset..]
  }

  /** `GET /`: validation, then the window of `rows`, the database's answer
      to the query (see `InitialListing`), with each project's edges, the
      total and the page count. */
  function ListFundraising(db: Db, q: ListQuery, rows: seq<Project>): (r: ListReply)
    ensures r.ListBadRequest? <==> Paginate(q).BadRequest?
    ensures r.ListPage? ==>
              var pg := Paginate(q);
              && r.page == pg.page && r.total == |rows| && r.totalPages == TotalPages(|rows|, pg.limit)
              && (r.data == [] <==> pg.offset >= |rows|)
              && (pg.offset + pg.limit <= |rows| ==> |r.data| == pg.limit)
              && (pg.offset + pg.limit > |rows| ==> |r.data| == if pg.offset < |rows| then |rows| - pg.offset else 0)
              && forall k :: 0 <= k < |r.data| ==>
                   pg.offset + k < |rows| && r.data[k] == EntryOf(db, rows[pg.offset + k])
  {
    var pg := Paginate(q);
    if pg.BadRequest? then ListBadRequest
    else
      var w := Window(rows, pg.offset, pg.limit);
      var data := seq(|w|, k requires 0 <= k < |w| => EntryOf(db, w[k]));
      ListPage(data, |rows|, pg.page, TotalPages(|rows|, pg.limit))
  }

  // ------------------------------------------- the count as the query makes it

  /** At least one: a left join keeps a project with no edge on that side
      as one row. */
  function AtLeastOne(n: nat): nat {
    if n == 0 then 1 else n
  }

  /** The rows the project contributes to the left join with the edges it
      gave and the edges it received: one per (given, received) pair. */
  function JoinedRowsOf(db: Db, p: Project): (n: nat)
    ensures n >= 1
  {
    AtLeastOne(|EntryOf(db, p).given|) * AtLeastOne(|EntryOf(db, p).received|)
  }

  /** `COUNT(Project.id)` over the listed projects left-joined with both
      edge lists: what `findAndCountAll` counts when it is given the two
      hasMany includes and no `distinct` option. */
  function JoinedRows(db: Db, rows: seq<Project>): nat {
    if |rows| == 0 then 0
    else JoinedRows(db, rows[..|rows| - 1]) + JoinedRowsOf(db, rows[|rows| - 1])
  }

  /** `GET /` as written: the page itself is the same as `ListFundraising`'s
      (the row query pages projects, not joined rows), but `total` and
      `totalPages` come from the joined-row count. */
  function ListFundraisingAsWritten(db: Db, q: ListQuery, rows: seq<Project>): (r: ListReply)
    ensures r.ListBadRequest? <==> Paginate(q).BadRequest?
    ensures r.ListPage? ==>
              var fixed := ListFundraising(db, q, rows);
              && r.data == fixed.data && r.page == fixed.page
              && r.total == JoinedRows(db, rows)
              && r.totalPages == TotalPages(JoinedRows(db, rows), Paginate(q).limit)
  {
    match ListFundraising(db, q, rows)
    case ListBadRequest => ListBadRequest
    case ListPage(data, _, page, _) =>
      var joined := JoinedRows(db, rows);
      ListPage(data, joined, page, TotalPages(joined, Paginate(q).limit))
  }

  /** Every listed project has at most one edge on each side. */
  predicate AtMostOneEdgeEach(db: Db, rows: seq<Project>) {
    forall k :: 0 <= k < |rows| ==>
      |EntryOf(db, rows[k]).given| <= 1 && |EntryOf(db, rows[k]).received| <= 1
  }

  /** The joined-row count is never below the number of projects, and equals
      it exactly when no listed project has two edges on the same side. */
  lemma {:induction false} JoinedRowsCount(db: Db, rows: seq<Project>)
    ensures JoinedRows(db, rows) >= |rows|
    ensures JoinedRows(db, rows) == |rows| <==> AtMostOneEdgeEach(db, rows)
  {
    if |rows| > 0 {
      var front, last := rows[..|rows| - 1], rows[|rows| - 1];
      JoinedRowsCount(db, front);
      var g, v := |EntryOf(db, last).given|, |EntryOf(db, last).received|;
      OneRowIffSingleEdges(g, v);
      if AtMostOneEdgeEach(db, rows) {
        forall k | 0 <= k < |front|
          ensures |EntryOf(db, front[k]).given| <= 1 && |EntryOf(db, front[k]).received| <= 1
        {
          assert front[k] == rows[k];
        }
        assert g <= 1 && v <= 1 by { assert last == rows[|rows| - 1]; }
      } else {
        var k :| 0 <= k < |rows| && !(|EntryOf(db, rows[k]).given| <= 1 && |EntryOf(db, rows[k]).received| <= 1);
        if k < |front| {
          assert front[k] == rows[k];
          assert !AtMostOneEdgeEach(db, front);
        }
      }
    }
  }

  /** A project contributes one joined row exactly when it has at most one
      edge on each side. */
  lemma OneRowIffSingleEdges(g: nat, v: nat)
    ensures AtLeastOne(g) * AtLeastOne(v) >= 1
    ensures AtLeastOne(g) * AtLeastOne(v) == 1 <==> g <= 1 && v <= 1
  {
    if g > 1 {
      MulMonotone(2, AtLeastOne(g), AtLeastOne(v));
    } else if v > 1 {
      MulMonotone(2, AtLeastOne(v), AtLeastOne(g));
    }
  }

  /** As written, a listing where some project gave (or received) two edges
      reports more projects than it has: `total` exceeds the number of
      initial projects that the corrected listing reports. */
  lemma ListOvercounts(db: Db, q: ListQuery, rows: seq<Project>)
    requires ValidQuery(q) && !AtMostOneEdgeEach(db, rows)
    ensures ListFundraisingAsWritten(db, q, rows).total > ListFundraising(db, q, rows).total
  {
    JoinedRowsCount(db, rows);
  }

  lemma MulMonotone(a: int, b: int, c: nat)
    requires a <= b
    ensures a * c <= b * c
  {
  }

  /** Index `i` of `n` rows lies at position `i % limit` of page
      `i / limit + 1`, and that page exists. */
  lemma PageOfIndex(i: nat, n: nat, limit: int)
    requires limit > 0 && i < n
    ensures i / limit >= 0 && (i / limit) * limit + i % limit == i && 0 <= i % limit < limit
    ensures i / limit + 1 <= TotalPages(n, limit)
  {
    var t := TotalPages(n, limit);
    if t < i / limit + 1 {
      MulMonotone(t, i / limit, limit);
      assert false;
    }
  }

  /** Page `p` lies within the page count when its first row exists. */
  lemma PageWithinCount(p: int, limit: int, n: nat)
    requires p >= 1 && limit > 0 && (p - 1) * limit < n
    ensures p <= TotalPages(n, limit)
  {
    var t := TotalPages(n, limit);
    if t < p {
      MulMonotone(t, p - 1, limit);
    }
  }

  /** Page `p` (asked for by any spelling of that number) shows, at
      position `k`, the row `k` places after the page's offset, and that
      page is within the page count. */
  lemma PageShowsRow(db: Db, q: ListQuery, rows: seq<Project>, page: string, k: nat)
    requires IsIntString(page) && ValidQuery(q.(page := Some(page)))
    requires var pg := Paginate(q.(page := Some(page))); k < pg.limit && pg.offset + k < |rows|
    ensures var pg := Paginate(q.(page := Some(page)));
            var r := ListFundraising(db, q.(page := Some(page)), rows);
            && r.ListPage? && r.page == IntStringValue(page) && r.page <= r.totalPages
            && k < |r.data| && r.data[k].project == rows[pg.offset + k]
  {
    var q' := q.(page := Some(page));
    var pg := Paginate(q');
    var w := Window(rows, pg.offset, pg.limit);
    assert k < |w|;
    PageWithinCount(pg.page, pg.limit, |rows|);
  }

  /** The pages partition the listing: row `i` is on page `i / limit + 1`
      at position `i % limit`. */
  lemma RowOnItsPage(db: Db, q: ListQuery, rows: seq<Project>, i: nat, page: string)
    requires ValidQuery(q) && i < |rows|
    requires IsIntString(page) && IntStringValue(page) == i / Paginate(q).limit + 1
    ensures var r := ListFundraising(db, q.(page := Some(page)), rows);
            && r.ListPage? && r.page <= r.totalPages
            && i % Paginate(q).limit < |r.data| && r.data[i % Paginate(q).limit].project == rows[i]
  {
    var limit := Paginate(q).limit;
    PageOfIndex(i, |rows|, limit);
    var q' := q.(page := Some(page));
    assert ValidQuery(q');
    var pg := Paginate(q');
    assert pg.limit == limit;
    assert pg.offset + i % limit == i;
    PageShowsRow(db, q, rows, page, i % limit);
  }

  /** A page past the page count starts past the last row. */
  lemma OffsetPastEnd(p: int, limit: int, n: nat)
    requires limit > 0 && p > TotalPages(n, limit)
    ensures (p - 1) * limit >= n
  {
    MulMonotone(TotalPages(n, limit), p - 1, limit);
  }

  /** A page past the page count is empty. */
  lemma PagePastEndEmpty(db: Db, q: ListQuery, rows: seq<Project>)
    requires ValidQuery(q) && Paginate(q).page > TotalPages(|rows|, Paginate(q).limit)
    ensures var r := ListFundraising(db, q, rows);
            r.ListPage? && r.data == []
  {
    var pg := Paginate(q);
    OffsetPastEnd(pg.page, pg.limit, |rows|);
    assert pg.offset >= |rows|;
  }

  /** Given the database's answer, a page lists initial projects of the
      store, each with exactly the edges it takes part in. */
  lemma PageListsInitialProjects(db: Db, q: ListQuery, rows: seq<Project>)
    requires InitialListing(db, rows, SortBy(q.sort))
    ensures var r := ListFundraising(db, q, rows);
            r.ListPage? ==> forall k :: 0 <= k < |r.data| ==>
              && r.data[k].project.projectLink in db.projects
              && db.projects[r.data[k].project.projectLink] == r.data[k].project
              && r.data[k].project.isInitial
              && (forall x :: x in r.data[k].given <==> x in db.investments && x.investorProjectId == r.data[k].project.id)
              && (forall x :: x in r.data[k].received <==> x in db.investments && x.fundedProjectId == r.data[k].project.id)
  {
    var r := ListFundraising(db, q, rows);
    if r.ListPage? {
      var off := Paginate(q).offset;
      forall k | 0 <= k < |r.data|
        ensures && r.data[k].project.projectLink in db.projects
                && db.projects[r.data[k].project.projectLink] == r.data[k].project
                && r.data[k].project.isInitial
      {
        assert r.data[k].project == rows[off + k];
      }
    }
  }

  /** Asked to sort by `fundedAt`, every page lists its projects newest
      funding first, those without a date last. */
  lemma SortedPage(db: Db, q: ListQuery, rows: seq<Project>)
    requires FundedAtDescending(rows)
    ensures var r := ListFundraising(db, q, rows);
            r.ListPage? ==> forall a, b :: 0 <= a < b < |r.data| ==> FundedNotBefore(r.data[a].project, r.data[b].project)
  {
    var r := ListFundraising(db, q, rows);
    if r.ListPage? {
      var off := Paginate(q).offset;
      forall a, b | 0 <= a < b < |r.data| ensures FundedNotBefore(r.data[a].project, r.data[b].project) {
        assert r.data[a].project == rows[off + a] && r.data[b].project == rows[off + b];
        assert FundedNotBefore(rows[off + a], rows[off + b]);
      }
    }
  }

  /** Every page number has a spelling the validator accepts: its decimal
      rendering. */
  lemma PageNumberSpelled(p: nat)
    requires p >= 1
    ensures IsIntString(NatToString(p)) && IntStringValue(NatToString(p)) == p
  {
    var s := NatToString(p);
    assert IsDigit(s[0]);
  }

  // ------------------------------------------------- start-crawl gates

  /** A start endpoint's answer: 400 with the error, or the crawl launched
      in the background with the message. */
  datatype StartReply = AlreadyRunning(error: string) | Started(message: string)

  function AlreadyMessage(k: Kind): string {
    match k
    case Full => "Full crawl already in progress"
    case Quick => "Quick update already in progress"
    case Detail => "Detail crawl already in progress"
  }

  function StartedMessage(k: Kind): string {
    match k
    case Full => "Full crawl started"
    case Quick => "Quick update started"
    case Detail => "Detail crawl started"
  }

  /** `POST /crawl/full`, `/crawl/quick`, `/crawl/detail`: the row with the
      kind's exact flag pair is looked up; a running row rejects, anything
      else, no row at all included, launches the crawl. The table is only
      read. */
  function StartGate(t: StateTable, k: Kind): (r: StartReply)
    ensures r.AlreadyRunning? <==>
              exists i :: 0 <= i < |t.rows| && KindOf(t.rows[i]) == Some(k) && t.rows[i].status == Running
                          && forall j :: 0 <= j < i ==> KindOf(t.rows[j]) != Some(k)
    ensures r == AlreadyRunning(AlreadyMessage(k)) || r == Started(StartedMessage(k))
  {
    var f := FindFirst(t.rows, ExactlyKind(k));
    if f.Some? && t.rows[f.value].status == Running then
      ExactlyKindMatches(t.rows[f.value], k);
      forall j | 0 <= j < f.value ensures KindOf(t.rows[j]) != Some(k) {
        ExactlyKindMatches(t.rows[j], k);
      }
      AlreadyRunning(AlreadyMessage(k))
    else
      forall i | 0 <= i < |t.rows| && KindOf(t.rows[i]) == Some(k) && t.rows[i].status == Running
        ensures exists j :: 0 <= j < i && KindOf(t.rows[j]) == Some(k)
      {
        ExactlyKindMatches(t.rows[i], k);
        ExactlyKindMatches(t.rows[f.value], k);
        assert f.value < i;
      }
      Started(StartedMessage(k))
  }

  /** With no row of the kind yet, the gate launches the crawl. */
  lemma StartGateWithoutRow(t: StateTable, k: Kind)
    requires forall i :: 0 <= i < |t.rows| ==> KindOf(t.rows[i]) != Some(k)
    ensures StartGate(t, k) == Started(StartedMessage(k))
  {
  }

  /** The quick gate looks at the quick row only, while the quick update
      itself takes the first row whose full flag is false: with the detail
      crawl running in the first row and no quick row, the gate lets the
      quick update start, and the quick update takes over the running
      detail row. */
  lemma QuickGatePassesRunningDetailRow(t: StateTable)
    requires CrawlStates.Valid(t) && |t.rows| > 0
    requires KindOf(t.rows[0]) == Some(Detail) && t.rows[0].status == Running
    requires forall i :: 0 <= i < |t.rows| ==> KindOf(t.rows[i]) != Some(Quick)
    ensures StartGate(t, Quick) == Started(StartedMessage(Quick))
    ensures StartGate(t, Detail) == AlreadyRunning(AlreadyMessage(Detail))
    ensures FindOrCreate(t, Crawler.QuickLookup, false, false) == (t, 0)
  {
    Crawler.QuickLookupTakesDetailRow(t);
    assert KindOf(t.rows[0]) == Some(Detail);
  }

  // ------------------------------------------------------------- reset

  /** One row as `POST /status/reset` leaves it. */
  function ResetRow(row: CrawlState): (r: CrawlState)
    ensures r.status == Idle && r.error.None? && r.lastPage.None?
    ensures r.lastProjectLink.None? && r.numberDetailsToCrawl.None?
    ensures r.id == row.id && r.isFullCrawl == row.isFullCrawl && r.isDetailCrawl == row.isDetailCrawl
    ensures r.numberDetailsFailed == row.numberDetailsFailed && r.lastUpdateTime == row.lastUpdateTime
  {
    row.(status := Idle, error := None, lastPage := None, lastProjectLink := None, numberDetailsToCrawl := None)
  }

  /** `CrawlState.update({...}, {where: {}})`: every row reset; ids, flags,
      the failure counter and the update time kept. */
  function Reset(t: StateTable): (r: StateTable)
    ensures |r.rows| == |t.rows| && r.nextId == t.nextId
    ensures forall i :: 0 <= i < |t.rows| ==>
              && r.rows[i].status == Idle && r.rows[i].error.None? && r.rows[i].lastPage.None?
              && r.rows[i].lastProjectLink.None? && r.rows[i].numberDetailsToCrawl.None?
              && r.rows[i].id == t.rows[i].id
              && r.rows[i].isFullCrawl == t.rows[i].isFullCrawl && r.rows[i].isDetailCrawl == t.rows[i].isDetailCrawl
              && r.rows[i].numberDetailsFailed == t.rows[i].numberDetailsFailed
              && r.rows[i].lastUpdateTime == t.rows[i].lastUpdateTime
  {
    StateTable(seq(|t.rows|, i requires 0 <= i < |t.rows| => ResetRow(t.rows[i])), t.nextId)
  }

  /** Resetting keeps the table well formed, resetting twice is resetting
      once, and afterwards every gate launches its crawl. */
  lemma ResetProperties(t: StateTable, k: Kind)
    requires CrawlStates.Valid(t)
    ensures CrawlStates.Valid(Reset(t))
    ensures Reset(Reset(t)) == Reset(t)
    ensures StartGate(Reset(t), k) == Started(StartedMessage(k))
  {
    var r := Reset(t);
    assert forall i :: 0 <= i < |r.rows| ==> Reset(r).rows[i] == r.rows[i];
  }

  // ------------------------------------------------------------ status

  datatype FullStatus = FullStatus(status: Status, lastPage: Option<int>, lastUpdate: Option<int>, error: Option<string>)
  datatype QuickStatus = QuickStatus(status: Status, lastUpdate: Option<int>, error: Option<string>)
  datatype DetailStatus = DetailStatus(status: Status, numberDetailsToCrawl: Option<int>, lastProjectLink: Option<string>,
                                       lastUpdate: Option<int>, error: Option<string>)

  /** `GET /status`: one entry per kind, null when there is no row of it. */
  datatype StatusReport = StatusReport(fullCrawl: Option<FullStatus>, quickUpdate: Option<QuickStatus>,
                                       detailCrawl: Option<DetailStatus>)

  /** The first row with the kind's exact flag pair. */
  function RowOf(t: StateTable, k: Kind): (r: Option<CrawlState>)
    ensures r.None? <==> forall i :: 0 <= i < |t.rows| ==> KindOf(t.rows[i]) != Some(k)
    ensures r.Some? ==> exists i :: 0 <= i < |t.rows| && t.rows[i] == r.value && KindOf(r.value) == Some(k)
                                    && forall j :: 0 <= j < i ==> KindOf(t.rows[j]) != Some(k)
  {
    var f := FindFirst(t.rows, ExactlyKind(k));
    forall i | 0 <= i < |t.rows| ensures Matches(t.rows[i], ExactlyKind(k)) <==> KindOf(t.rows[i]) == Some(k) {
      ExactlyKindMatches(t.rows[i], k);
    }
    if f.None? then None else Some(t.rows[f.value])
  }

  /** Each entry copies its row's columns verbatim. */
  function Report(t: StateTable): (r: StatusReport)
    ensures r.fullCrawl.None? <==> RowOf(t, Full).None?
    ensures r.quickUpdate.None? <==> RowOf(t, Quick).None?
    ensures r.detailCrawl.None? <==> RowOf(t, Detail).None?
    ensures r.fullCrawl.Some? ==> var s := RowOf(t, Full).value;
              r.fullCrawl.value == FullStatus(s.status, s.lastPage, s.lastUpdateTime, s.error)
    ensures r.quickUpdate.Some? ==> var s := RowOf(t, Quick).value;
              r.quickUpdate.value == QuickStatus(s.status, s.lastUpdateTime, s.error)
    ensures r.detailCrawl.Some? ==> var s := RowOf(t, Detail).value;
              r.detailCrawl.value == DetailStatus(s.status, s.numberDetailsToCrawl, s.lastProjectLink, s.lastUpdateTime, s.error)
  {
    var f := RowOf(t, Full);
    var q := RowOf(t, Quick);
    var d := RowOf(t, Detail);
    StatusReport(
      if f.None? then None else Some(FullStatus(f.value.status, f.value.lastPage, f.value.lastUpdateTime, f.value.error)),
      if q.None? then None else Some(QuickStatus(q.value.status, q.value.lastUpdateTime, q.value.error)),
      if d.None? then None else Some(DetailStatus(d.value.status, d.value.numberDetailsToCrawl, d.value.lastProjectLink,
                                                  d.value.lastUpdateTime, d.value.error)))
  }

  /** After a reset the report shows every present row idle, without error,
      page, link or detail count, and the same rows present as before. */
  lemma ReportAfterReset(t: StateTable)
    ensures var r := Report(Reset(t));
            && (r.fullCrawl.Some? <==> RowOf(t, Full).Some?)
            && (r.quickUpdate.Some? <==> RowOf(t, Quick).Some?)
            && (r.detailCrawl.Some? <==> RowOf(t, Detail).Some?)
            && (r.fullCrawl.Some? ==> r.fullCrawl.value.status == Idle && r.fullCrawl.value.error.None?
                                      && r.fullCrawl.value.lastPage.None?)
            && (r.quickUpdate.Some? ==> r.quickUpdate.value.status == Idle && r.quickUpdate.value.error.None?)
            && (r.detailCrawl.Some? ==> r.detailCrawl.value.status == Idle && r.detailCrawl.value.error.None?
                                        && r.detailCrawl.value.lastProjectLink.None?
                                        && r.detailCrawl.value.numberDetailsToCrawl.None?)
  {
    var r := Reset(t);
    assert forall i :: 0 <= i < |t.rows| ==> KindOf(r.rows[i]) == KindOf(t.rows[i]);
  }
}

=== FILE: scheduler.dfy ===
/** The scheduler: the two resume paths that reset a crawl-state row left
    behind by an interrupted run and start the crawl again, and the
    bookkeeping of the two recurring jobs it schedules and cancels. */
module Scheduler {
  import opened Wrappers
  import opened CrawlStates
  import Crawler

  // ------------------------------------------------------------ resume

  /** `{isFullCrawl: true, status: ['running', 'failed']}`: the full-crawl
      row of a run that did not finish. */
  const FullResumeLookup: Where := Where(Some(true), None, Some({Running, Failed}))

  /** `{isFullCrawl: false, isDetailCrawl: true}`: the detail row. */
  const DetailResumeLookup: Where := ExactlyKind(Detail)

  /** `t` is `t0` with the row at `i` set idle and its error cleared, and
      nothing else changed. */
  ghost predicate ResetAt(t0: StateTable, t: StateTable, i: nat) {
    && OnlyRowChanged(t0, t, i)
    && t.rows[i] == t0.rows[i].(status := Idle, error := None)
  }

  /** `state.update({status: 'idle', error: null})` on the row at `i`. */
  function Reset(t: StateTable, i: nat): (r: StateTable)
    requires Valid(t) && i < |t.rows|
    ensures ResetAt(t, r, i)
  {
    Save(t, i, t.rows[i].(status := Idle, error := None))
  }

  /** What a full-crawl resume did: nothing, or the row it reset and the
      page `fullCrawl` is started from (the row's `lastPage`, possibly
      NULL). */
  datatype FullResume = NotResumed | Resumed(at: nat, startPage: Option<int>)

  /** `resumeIncompleteFullCrawl()`: the first full-crawl row that is
      running or failed is reset, and the crawl restarts from the page the
      row last recorded; with no such row nothing happens. */
  function ResumeFull(t: StateTable): (r: (StateTable, FullResume))
    requires Valid(t)
    ensures Valid(r.0)
    ensures r.1.NotResumed? <==> forall j :: 0 <= j < |t.rows| ==> !Matches(t.rows[j], FullResumeLookup)
    ensures r.1.NotResumed? ==> r.0 == t
    ensures r.1.Resumed? ==>
              && r.1.at < |t.rows|
              && t.rows[r.1.at].isFullCrawl && t.rows[r.1.at].status in {Running, Failed}
              && (forall j :: 0 <= j < r.1.at ==> !Matches(t.rows[j], FullResumeLookup))
              && ResetAt(t, r.0, r.1.at)
              && r.1.startPage == t.rows[r.1.at].lastPage
  {
    match FindFirst(t.rows, FullResumeLookup)
    case None => (t, NotResumed)
    case Some(i) => (Reset(t, i), Resumed(i, t.rows[i].lastPage))
  }

  /** The number of rows a where-clause matches. */
  function CountMatches(rows: seq<CrawlState>, w: Where): nat
    decreases |rows|
  {
    if |rows| == 0 then 0
    else (if Matches(rows[0], w) then 1 else 0) + CountMatches(rows[1..], w)
  }

  /** Replacing one row changes the count by what the old and the new row
      contribute. */
  lemma {:induction false} CountMatchesUpdate(rows: seq<CrawlState>, w: Where, i: nat, row: CrawlState)
    requires i < |rows|
    ensures CountMatches(rows[i := row], w) + (if Matches(rows[i], w) then 1 else 0)
            == CountMatches(rows, w) + (if Matches(row, w) then 1 else 0)
    decreases |rows|
  {
    var rows' := rows[i := row];
    if i > 0 {
      assert rows'[1..] == rows[1..][i - 1 := row];
      CountMatchesUpdate(rows[1..], w, i - 1, row);
    } else {
      assert rows'[1..] == rows[1..];
    }
  }

  /** Each full-crawl resume takes one interrupted row out of the running
      or failed set, so repeated resumes stop after as many rounds as
      there were interrupted rows. */
  lemma ResumeFullCount(t: StateTable)
    requires Valid(t)
    ensures var (t', res) := ResumeFull(t);
            res.Resumed? ==> CountMatches(t'.rows, FullResumeLookup) + 1 == CountMatches(t.rows, FullResumeLookup)
    ensures ResumeFull(t).1.NotResumed? <==> CountMatches(t.rows, FullResumeLookup) == 0
  {
    var (t', res) := ResumeFull(t);
    if res.Resumed? {
      var i := res.at;
      assert t'.rows == t.rows[i := t'.rows[i]];
      CountMatchesUpdate(t.rows, FullResumeLookup, i, t'.rows[i]);
      CountMatchesPositive(t.rows, FullResumeLookup, i);
    } else {
      CountMatchesNone(t.rows, FullResumeLookup);
    }
  }

  /** A matching row makes the count positive. */
  lemma {:induction false} CountMatchesPositive(rows: seq<CrawlState>, w: Where, i: nat)
    requires i < |rows| && Matches(rows[i], w)
    ensures CountMatches(rows, w) > 0
    decreases |rows|
  {
    if i > 0 {
      assert rows[1..][i - 1] == rows[i];
      CountMatchesPositive(rows[1..], w, i - 1);
    }
  }

  /** No matching row makes the count zero. */
  lemma {:induction false} CountMatchesNone(rows: seq<CrawlState>, w: Where)
    requires forall j :: 0 <= j < |rows| ==> !Matches(rows[j], w)
    ensures CountMatches(rows, w) == 0
    decreases |rows|
  {
    if |rows| > 0 {
      assert forall j :: 0 <= j < |rows| - 1 ==> rows[1..][j] == rows[j + 1];
      CountMatchesNone(rows[1..], w);
    }
  }

  /** A full crawl that failed after writing pages `start` to `stop - 1`
      is resumed from page `stop - 1`: the last page it wrote is crawled
      again. The row is the one the full crawl itself looks up. */
  lemma ResumeRecrawlsLastPage(t: StateTable, at: nat, row0: CrawlState, start: int, stop: int, clock: int -> int)
    requires Valid(t) && FindFirst(t.rows, Crawler.FullLookup) == Some(at)
    requires t.rows[at].status == Failed
    requires Crawler.Checkpointed(row0, t.rows[at].(status := row0.status, error := row0.error), start, stop, clock)
    requires start < stop
    ensures ResumeFull(t).1 == Resumed(at, Some(stop - 1))
  {
    assert Matches(t.rows[at], FullResumeLookup);
    forall j | 0 <= j < at ensures !Matches(t.rows[j], FullResumeLookup) {
      assert !Matches(t.rows[j], Crawler.FullLookup);
    }
  }

  /** What a detail resume did: rethrew the error of `forceClose`, found
      no detail row, or reset the row at `at` and started the detail
      crawl. */
  datatype DetailResume = CloseThrew(message: string) | NoDetailRow | DetailRestarted(at: nat)

  /** `resumeIncompleteDetailCrawl()`. `forceClose` is the outcome of the
      crawler's close call, whose effect is not modelled; when it throws,
      nothing else runs and the error propagates. Otherwise the first
      detail row is reset whatever its status, running included, and the
      detail crawl is started. */
  function ResumeDetail(t: StateTable, forceClose: Crawler.Outcome): (r: (StateTable, DetailResume))
    requires Valid(t)
    ensures Valid(r.0)
    ensures forceClose.Threw? <==> r.1.CloseThrew?
    ensures forceClose.Threw? ==> r.1.message == forceClose.message
    ensures r.1.NoDetailRow? <==>
              forceClose.Done? && forall j :: 0 <= j < |t.rows| ==> !Matches(t.rows[j], DetailResumeLookup)
    ensures !r.1.DetailRestarted? ==> r.0 == t
    ensures r.1.DetailRestarted? ==>
              && r.1.at < |t.rows|
              && !t.rows[r.1.at].isFullCrawl && t.rows[r.1.at].isDetailCrawl
              && (forall j :: 0 <= j < r.1.at ==> !Matches(t.rows[j], DetailResumeLookup))
              && ResetAt(t, r.0, r.1.at)
  {
    if forceClose.Threw? then (t, CloseThrew(forceClose.message))
    else
      match FindFirst(t.rows, DetailResumeLookup)
      case None => (t, NoDetailRow)
      case Some(i) => (Reset(t, i), DetailRestarted(i))
  }

  /** Resuming the detail crawl twice is resuming it once: the same row is
      found again, already idle with no error. */
  lemma ResumeDetailIdempotent(t: StateTable)
    requires Valid(t)
    ensures var (t1, res1) := ResumeDetail(t, Crawler.Done);
            ResumeDetail(t1, Crawler.Done) == (t1, res1)
  {
    var (t1, res1) := ResumeDetail(t, Crawler.Done);
    if res1.DetailRestarted? {
      var i := res1.at;
      assert Matches(t1.rows[i], DetailResumeLookup);
      forall j | 0 <= j < i ensures !Matches(t1.rows[j], DetailResumeLookup) {
        assert t1.rows[j] == t.rows[j];
      }
      var found := FindFirst(t1.rows, DetailResumeLookup);
      assert found == Some(i);
      assert Reset(t1, i) == t1 by {
        assert t1.rows[i := t1.rows[i]] == t1.rows;
      }
    }
  }

  /** Unlike the full-crawl resume, the detail resume picks up a row that
      is still marked running. */
  lemma ResumeDetailTakesRunningRow(t: StateTable, i: nat)
    requires Valid(t) && i < |t.rows| && KindOf(t.rows[i]) == Some(Detail) && t.rows[i].status == Running
    requires forall j :: 0 <= j < i ==> KindOf(t.rows[j]) != Some(Detail)
    ensures var (t1, res) := ResumeDetail(t, Crawler.Done);
            res == DetailRestarted(i) && t1.rows[i].status == Idle && t1.rows[i].error.None?
    ensures !Matches(t.rows[i], FullResumeLookup)
  {
    ExactlyKindMatches(t.rows[i], Detail);
    forall j | 0 <= j < i ensures !Matches(t.rows[j], DetailResumeLookup) {
      ExactlyKindMatches(t.rows[j], Detail);
    }
  }

  // -------------------------------------------------------------- jobs

  /** The work a job or the startup hook runs. */
  datatype Task = QuickUpdateTask | DetailResumeTask

  /** A job held by the scheduling library: its recurrence rule, its work,
      and whether it was cancelled. */
  datatype Job = Job(rule: string, task: Task, cancelled: bool)

  /** Every job ever scheduled, in order, and the scheduler object's two
      slots, each naming a job by its index. */
  datatype Schedules = Schedules(jobs: seq<Job>, dailyJob: Option<nat>, halfHourlyDetailJob: Option<nat>)

  /** The slots name scheduled jobs. */
  predicate SlotsValid(s: Schedules) {
    && (s.dailyJob.Some? ==> s.dailyJob.value < |s.jobs|)
    && (s.halfHourlyDetailJob.Some? ==> s.halfHourlyDetailJob.value < |s.jobs|)
  }

  /** Every day at 05:00. */
  const DailyRule: string := "0 5 * * *"

  /** Every thirty minutes. */
  const HalfHourlyRule: string := "*/30 * * * *"

  /** The scheduler object as constructed: both slots empty. */
  function NewScheduler(jobs: seq<Job>): (r: Schedules)
    ensures SlotsValid(r) && r.jobs == jobs && r.dailyJob.None? && r.halfHourlyDetailJob.None?
  {
    Schedules(jobs, None, None)
  }

  /** No job is still live. */
  predicate NoneLive(jobs: seq<Job>) {
    forall j :: 0 <= j < |jobs| ==> jobs[j].cancelled
  }

  /** `startScheduler()`: a daily quick update at 05:00 and a detail resume
      every thirty minutes are scheduled into the slots, and the startup
      hook runs the detail resume only (the full-crawl resume is switched
      off). Jobs already scheduled are kept, whether or not a slot still
      names them. */
  function Start(s: Schedules): (r: (Schedules, seq<Task>))
    requires SlotsValid(s)
    ensures SlotsValid(r.0)
    ensures |r.0.jobs| == |s.jobs| + 2 && r.0.jobs[..|s.jobs|] == s.jobs
    ensures r.0.dailyJob == Some(|s.jobs|) && r.0.jobs[|s.jobs|] == Job(DailyRule, QuickUpdateTask, false)
    ensures r.0.halfHourlyDetailJob == Some(|s.jobs| + 1)
    ensures r.0.jobs[|s.jobs| + 1] == Job(HalfHourlyRule, DetailResumeTask, false)
    ensures r.1 == [DetailResumeTask]
  {
    var daily := Job(DailyRule, QuickUpdateTask, false);
    var detail := Job(HalfHourlyRule, DetailResumeTask, false);
    (Schedules(s.jobs + [daily, detail], Some(|s.jobs|), Some(|s.jobs| + 1)), [DetailResumeTask])
  }

  /** `job.cancel()` on the job a slot names, if it names one. */
  function CancelSlot(jobs: seq<Job>, slot: Option<nat>): (r: seq<Job>)
    requires slot.Some? ==> slot.value < |jobs|
    ensures |r| == |jobs|
  {
    if slot.Some? then jobs[slot.value := jobs[slot.value].(cancelled := true)] else jobs
  }

  /** `stopScheduler()`: the jobs the slots name are cancelled; jobs no
      slot names and empty slots are left alone, and the slots keep
      their values. */
  function Stop(s: Schedules): (r: Schedules)
    requires SlotsValid(s)
    ensures SlotsValid(r)
    ensures r.dailyJob == s.dailyJob && r.halfHourlyDetailJob == s.halfHourlyDetailJob && |r.jobs| == |s.jobs|
    ensures forall j :: 0 <= j < |s.jobs| ==>
              && r.jobs[j].rule == s.jobs[j].rule && r.jobs[j].task == s.jobs[j].task
              && (r.jobs[j].cancelled <==>
                    s.jobs[j].cancelled || s.dailyJob == Some(j) || s.halfHourlyDetailJob == Some(j))
  {
    var jobs := CancelSlot(CancelSlot(s.jobs, s.dailyJob), s.halfHourlyDetailJob);
    Schedules(jobs, s.dailyJob, s.halfHourlyDetailJob)
  }

  /** Stopping twice is stopping once. */
  lemma StopIdempotent(s: Schedules)
    requires SlotsValid(s)
    ensures Stop(Stop(s)) == Stop(s)
  {
    var r := Stop(s);
    var r2 := Stop(r);
    assert r2.jobs == r.jobs by {
      forall j | 0 <= j < |r.jobs| ensures r2.jobs[j] == r.jobs[j] {
        assert r.jobs[j].cancelled ==> r2.jobs[j].cancelled;
      }
    }
  }

  /** With no job scheduled through the slots, stopping changes nothing. */
  lemma StopUnscheduled(jobs: seq<Job>)
    ensures Stop(NewScheduler(jobs)) == NewScheduler(jobs)
  {
  }

  /** Starting from a state with no live job and then stopping leaves no
      live job: the two jobs started are the two the slots name. */
  lemma StartThenStopLeavesNoneLive(s: Schedules)
    requires SlotsValid(s) && NoneLive(s.jobs)
    ensures NoneLive(Stop(Start(s).0).jobs)
  {
    var s1 := Start(s).0;
    var r := Stop(s1);
    forall j | 0 <= j < |r.jobs| ensures r.jobs[j].cancelled {
      if j < |s.jobs| {
        assert s1.jobs[j] == s.jobs[j];
      }
    }
  }

  /** Starting twice overwrites the slots without cancelling what they
      named, so a later stop leaves the first start's two jobs live. */
  lemma StartTwiceLeavesFirstJobsLive(s: Schedules)
    requires SlotsValid(s)
    ensures var s2 := Start(Start(s).0).0;
            var r := Stop(s2);
            !r.jobs[|s.jobs|].cancelled && !r.jobs[|s.jobs| + 1].cancelled
  {
    var s1 := Start(s).0;
    var s2 := Start(s1).0;
    assert s2.jobs[|s.jobs|] == s1.jobs[|s.jobs|];
    assert s2.jobs[|s.jobs| + 1] == s1.jobs[|s.jobs| + 1];
  }
}

=== FILE: store.dfy ===
/** The `Project` and `InvestmentRelationships` tables and the three ways the
    crawler writes them: the listing upsert (`bulkCreate` with
    `updateOnDuplicate`), find-or-create of an investor project by link, and
    appending an investment edge. Projects are keyed by `projectLink`, which
    the table declares unique and non-null; ids are opaque and never reused. */
module ProjectStore {
  import opened Wrappers

  datatype TeamMember = TeamMember(name: Option<string>, position: Option<string>, avatar: string, profileLink: string)

  /** A `Project` row (timestamps are not modelled). */
  datatype Project = Project(
    id: nat,
    projectName: string,
    projectLink: string,
    description: Option<string>,
    logo: Option<string>,
    round: Option<string>,
    amount: Option<string>,
    formattedAmount: Option<real>,
    valuation: Option<string>,
    formattedValuation: Option<real>,
    date: Option<string>,
    fundedAt: Option<int>,
    detailFetchedAt: Option<int>,
    isInitial: bool,
    socialLinks: Option<map<string, string>>,
    teamMembers: Option<seq<TeamMember>>)

  /** An `InvestmentRelationships` row: a directed edge investor -> funded. */
  datatype Investment = Investment(
    investorProjectId: nat,
    fundedProjectId: nat,
    round: Option<string>,
    amount: Option<string>,
    formattedAmount: Option<real>,
    valuation: Option<string>,
    formattedValuation: Option<real>,
    date: Option<int>,
    lead: bool)

  /** Both tables: projects by link, edges in insertion order, the next id. */
  datatype Db = Db(projects: map<string, Project>, investments: seq<Investment>, nextId: nat)

  /** One record of a listing page as handed to `bulkCreate`; name and link
      may be missing when the cell had no anchor. */
  datatype ListingRecord = ListingRecord(
    projectName: Option<string>,
    projectLink: Option<string>,
    description: Option<string>,
    round: Option<string>,
    amount: Option<string>,
    formattedAmount: Option<real>,
    valuation: Option<string>,
    formattedValuation: Option<real>,
    date: Option<string>,
    fundedAt: Option<int>,
    isInitial: bool)

  /** The `message` of the error `bulkCreate` fails with when a record
      breaks a NOT NULL column. The database reports a constraint failure,
      and Sequelize's SQLite dialect turns every constraint failure other
      than a foreign key into a `UniqueConstraintError` with this message;
      the model runs no validation first, since `bulkCreate` validates
      only when asked. */
  const NotNullViolation: string := "Validation error"

  ghost predicate HasId(db: Db, id: nat) {
    exists l :: l in db.projects && db.projects[l].id == id
  }

  /** The table invariants: a row sits under its own link, ids are distinct and
      below `nextId`, every edge joins two existing projects. */
  ghost predicate Valid(db: Db) {
    && (forall l :: l in db.projects ==> db.projects[l].projectLink == l && db.projects[l].id < db.nextId)
    && (forall l1, l2 :: l1 in db.projects && l2 in db.projects && l1 != l2 ==>
          db.projects[l1].id != db.projects[l2].id)
    && (forall i :: 0 <= i < |db.investments| ==>
          HasId(db, db.investments[i].investorProjectId) && HasId(db, db.investments[i].fundedProjectId))
  }

  /** Every project of `db` is in `r` under the same id. */
  ghost predicate KeepsIds(db: Db, r: Db) {
    forall l :: l in db.projects ==> l in r.projects && r.projects[l].id == db.projects[l].id
  }

  lemma KeepsIdsHasId(db: Db, r: Db)
    requires KeepsIds(db, r)
    ensures forall id :: HasId(db, id) ==> HasId(r, id)
  {
    forall id | HasId(db, id) ensures HasId(r, id) {
      var l :| l in db.projects && db.projects[l].id == id;
      assert r.projects[l].id == id;
    }
  }

  // --------------------------------------------------------- listing upsert

  predicate Insertable(rec: ListingRecord) {
    rec.projectName.Some? && rec.projectLink.Some?
  }

  /** The row a listing record becomes under id `id`: every column comes from
      the record; columns the record does not carry (logo, social links, team,
      detail timestamp) are NULL, on insert and on conflict alike. */
  function FromListing(id: nat, rec: ListingRecord): Project
    requires Insertable(rec)
  {
    Project(id, rec.projectName.value, rec.projectLink.value, rec.description, None,
            rec.round, rec.amount, rec.formattedAmount, rec.valuation, rec.formattedValuation,
            rec.date, rec.fundedAt, None, rec.isInitial, None, None)
  }

  /** The links a batch writes. */
  function LinksOf(recs: seq<ListingRecord>): (r: set<string>)
    ensures forall i :: 0 <= i < |recs| && recs[i].projectLink.Some? ==> recs[i].projectLink.value in r
    ensures forall l :: l in r ==> exists i :: 0 <= i < |recs| && recs[i].projectLink == Some(l)
  {
    if |recs| == 0 then {}
    else
      var last := recs[|recs| - 1];
      var front := LinksOf(recs[..|recs| - 1]);
      assert forall i :: 0 <= i < |recs| - 1 ==> recs[..|recs| - 1][i] == recs[i];
      if last.projectLink.Some? then front + {last.projectLink.value} else front
  }

  /** Record `i` is the last one in the batch with its link. */
  predicate LastFor(recs: seq<ListingRecord>, i: nat)
    requires i < |recs|
  {
    forall j :: i < j < |recs| ==> recs[j].projectLink != recs[i].projectLink
  }

  /** Putting a row under its own link, with the id the link already had or
      a fresh one, keeps the table invariants and every existing id. */
  lemma PutKeepsValid(db: Db, p: Project, next: nat)
    requires Valid(db)
    requires p.projectLink in db.projects ==> p.id == db.projects[p.projectLink].id
    requires p.projectLink !in db.projects ==> p.id >= db.nextId
    requires next > p.id && next >= db.nextId
    ensures var r := Db(db.projects[p.projectLink := p], db.investments, next);
            Valid(r) && KeepsIds(db, r)
  {
    var r := Db(db.projects[p.projectLink := p], db.investments, next);
    assert KeepsIds(db, r);
    KeepsIdsHasId(db, r);
  }

  /** One record written: the row under its link is replaced (keeping its
      id) or created with a fresh id; nothing else changes. */
  function UpsertOne(db: Db, rec: ListingRecord): (r: Db)
    requires Valid(db) && Insertable(rec)
    ensures Valid(r) && KeepsIds(db, r)
    ensures r.investments == db.investments && r.nextId >= db.nextId
    ensures r.projects.Keys == db.projects.Keys + {rec.projectLink.value}
    ensures forall l :: l in r.projects && l !in db.projects ==> r.projects[l].id >= db.nextId
    ensures forall l :: l in db.projects && l != rec.projectLink.value ==> r.projects[l] == db.projects[l]
    ensures r.projects[rec.projectLink.value] == FromListing(r.projects[rec.projectLink.value].id, rec)
  {
    var link := rec.projectLink.value;
    var id := if link in db.projects then db.projects[link].id else db.nextId;
    var p := FromListing(id, rec);
    var next := if link in db.projects then db.nextId else db.nextId + 1;
    PutKeepsValid(db, p, next);
    Db(db.projects[link := p], db.investments, next)
  }

  lemma KeepsIdsTrans(a: Db, b: Db, c: Db)
    requires KeepsIds(a, b) && KeepsIds(b, c)
    ensures KeepsIds(a, c)
  {
  }

  /** The records written one after another, later records winning on a
      shared link (one multi-row INSERT ... ON CONFLICT DO UPDATE). */
  function UpsertAll(db: Db, recs: seq<ListingRecord>): (r: Db)
    requires Valid(db)
    requires forall i :: 0 <= i < |recs| ==> Insertable(recs[i])
    ensures Valid(r) && KeepsIds(db, r)
    ensures r.investments == db.investments && r.nextId >= db.nextId
    ensures forall l :: l in r.projects <==> l in db.projects || l in LinksOf(recs)
    ensures forall l :: l in r.projects && l !in db.projects ==> r.projects[l].id >= db.nextId
    decreases |recs|
  {
    if |recs| == 0 then db
    else
      var n := |recs| - 1;
      var mid := UpsertAll(db, recs[..n]);
      var r := UpsertOne(mid, recs[n]);
      KeepsIdsTrans(db, mid, r);
      r
  }

  /** Projects whose link is not in the batch are left exactly as they were. */
  lemma {:induction false} UpsertAllOthersUnchanged(db: Db, recs: seq<ListingRecord>, l: string)
    requires Valid(db)
    requires forall i :: 0 <= i < |recs| ==> Insertable(recs[i])
    requires l in db.projects && l !in LinksOf(recs)
    ensures UpsertAll(db, recs).projects[l] == db.projects[l]
    decreases |recs|
  {
    if |recs| > 0 {
      var n := |recs| - 1;
      var front := recs[..n];
      assert forall k :: 0 <= k < |front| ==> Insertable(front[k]);
      assert l !in LinksOf(front) && l != recs[n].projectLink.value;
      var mid := UpsertAll(db, front);
      UpsertAllOthersUnchanged(db, front, l);
      UpsertOneElsewhere(mid, recs[n], l);
    }
  }

  /** Writing one record leaves every other existing link alone. */
  lemma UpsertOneElsewhere(db: Db, rec: ListingRecord, l: string)
    requires Valid(db) && Insertable(rec)
    requires l in db.projects && l != rec.projectLink.value
    ensures UpsertOne(db, rec).projects[l] == db.projects[l]
  {
  }

  /** Every link of the batch ends up holding exactly the columns of the last
      record with that link, under its old id when it already existed. */
  lemma {:induction false} UpsertAllLastWins(db: Db, recs: seq<ListingRecord>, i: nat)
    requires Valid(db)
    requires forall k :: 0 <= k < |recs| ==> Insertable(recs[k])
    requires i < |recs| && LastFor(recs, i)
    ensures var r := UpsertAll(db, recs);
            var l := recs[i].projectLink.value;
            && r.projects[l] == FromListing(r.projects[l].id, recs[i])
            && (l in db.projects ==> r.projects[l].id == db.projects[l].id)
    decreases |recs|
  {
    var n := |recs| - 1;
    var l := recs[i].projectLink.value;
    var front := recs[..n];
    assert forall k :: 0 <= k < |front| ==> Insertable(front[k]);
    var mid := UpsertAll(db, front);
    var r := UpsertOne(mid, recs[n]);
    assert UpsertAll(db, recs) == r;
    if i < n {
      assert front[i] == recs[i];
      assert LastFor(front, i) by {
        forall j | i < j < n ensures front[j].projectLink != front[i].projectLink {
          assert front[j] == recs[j];
        }
      }
      assert mid.projects[l] == FromListing(mid.projects[l].id, recs[i])
          && (l in db.projects ==> mid.projects[l].id == db.projects[l].id) by {
        UpsertAllLastWins(db, front, i);
      }
      assert recs[n].projectLink.value != l;
      assert r.projects[l] == mid.projects[l];
    } else {
      assert i == n;
      var rec := recs[n];
      assert r.projects[rec.projectLink.value] == FromListing(r.projects[rec.projectLink.value].id, rec);
      assert l in db.projects ==> r.projects[l].id == db.projects[l].id by {
        if l in db.projects {
          assert mid.projects[l].id == db.projects[l].id;
        }
      }
    }
  }

  /** A project holding none of the detail page's data. */
  predicate Undetailed(p: Project) {
    p.detailFetchedAt.None? && p.socialLinks.None? && p.teamMembers.None?
  }

  /** Every project a batch touches is left waiting for its detail page
      again: the detail timestamp, social links and team are among the
      columns the write sets to NULL. */
  lemma {:induction false} UpsertAllRequeues(db: Db, recs: seq<ListingRecord>, l: string)
    requires Valid(db)
    requires forall k :: 0 <= k < |recs| ==> Insertable(recs[k])
    requires l in LinksOf(recs)
    ensures Undetailed(UpsertAll(db, recs).projects[l])
    decreases |recs|
  {
    var n := |recs| - 1;
    var front := recs[..n];
    assert forall k :: 0 <= k < |front| ==> Insertable(front[k]);
    var mid := UpsertAll(db, front);
    var r := UpsertOne(mid, recs[n]);
    assert UpsertAll(db, recs) == r;
    if recs[n].projectLink != Some(l) {
      assert l in LinksOf(front);
      assert Undetailed(mid.projects[l]) by {
        UpsertAllRequeues(db, front, l);
      }
      assert r.projects[l] == mid.projects[l];
    }
  }

  /** `Project.bulkCreate(data, {updateOnDuplicate: every column but id,
      projectLink, createdAt, updatedAt})`: one statement, so a record without
      a name or link fails the whole batch and nothing is written. */
  function UpsertBatch(db: Db, recs: seq<ListingRecord>): (r: Result<Db, string>)
    requires Valid(db)
    ensures r.Success? <==> forall i :: 0 <= i < |recs| ==> Insertable(recs[i])
    ensures r.Failure? ==> r.error == NotNullViolation
    ensures r.Success? ==> r.value == UpsertAll(db, recs)
  {
    if forall i :: 0 <= i < |recs| ==> Insertable(recs[i]) then Success(UpsertAll(db, recs))
    else Failure(NotNullViolation)
  }

  // ----------------------------------------------------- find-or-create

  /** A project first met as an investor: name and link only, not initial. */
  function NewInvestor(id: nat, name: string, link: string): Project {
    Project(id, name, link, None, None, None, None, None, None, None, None, None, None, false, None, None)
  }

  /** `Project.findOne({where: {projectLink}})`, or `Project.create({projectName,
      projectLink, isInitial: false})` when there is none; returns the table
      and the id of the row found or made. */
  function FindOrCreateProject(db: Db, name: string, link: string): (r: (Db, nat))
    requires Valid(db)
    ensures Valid(r.0) && KeepsIds(db, r.0)
    ensures link in r.0.projects && r.0.projects[link].id == r.1
    ensures link in db.projects ==> r.0 == db
    ensures link !in db.projects ==>
              && r.0.projects.Keys == db.projects.Keys + {link}
              && r.0.investments == db.investments
              && (forall l :: l in db.projects ==> r.0.projects[l] == db.projects[l])
              && !r.0.projects[link].isInitial
              && r.0.projects[link].projectName == name
              && r.0.projects[link].detailFetchedAt.None?
              && r.1 !in (set l | l in db.projects :: db.projects[l].id)
  {
    if link in db.projects then (db, db.projects[link].id)
    else
      var r := Db(db.projects[link := NewInvestor(db.nextId, name, link)], db.investments, db.nextId + 1);
      assert KeepsIds(db, r);
      KeepsIdsHasId(db, r);
      (r, db.nextId)
  }

  /** Asking again for a link just found or made returns the same row and
      changes nothing: one row per link however often it is met. */
  lemma FindOrCreateIdempotent(db: Db, name: string, name2: string, link: string)
    requires Valid(db)
    ensures var (db1, id1) := FindOrCreateProject(db, name, link);
            FindOrCreateProject(db1, name2, link) == (db1, id1)
  {
  }

  // ------------------------------------------------------ investment edges

  /** `InvestmentRelationships.create(...)`: append, never merge. */
  function AddInvestment(db: Db, e: Investment): (r: Db)
    requires Valid(db) && HasId(db, e.investorProjectId) && HasId(db, e.fundedProjectId)
    ensures Valid(r)
    ensures r.projects == db.projects && r.nextId == db.nextId
    ensures |r.investments| == |db.investments| + 1
    ensures r.investments[..|db.investments|] == db.investments && r.investments[|db.investments|] == e
  {
    Db(db.projects, db.investments + [e], db.nextId)
  }

  /** The `investmentsGiven` association: edges whose investor is `id`, in
      insertion order. */
  function InvestmentsGiven(es: seq<Investment>, id: nat): (r: seq<Investment>)
    ensures |r| <= |es|
    ensures forall e :: e in r <==> e in es && e.investorProjectId == id
  {
    if |es| == 0 then []
    else
      var rest := InvestmentsGiven(es[..|es| - 1], id);
      var e := es[|es| - 1];
      assert es == es[..|es| - 1] + [e];
      if e.investorProjectId == id then rest + [e] else rest
  }

  /** The `investmentsReceived` association: edges whose funded project is
      `id`, in insertion order. */
  function InvestmentsReceived(es: seq<Investment>, id: nat): (r: seq<Investment>)
    ensures |r| <= |es|
    ensures forall e :: e in r <==> e in es && e.fundedProjectId == id
  {
    if |es| == 0 then []
    else
      var rest := InvestmentsReceived(es[..|es| - 1], id);
      var e := es[|es| - 1];
      assert es == es[..|es| - 1] + [e];
      if e.fundedProjectId == id then rest + [e] else rest
  }
}

=== FILE: text.dfy ===
/** The JavaScript string operations the crawler relies on, over `string`
    (a sequence of UTF-16 code units is approximated by a sequence of chars). */
module Text {
  import opened Wrappers

  /** WhiteSpace and LineTerminator code points, as `String.prototype.trim`
      and `parseFloat` skip them. */
  predicate IsSpace(c: char) {
    var n := c as int;
    || n == 0x09 || n == 0x0A || n == 0x0B || n == 0x0C || n == 0x0D || n == 0x20
    || n == 0xA0 || n == 0x1680 || (0x2000 <= n <= 0x200A) || n == 0x2028
    || n == 0x2029 || n == 0x202F || n == 0x205F || n == 0x3000 || n == 0xFEFF
  }

  /** The regular-expression class `\d`. */
  predicate IsDigit(c: char) { '0' <= c <= '9' }

  /** The regular-expression class `[A-Za-z]`. */
  predicate IsLetter(c: char) { 'A' <= c <= 'Z' || 'a' <= c <= 'z' }

  predicate AllDigits(s: string) { forall i :: 0 <= i < |s| ==> IsDigit(s[i]) }

  predicate AllLetters(s: string) { forall i :: 0 <= i < |s| ==> IsLetter(s[i]) }

  predicate AllSpaces(s: string) { forall i :: 0 <= i < |s| ==> IsSpace(s[i]) }

  /** True when `s` neither starts nor ends with white space. */
  predicate Tight(s: string) { |s| == 0 || (!IsSpace(s[0]) && !IsSpace(s[|s| - 1])) }

  // ---------------------------------------------------------------- trimming

  /** `trimStart`: the longest suffix of `s` that does not start with white space. */
  function TrimStart(s: string): (r: string)
    ensures |r| <= |s| && r == s[|s| - |r|..]
    ensures AllSpaces(s[..|s| - |r|])
    ensures |r| == 0 || !IsSpace(r[0])
  {
    if |s| > 0 && IsSpace(s[0]) then TrimStart(s[1..]) else s
  }

  /** `trimEnd`: the longest prefix of `s` that does not end with white space. */
  function TrimEnd(s: string): (r: string)
    ensures |r| <= |s| && r == s[..|r|]
    ensures AllSpaces(s[|r|..])
    ensures |r| == 0 || !IsSpace(r[|r| - 1])
  {
    if |s| > 0 && IsSpace(s[|s| - 1]) then TrimEnd(s[..|s| - 1]) else s
  }

  /** `String.prototype.trim`. */
  function Trim(s: string): (r: string)
    ensures |r| <= |s| && Tight(r)
  {
    var t := TrimStart(s);
    var r := TrimEnd(t);
    assert |r| > 0 ==> r[0] == t[0];
    r
  }

  /** Trimming a string that has no surrounding white space leaves it alone. */
  lemma TrimTight(s: string)
    requires Tight(s)
    ensures Trim(s) == s
  {
  }

  /** Trimming removes exactly the white-space padding around a tight core. */
  lemma {:induction false} TrimPadded(pre: string, s: string, post: string)
    requires AllSpaces(pre) && AllSpaces(post) && Tight(s) && |s| > 0
    ensures Trim(pre + s + post) == s
  {
    assert pre + s + post == pre + (s + post);
    TrimStartPadded(pre, s + post);
    assert TrimStart(pre + s + post) == s + post;
    TrimEndPadded(s, post);
  }

  /** A string of white space alone trims to nothing. */
  lemma TrimAllSpaces(s: string)
    requires AllSpaces(s)
    ensures Trim(s) == ""
  {
  }

  /** Trimming recovers a tight core, empty or not, from its padding. */
  lemma TrimAround(pre: string, s: string, post: string)
    requires AllSpaces(pre) && AllSpaces(post) && Tight(s)
    ensures Trim(pre + s + post) == s
  {
    if |s| > 0 {
      TrimPadded(pre, s, post);
    } else {
      assert pre + s + post == pre + post;
      TrimAllSpaces(pre + post);
    }
  }

  lemma {:induction false} TrimStartPadded(pre: string, s: string)
    requires AllSpaces(pre) && (|s| == 0 || !IsSpace(s[0]))
    ensures TrimStart(pre + s) == s
  {
    if |pre| > 0 {
      assert (pre + s)[1..] == pre[1..] + s;
      TrimStartPadded(pre[1..], s);
    } else {
      assert pre + s == s;
    }
  }

  lemma {:induction false} TrimEndPadded(s: string, post: string)
    requires AllSpaces(post) && (|s| == 0 || !IsSpace(s[|s| - 1]))
    ensures TrimEnd(s + post) == s
  {
    if |post| > 0 {
      assert (s + post)[..|s + post| - 1] == s + post[..|post| - 1];
      TrimEndPadded(s, post[..|post| - 1]);
    } else {
      assert s + post == s;
    }
  }

  // ------------------------------------------------------- search and replace

  /** `pat` occurs in `s` starting at index `i`. */
  predicate OccursAt(s: string, pat: string, i: nat) {
    i + |pat| <= |s| && s[i..i + |pat|] == pat
  }

  /** The first index at or after `from` where `pat` occurs. */
  function IndexOfFrom(s: string, pat: string, from: nat): (r: Option<nat>)
    decreases |s| - from
    ensures r.Some? ==> from <= r.value && OccursAt(s, pat, r.value)
    ensures r.Some? ==> forall j :: from <= j < r.value ==> !OccursAt(s, pat, j)
    ensures r.None? ==> forall j :: from <= j ==> !OccursAt(s, pat, j)
  {
    if from + |pat| > |s| then None
    else if s[from..from + |pat|] == pat then Some(from)
    else IndexOfFrom(s, pat, from + 1)
  }

  /** `String.prototype.indexOf`, with `None` for -1. */
  function IndexOf(s: string, pat: string): Option<nat> {
    IndexOfFrom(s, pat, 0)
  }

  /** `String.prototype.includes`. */
  predicate Contains(s: string, pat: string) {
    IndexOf(s, pat).Some?
  }

  /** `String.prototype.endsWith`. */
  predicate EndsWith(s: string, suffix: string) {
    |suffix| <= |s| && s[|s| - |suffix|..] == suffix
  }

  /** `String.prototype.replace` with a string pattern: only the first
      occurrence is replaced (the replacement strings used here hold no `$`). */
  function ReplaceFirst(s: string, pat: string, rep: string): (r: string)
    ensures !Contains(s, pat) ==> r == s
    ensures Contains(s, pat) ==> |r| == |s| - |pat| + |rep|
  {
    match IndexOf(s, pat)
    case None => s
    case Some(k) => s[..k] + rep + s[k + |pat|..]
  }

  /** The first occurrence is found where it is: when `pat` occurs at `k`
      and at no index before `k`. */
  lemma FirstOccurrence(s: string, pat: string, k: nat)
    requires OccursAt(s, pat, k)
    requires forall j :: 0 <= j < k ==> !OccursAt(s, pat, j)
    ensures IndexOf(s, pat) == Some(k)
  {
  }

  /** Replacing a pattern whose first occurrence starts at `k` splices the
      replacement in at `k`; later occurrences stay. */
  lemma ReplaceFirstAt(s: string, pat: string, rep: string, k: nat)
    requires OccursAt(s, pat, k)
    requires forall j :: 0 <= j < k ==> !OccursAt(s, pat, j)
    ensures ReplaceFirst(s, pat, rep) == s[..k] + rep + s[k + |pat|..]
  {
    FirstOccurrence(s, pat, k);
  }

  /** No occurrence of `pat` starts before `k` when its first character
      appears nowhere before `k`. */
  lemma NoOccurrenceBefore(s: string, pat: string, k: nat)
    requires |pat| > 0
    requires forall j :: 0 <= j < k && j < |s| ==> s[j] != pat[0]
    ensures forall j :: 0 <= j < k ==> !OccursAt(s, pat, j)
  {
    OccurrenceStartsWithHead(s, pat);
  }

  /** A string none of whose characters starts `pat` does not contain it. */
  lemma NotContains(s: string, pat: string)
    requires |pat| > 0
    requires forall j :: 0 <= j < |s| ==> s[j] != pat[0]
    ensures !Contains(s, pat)
  {
    OccurrenceStartsWithHead(s, pat);
  }

  /** An occurrence starts with the pattern's first character. */
  lemma OccurrenceStartsWithHead(s: string, pat: string)
    requires |pat| > 0
    ensures forall j: nat :: OccursAt(s, pat, j) ==> s[j] == pat[0]
  {
    forall j: nat | OccursAt(s, pat, j)
      ensures s[j] == pat[0]
    {
      assert s[j..j + |pat|][0] == s[j];
    }
  }

  // ------------------------------------------------------------ letter case

  /** `toLowerCase` on one character, for the ASCII range. */
  function LowerChar(c: char): char {
    if 'A' <= c <= 'Z' then (c as int + 32) as char else c
  }

  /** `String.prototype.toLowerCase`, ASCII letters only. */
  function ToLower(s: string): (r: string)
    ensures |r| == |s|
    ensures forall i :: 0 <= i < |s| ==> r[i] == LowerChar(s[i])
  {
    if |s| == 0 then []
    else
      var r := ToLower(s[..|s| - 1]) + [LowerChar(s[|s| - 1])];
      assert forall i :: 0 <= i < |s| - 1 ==> r[i] == LowerChar(s[..|s| - 1][i]);
      r
  }

  /** Lower-casing a string without upper-case ASCII letters is the identity. */
  lemma ToLowerNoUpper(s: string)
    requires forall i :: 0 <= i < |s| ==> !('A' <= s[i] <= 'Z')
    ensures ToLower(s) == s
  {
  }

  // ----------------------------------------------------------------- digits

  function DigitValue(c: char): nat
    requires IsDigit(c)
  {
    c as int - '0' as int
  }

  function DigitChar(d: nat): (c: char)
    requires d < 10
    ensures IsDigit(c) && DigitValue(c) == d
  {
    ('0' as int + d) as char
  }

  /** The value of a string of decimal digits, most significant first. */
  function DigitsValue(s: string): nat
    requires AllDigits(s)
  {
    if |s| == 0 then 0 else DigitsValue(s[..|s| - 1]) * 10 + DigitValue(s[|s| - 1])
  }

  /** Decimal rendering of a natural number, as JavaScript's `String(n)`:
      no leading zero, and the digits read back as `n`. */
  function NatToString(n: nat): (r: string)
    ensures |r| >= 1 && AllDigits(r)
    ensures DigitsValue(r) == n
    ensures r[0] != '0' || n == 0
  {
    if n < 10 then [DigitChar(n)]
    else
      var p := NatToString(n / 10);
      var r := p + [DigitChar(n % 10)];
      assert r[..|r| - 1] == p;
      r
  }

  /** Decimal rendering of an integer (a template-literal `${n}`). */
  function IntToString(n: int): (r: string)
    ensures |r| >= 1
    ensures n >= 0 ==> AllDigits(r) && DigitsValue(r) == n
    ensures n < 0 ==> r[0] == '-' && AllDigits(r[1..]) && DigitsValue(r[1..]) == -n
  {
    if n < 0 then "-" + NatToString(-n) else NatToString(n)
  }
}

=== FILE: wrappers.dfy ===
/** Option and Result, the two failure-carrying shapes the model uses in place
    of JavaScript's null/undefined and thrown errors. */
module Wrappers {

  /** A value that may be absent: SQL NULL, a JavaScript null or undefined. */
  datatype Option<+T> = None | Some(value: T) {

    /** Returns the wrapped value, or `default` when there is none. */
    function GetOr(default: T): T {
      match this
      case Some(v) => v
      case None => default
    }
  }

  /** The outcome of a step that can throw: the value, or the error message. */
  datatype Result<+R, +E> = Success(value: R) | Failure(error: E)

  /** `xs.map(f)` where `f` may throw: every element mapped in order, or
      `None` as soon as one of them fails. */
  function MapAll<A, B>(xs: seq<A>, f: A -> Option<B>): (r: Option<seq<B>>)
    ensures r.Some? <==> forall i :: 0 <= i < |xs| ==> f(xs[i]).Some?
    ensures r.Some? ==> |r.value| == |xs|
    ensures r.Some? ==> forall i :: 0 <= i < |xs| ==> f(xs[i]) == Some(r.value[i])
    decreases |xs|
  {
    if |xs| == 0 then Some([])
    else
      var n := |xs| - 1;
      var front := MapAll(xs[..n], f);
      assert forall i :: 0 <= i < n ==> xs[..n][i] == xs[i];
      if front.None? || f(xs[n]).None? then None
      else Some(front.value + [f(xs[n]).value])
  }

  /** `xs.slice(1).map(f)`: the same, skipping the first element. */
  function MapAllAfterFirst<A, B>(xs: seq<A>, f: A -> Option<B>): (r: Option<seq<B>>)
    ensures r.Some? <==> forall i :: 1 <= i < |xs| ==> f(xs[i]).Some?
    ensures r.Some? ==> |r.value| == if |xs| == 0 then 0 else |xs| - 1
    ensures r.Some? ==> forall i :: 0 <= i < |r.value| ==> f(xs[i + 1]) == Some(r.value[i])
  {
    if |xs| == 0 then Some([])
    else
      assert forall i :: 1 <= i < |xs| ==> xs[i] == xs[1..][i - 1];
      MapAll(xs[1..], f)
  }
}
